=== FILE: README.md ===
# Axis coordination core in Dafny

This project models the coordination layer of Axis. Axis is a shared-context service for several AI coding agents working in one repository. The model also covers the small decision rules of its web API.

- **NerveCenter** (`src/local/nerve-center.ts`) is the in-memory state machine every agent talks to. It holds three things:
  - a table of file locks with lazy expiry;
  - a job board whose jobs go todo → in_progress → done/cancelled, with dependencies and priorities;
  - an append-only notepad.
- **Bundled server** (`packages/axis-server/dist/mcp-server.mjs`): the model covers only what differs from the source. That is the path confinement of `ContextManager`, the in-memory lock purge, the job-id map used for eligibility, and the billing tools. Its in-memory `getLiveContext` also lists every lock as stored (`getLocks`), with no purge first, so a stale lock still shows there while the source's `getLiveContext` expires it.
- **Lock admission** (`frontend/app/api/v1/locks/route.ts`) is the hierarchical lock API: validation, the lock-scope rule, and the parent/child conflict rule.
- **Small rules**: the lock-event log and its statistics, the fixed-window rate limiter, the request gate (`middleware.ts`), the subscription status route and the Stripe webhook.

## Modelling choices

- **Atomic steps.** Each mutating NerveCenter operation runs under one mutex, so each is one pure transition `State → (State, reply)`. `Run` applies a sequence of them. `getLiveContext` runs outside the mutex (src/local/nerve-center.ts:230-233): its purge has no `await` inside and is modelled as the step `CleanStale`, but it awaits `saveState` before it lists, so its listing can include steps that ran in between.
- **Parameters instead of the environment.** The clock (`now`), fresh job ids, the session and every database, Redis or Stripe result are parameters or oracle records (`Backend`, `Faults`).
- **JavaScript objects.** The lock and job tables are plain objects. They are modelled as insertion-ordered association lists (`Records.Record`):
  - assigning an existing key keeps its place;
  - `delete` removes the entry;
  - `Object.values` and `Object.entries` walk in insertion order.

  The stable sort of `claimNextJob` therefore sees jobs in the order they were posted.
- **Notepad.** It is a sequence of structured `Note`s. The markdown text they are printed as is not modelled.
- **Paths.** POSIX `path.resolve` is modelled as segment normalisation (`Paths.Resolve`). A path is a list of segments, and `Paths.Render` writes it back as `/a/b/c`.
- **Integers** are unbounded. `Date` arithmetic is modelled only where a bound matters: `Js.MaxDateMs`, the largest time value a `Date` holds, in the webhook and in the lock-event cutoff; `now / 1000` as `Math.floor` for the non-negative clock.

## Model

| member | source | states |
|---|---|---|
| `Records.Put` | src/local/nerve-center.ts:271-277 | Assigning a key replaces its entry in place, or appends a new one; every other key reads as before. |
| `Records.Remove` | src/local/nerve-center.ts:185 | `delete` leaves the key unbound and every other key as it was. |
| `Records.FilterGet` | src/local/nerve-center.ts:219-221 | Deleting entries while walking the table keeps exactly the entries the test keeps, under their keys. |
| `JobBoard.PickFrom` | src/local/nerve-center.ts:129-146 | Finds an eligible job no other eligible job sorts before, and the earliest such one, or reports that none is eligible. |
| `JobBoard.PickNext` | src/local/nerve-center.ts:129-146 | The chosen job is the head of the stable sort of eligible jobs, and None exactly when no job is eligible. |
| `JobBoard.PickNextIsSortHead` | src/local/nerve-center.ts:139-146 | The sort head is unique, so the stable sort and `PickNext` agree on every board. |
| `JobBoard.UnlistedPriorityGoesFirst` | src/local/nerve-center.ts:127-144 | A priority outside the four names ranks -1 under `indexOf`, so its job sorts ahead of any named priority, critical included. |
| `JobBoard.PostJob` | src/local/nerve-center.ts:100-118 | One new todo job under the fresh id, with the priority string passed through unchecked (medium by default) and the given dependencies; nothing else changes and the board invariant holds. |
| `JobBoard.ClaimNextJob` | src/local/nerve-center.ts:122-164 | NO_JOBS_AVAILABLE iff nothing is eligible, and then no change; otherwise exactly the sort head becomes in_progress, assigned to the caller. |
| `JobBoard.CompleteJob` | src/local/nerve-center.ts:193-211 | An unknown id and a caller other than the assignee are refused without change; the assignee's job becomes done whatever its earlier status. |
| `JobBoard.CancelJob` | src/local/nerve-center.ts:167-177 | An unknown id is refused without change; a known job becomes cancelled and the other jobs are untouched. |
| `JobBoard.FinalizeJobs` | src/local/nerve-center.ts:338-345 | Keeps exactly the jobs that are neither done nor cancelled, and the board stays valid. |
| `JobBoard.FinalizeJobsAppend` | src/local/nerve-center.ts:338-345 | Finalisation works job by job: finalising two boards laid end to end gives the two results end to end, so order and count are kept. |
| `JobBoard.CancelledJobIsNeverClaimed` | src/local/nerve-center.ts:129-130 | After a cancellation, no later claim hands out that job. |
| `JobBoard.CompletionUnblocks` | src/local/nerve-center.ts:134-137 | Once its assignee completes a job, every dependency on it counts as met. |
| `JobBoard.MissingDependencyBlocks` | src/local/nerve-center.ts:134-137 | A job that depends on an id missing from the board is never eligible. |
| `JobBoard.DoneJobLeavesBoard` | src/local/nerve-center.ts:343-345 | A done job is gone from the board after finalisation. |
| `LockTable.CleanStaleLocks` | src/local/nerve-center.ts:216-228 | Splits the table into the locks not strictly older than the timeout and the expired ones; what survives is what `Live` reports. |
| `LockTable.Decide` | src/local/nerve-center.ts:259-289 | Another agent's surviving lock yields REQUIRES_ORCHESTRATION with the table unchanged; otherwise the caller holds a fresh lock stamped `now`. |
| `LockTable.ProposeFileAccess` | src/local/nerve-center.ts:256-290 | Orchestration iff a live lock held by another agent exists; a grant records exactly the caller's lock and keeps every other live lock. |
| `LockTable.ForceUnlock` | src/local/nerve-center.ts:180-191 | "Not locked" iff no entry exists, with no change; otherwise only that entry goes and the previous owner is reported. |
| `LockTable.GrantExcludesOthers` | src/local/nerve-center.ts:262-268 | Within the timeout after a grant, another agent is sent to orchestration. |
| `LockTable.SameAgentRefreshes` | src/local/nerve-center.ts:270-277 | The holder asking again is granted, with the timestamp renewed. |
| `LockTable.ForceUnlockFreesPath` | src/local/nerve-center.ts:180-191 | After a forced unlock any agent is granted the path. |
| `LockTable.ExpiryIsStrict` | src/local/nerve-center.ts:220 | A lock exactly `timeout` old still blocks; one millisecond later it has expired. |
| `NerveCenter.Initial` | src/local/nerve-center.ts:56-66 | Empty tables, a session-start note, the configured timeout when it is non-zero, and the 30-minute default when it is absent or 0. |
| `NerveCenter.ExpiryNotes` | src/local/nerve-center.ts:222 | One "lock expired" note per dropped lock, in table order. |
| `NerveCenter.PostJob` | src/local/nerve-center.ts:100-118 | For a string (or absent) priority and a string-list (or absent) dependency list: the board gains the job, the notepad gains exactly one "job posted" note, and the locks are untouched. |
| `NerveCenter.ClaimNextJob` | src/local/nerve-center.ts:122-164 | As the board rule, and the notepad gains one "job claimed" note only on a claim. |
| `NerveCenter.CancelJob` | src/local/nerve-center.ts:167-177 | Unknown ids leave the whole state unchanged; a cancellation appends one note. |
| `NerveCenter.CompleteJob` | src/local/nerve-center.ts:193-211 | Refusals leave the whole state unchanged; completion appends one "job done" note. |
| `NerveCenter.ForceUnlock` | src/local/nerve-center.ts:180-191 | As the table rule, plus one admin note on an unlock. |
| `NerveCenter.ProposeFileAccess` | src/local/nerve-center.ts:256-290 | The table result of the lock rule; the notepad gains the expiry notes, then a grant note only on a grant. |
| `NerveCenter.CleanStale` | src/local/nerve-center.ts:230-233 | After the lazy purge exactly the live locks remain; the answer is true iff some lock was stale. |
| `NerveCenter.UpdateSharedContext` | src/local/nerve-center.ts:293-299 | One agent note appended, everything else unchanged, reply "Notepad updated.". |
| `NerveCenter.FinalizeSession` | src/local/nerve-center.ts:302-345 | When the unguarded archive write fails the state is unchanged; otherwise no locks, only unfinished jobs, and a notepad reset to one session-start note. |
| `NerveCenter.NotepadOnlyGrows` | src/local/nerve-center.ts:115-338 | Across any run without a successful finalisation, the old notepad is a prefix of the new one. |
| `NerveCenter.InMemoryListsStaleLocks` | packages/axis-server/dist/mcp-server.mjs:460-482 | A stale lock is still listed by the bundled in-memory `getLocks`, while the source's purge removes it and reports that one expired. |
| `NerveCenter.ProposeFileAccessInMemory` | packages/axis-server/dist/mcp-server.mjs:519-550 | The bundled variant purges expired locks without notes; a grant appends exactly one note and a refusal none. |
| `NerveCenter.InMemoryProposeAgrees` | packages/axis-server/dist/mcp-server.mjs:519-550 | Bundled and source variants give the same reply, locks and jobs; their notepads differ only by the expiry notes. |
| `NerveCenter.JobsByIdDomain` | packages/axis-server/dist/mcp-server.mjs:346-349 | The id map holds exactly the ids of the listed jobs. |
| `NerveCenter.JobsByIdLastWins` | packages/axis-server/dist/mcp-server.mjs:346-349 | An id bound by a later job is looked up as that later job. |
| `NerveCenter.InMemoryEligibilityAgrees` | packages/axis-server/dist/mcp-server.mjs:344-358 | On a consistent board, the bundled id-map eligibility equals the source's keyed lookup. |
| `NerveCenter.Apply` | src/local/nerve-center.ts:100-345 | Every operation keeps both tables consistent. |
| `NerveCenter.Run` | src/local/nerve-center.ts:100-345 | Any sequence of operations keeps the state consistent. |
| `NerveCenter.CancelPreserves` | src/local/nerve-center.ts:167-177 | Cancelling keeps every job under its own id. |
| `NerveCenter.CompletePreserves` | src/local/nerve-center.ts:193-211 | Completing keeps every job under its own id. |
| `NerveCenter.AbsentIdStaysAbsent` | src/local/nerve-center.ts:100-345 | Only posting under that very id brings a missing job id back. |
| `NerveCenter.FinalizedParentStrandsChild` | src/local/nerve-center.ts:134-137 | After finalisation, whatever runs later, a job depending on a parent that was done is never eligible and never claimed. |
| `InheritedKeys.LookupAsWritten` | src/local/nerve-center.ts:259 | `obj[k]` gives the own entry, an inherited member for `Object.prototype` names, or undefined. |
| `InheritedKeys.ProposeFileAccessAsWritten` | src/local/nerve-center.ts:256-268 | As written, a conflict is reported iff no live lock exists and the path is a prototype name; on other paths it agrees with the own-key rule. |
| `InheritedKeys.PrototypeNameBlocksLock` | src/local/nerve-center.ts:259-262 | On an empty table, "constructor" is refused as written and granted by the own-key rule. |
| `InheritedKeys.CancelJobAsWritten` | src/local/nerve-center.ts:167-177 | As written, cancellation succeeds iff the id is a key or a prototype name; on other ids it agrees with the own-key rule. |
| `InheritedKeys.PrototypeNameIsCancelled` | src/local/nerve-center.ts:169-170 | On an empty board, "toString" is cancelled as written and not found by the own-key rule. |
| `InheritedKeys.ForceUnlockAsWritten` | src/local/nerve-center.ts:180-191 | As written, a prototype name that is not a key is reported unlocked with no owner and leaves an admin note; on other paths it agrees with the own-key rule. |
| `InheritedKeys.PrototypeNameIsUnlocked` | src/local/nerve-center.ts:182-189 | On an empty table, forcing "constructor" open is reported as an unlock as written and as "not locked" by the own-key rule. |
| `InheritedKeys.CompleteJobAsWritten` | src/local/nerve-center.ts:193-198 | As written, a prototype name that is not a key is refused as not owned, never as not found; on other ids it agrees with the own-key rule. |
| `InheritedKeys.PrototypeNameIsNotOwned` | src/local/nerve-center.ts:195-198 | On an empty board, completing "constructor" says "You don't own this job." as written and "Job not found" by the own-key rule. |
| `Paths.Normalize` | packages/axis-server/dist/mcp-server.mjs:30 | Normalising yields segments that are non-empty, separator-free, and neither "." nor "..". |
| `Paths.ConcatInside` | packages/axis-server/dist/mcp-server.mjs:31 | The textual test `startsWith(dir + "/")` holds exactly when the path lies strictly below `dir`. |
| `Paths.RenderInside` | packages/axis-server/dist/mcp-server.mjs:31 | The same equivalence for rendered absolute paths. |
| `Paths.RenderResolves` | packages/axis-server/dist/mcp-server.mjs:30 | Resolving the rendering of a normal path gives the path back, from any base. |
| `Paths.ResolveFilePath` | packages/axis-server/dist/mcp-server.mjs:26-35 | Invalid filename iff empty or containing NUL; otherwise accepted iff the resolved path lies strictly below the instructions directory. |
| `Paths.PlainNameIsAccepted` | packages/axis-server/dist/mcp-server.mjs:26-35 | A plain file name is accepted and names that file in the instructions directory. |
| `Paths.ResolveClimb` | packages/axis-server/dist/mcp-server.mjs:30 | `../s/t` relative to a directory is that directory's sibling `s`, then `t`. |
| `Paths.ClimbingOutIsRejected` | packages/axis-server/dist/mcp-server.mjs:30-34 | A name that climbs into a sibling of the instructions directory is rejected. |
| `Paths.ReadFileTarget` | packages/axis-server/dist/mcp-server.mjs:67-78 | Corrected: every file `readFile` accepts lies below the docs directory or below the instructions directory. |
| `Paths.UpdateFileTarget` | packages/axis-server/dist/mcp-server.mjs:79-80 | Every file `updateFile` may write lies strictly below the instructions directory. |
| `Paths.ReadFileTargetAsWritten` | packages/axis-server/dist/mcp-server.mjs:68-73 | As written: accepts everything the corrected rule accepts, and more on the `docs/` branch. |
| `Paths.DocsSiblingEscapes` | packages/axis-server/dist/mcp-server.mjs:71 | `docs/../docs-x/t` reaches a sibling of `docs` as written and is rejected by the corrected rule. |
| `LockAdmission.NonEmpty` | frontend/app/api/v1/locks/route.ts:79 | `filter(Boolean)` keeps exactly the non-empty parts. |
| `LockAdmission.NonEmptyAppend` | frontend/app/api/v1/locks/route.ts:79 | The filter works part by part, so the kept parts stay in order with their repeats. |
| `LockAdmission.LockScope` | frontend/app/api/v1/locks/route.ts:78-96 | Root lock iff the normalised path is empty, "." or "/"; too broad only for a dot-less last segment with fewer than two segments; acceptable otherwise. |
| `LockAdmission.ScopeFollowsNormalized` | frontend/app/api/v1/locks/route.ts:78-96 | Two paths with the same normalisation get the same scope decision. |
| `LockAdmission.SlashesDoNotMatter` | frontend/app/api/v1/locks/route.ts:78-79 | Leading and trailing slashes do not change the scope decision. |
| `LockAdmission.TopDirectoryIsTooBroad` | frontend/app/api/v1/locks/route.ts:91-96 | A single directory name is too broad. |
| `LockAdmission.TopFileIsAcceptable` | frontend/app/api/v1/locks/route.ts:80-82 | A single file name with an extension may be locked. |
| `LockAdmission.SubdirectoryIsAcceptable` | frontend/app/api/v1/locks/route.ts:91-96 | Two segments are deep enough. |
| `LockAdmission.OverlapIsSymmetric` | frontend/app/api/v1/locks/route.ts:117-121 | The parent/child conflict test does not depend on which path is the request. |
| `LockAdmission.DirectoryCoversItsFiles` | frontend/app/api/v1/locks/route.ts:117-121 | A directory lock overlaps every path below it. |
| `LockAdmission.FirstConflict` | frontend/app/api/v1/locks/route.ts:101-136 | The loop stops at the first conflicting row, or finds none exactly when no row conflicts. |
| `LockAdmission.OwnLocksNeverDeny` | frontend/app/api/v1/locks/route.ts:113-115 | The caller's own locks never deny it. |
| `Js.Utf16Length` | frontend/app/api/v1/locks/route.ts:55-60 | JavaScript's `length` counts UTF-16 code units: between one and two per character, and one per character below U+10000. |
| `LockAdmission.Validate` | frontend/app/api/v1/locks/route.ts:53-71 | Passes iff the path and the agent are each absent or well formed and the action's required fields are present; a failure names the first check that fails, in the handler's order. |
| `LockAdmission.Acquire` | frontend/app/api/v1/locks/route.ts:75-178 | The lock action grants iff the scope is acceptable, the rows load, no row conflicts and the RPC returns a non-DENIED row; rejection happens exactly for an unacceptable scope; an overlap denial happens iff some row conflicts and names the first such row; a held denial names the RPC's owner. |
| `LockAdmission.Post` | frontend/app/api/v1/locks/route.ts:44-196 | 401 iff no session; GRANTED iff validation, scope, the conflict loop and the RPC all pass; a denial names the first conflicting row; 400 iff validation fails or the action is neither lock nor unlock; a valid unlock succeeds iff the delete does. |
| `LockAdmission.EmptyRpcNeverGrants` | frontend/app/api/v1/locks/route.ts:153-159 | An empty or null RPC result is never a grant. |
| `LockAdmission.ParentLockDenies` | frontend/app/api/v1/locks/route.ts:117-133 | Another agent's fresh lock on a parent directory denies the request, naming that lock. |
| `LockEvents.PostEvent` | frontend/app/api/v1/lock-events/route.ts:101-137 | Missing fields iff a required field is falsy; invalid type iff all three are present and the type is not one of the four; a logged row stores truthy optional fields as given and defaults the others to null, null and `{}`. |
| `LockEvents.OptionalFieldsDoNotGate` | frontend/app/api/v1/lock-events/route.ts:110-132 | The optional fields never decide the answer: bodies that agree on type, path and agent get the same answer, up to the stored optional fields. |
| `LockEvents.ParseInt` | frontend/app/api/v1/lock-events/route.ts:26 | `parseInt` fails iff no digit follows the white space and sign. |
| `LockEvents.ParsePositiveDecimal` | frontend/app/api/v1/lock-events/route.ts:26 | Parsing reads back any decimal number. |
| `LockEvents.ParseNegativeDecimal` | frontend/app/api/v1/lock-events/route.ts:26 | Parsing a minus sign followed by a decimal number gives that number's negation. |
| `LockEvents.DaysDefault` | frontend/app/api/v1/lock-events/route.ts:26 | A missing or empty `days` parameter means seven. |
| `LockEvents.Aggregate` | frontend/app/api/v1/lock-events/route.ts:50-66 | Each summary counter is the sum of counts over rows of its lower-cased type; daily entries add only BLOCKED and GRANTED counts. |
| `LockEvents.DayCountAbsent` | frontend/app/api/v1/lock-events/route.ts:81-82 | A day no row mentions counts zero. |
| `LockEvents.FillDays` | frontend/app/api/v1/lock-events/route.ts:68-84 | Exactly `days` points, oldest first, ending today, each with that day's counts or zero. |
| `LockEvents.ChartIsConsecutive` | frontend/app/api/v1/lock-events/route.ts:73-77 | Consecutive points are consecutive days and their weekday labels advance by one. |
| `LockEvents.GetStats` | frontend/app/api/v1/lock-events/route.ts:20-95 | 401 iff no session; 500 iff the backend fails or `days` is NaN or puts the cutoff date outside the `Date` range; on success the summary, the daily chart and the recent list as above. |
| `LockEvents.LetterDaysIsNaN` | frontend/app/api/v1/lock-events/route.ts:26-45 | A `days` value starting with a letter parses to NaN, and the request fails instead of answering. |
| `RateLimit.Incr` | frontend/lib/rate-limit.ts:20 | A missing or expired counter restarts at 1 without expiry; a live one counts up and keeps its expiry; no other key changes. |
| `RateLimit.Decide` | frontend/lib/rate-limit.ts:26-41 | Allowed iff count ≤ limit; remaining is limit − count when allowed and 0 otherwise; reset is now plus the remaining time to live, or now when the key has no expiry. |
| `RateLimit.RateLimit` | frontend/lib/rate-limit.ts:13-47 | As written: only the limiter's key changes; a failed `INCR`, a failed `PEXPIRE` on the first call, or a failed `PTTL` fails open with remaining 1 and reset now + window; otherwise the call decides on the incremented count and the key's time to live. |
| `RateLimit.WindowCounts` | frontend/lib/rate-limit.ts:20-41 | Inside an open window the n-th further call is allowed iff the running count stays within the limit. |
| `RateLimit.WindowAdmitsLimit` | frontend/lib/rate-limit.ts:20-41 | In one window opened on a fresh key, exactly the first `limit` calls are allowed. |
| `RateLimit.ExpiredWindowRestarts` | frontend/lib/rate-limit.ts:20-24 | After the window has passed, the next call opens a new one and is allowed. |
| `RateLimit.StuckCounter` | frontend/lib/rate-limit.ts:22-24 | A failed `PEXPIRE` on the first call leaves a counter without expiry, which refuses the key at any later time. |
| `RateLimit.RateLimitRearming` | frontend/lib/rate-limit.ts:13-47 | Corrected: every faultless call leaves the counter with an expiry; where the counter had one, it answers as written. |
| `RateLimit.RearmingUnsticks` | frontend/lib/rate-limit.ts:22-26 | In the stuck scenario the corrected limiter allows the key again one window later. |
| `RateLimit.GetClientIp` | frontend/lib/rate-limit.ts:49-51 | Never empty: the trimmed first entry of the header, or "unknown" when that is absent or blank. |
| `RateLimit.ClientIsFirstHop` | frontend/lib/rate-limit.ts:49-51 | Behind a proxy chain, the client's own address is the one reported. |
| `Middleware.SomePrefix` | frontend/middleware.ts:19 | `some(startsWith)` holds iff some listed prefix starts the path. |
| `Middleware.SomeExtension` | frontend/middleware.ts:15 | The image regex matches iff the path ends in a dot and one of the six extensions. |
| `Middleware.Gatekeep` | frontend/middleware.ts:7-34 | Passes iff there is a session or the path is open; without a session, API paths get 401 and other paths go to the login page. |
| `Middleware.PublicPrefixIsOpen` | frontend/middleware.ts:5 | Every path that merely begins with a public path passes without a session. |
| `Middleware.ImageSuffixIsOpen` | frontend/middleware.ts:15-17 | Every path ending in an image extension passes without a session, API paths included. |
| `Middleware.MatcherChangesNothing` | frontend/middleware.ts:36-40 | The paths the route matcher excludes are ones the gate passes anyway. |
| `Profiles.WithEmail` | packages/axis-server/dist/mcp-server.mjs:605 | `.eq("email", e)` keeps exactly the rows with that email. |
| `Profiles.WithEmailAppend` | packages/axis-server/dist/mcp-server.mjs:605 | The filter works row by row, so the kept rows stay in table order with their duplicates. |
| `Profiles.WithEmailIgnoringCase` | frontend/app/api/stripe/status/route.ts:35-39 | `.ilike` keeps exactly the rows whose email matches up to case. |
| `Profiles.WithEmailIgnoringCaseAppend` | frontend/app/api/stripe/status/route.ts:35-39 | The case-blind filter also works row by row, keeping order and duplicates. |
| `Profiles.Single` | frontend/app/api/stripe/status/route.ts:39 | `.single()` yields the row iff exactly one matched. |
| `Profiles.UpdateWhere` | frontend/app/api/stripe/webhook/route.ts:55-61 | An update rewrites exactly the selected rows, in place. |
| `Profiles.WithEmailAfterUpdate` | frontend/app/api/stripe/webhook/route.ts:55-61 | An update that keeps emails commutes with the email filter. |
| `Billing.GetSubscriptionStatus` | packages/axis-server/dist/mcp-server.mjs:601-616 | Plan "Pro" iff the status is "pro" or the period end is ahead; the reply names the queried email and the stored status, or "free" when that is null or empty; no single profile gives "not found". |
| `Billing.GetUsageStats` | packages/axis-server/dist/mcp-server.mjs:617-628 | The stored usage count, or 0, and the fixed limit 1000. |
| `StripeWebhook.FirstEmail` | frontend/app/api/stripe/webhook/route.ts:36 | The customer-details email, else the metadata email, and only non-empty ones. |
| `StripeWebhook.PlanFor` | frontend/app/api/stripe/webhook/route.ts:53 | "pro" iff the Stripe status is active or trialing, else "free". |
| `StripeWebhook.Handle` | frontend/app/api/stripe/webhook/route.ts:13-88 | A bad signature gives 400 and no change; each event rewrites exactly the rows it selects; other events change nothing and are acknowledged. |
| `StripeWebhook.DeletionShowsFree` | frontend/app/api/stripe/webhook/route.ts:65-76 | After a deletion event, the billing tool reports the customer as "Free". |
| `StripeWebhook.ActivationShowsPro` | frontend/app/api/stripe/webhook/route.ts:50-62 | After an active or trialing update, the billing tool reports "Pro". |
| `StripeWebhook.CheckoutShowsPro` | frontend/app/api/stripe/webhook/route.ts:33-47 | After a checkout carrying the buyer's email, the billing tool reports "Pro". |
| `StripeWebhook.EventKeepsUsage` | frontend/app/api/stripe/webhook/route.ts:33-76 | No webhook event changes what the usage tool reports for any email: the updates leave emails and usage counts alone. |
| `StripeWebhook.UpdatedRow` | frontend/app/api/stripe/webhook/route.ts:55-61 | The one profile with an email, after an update that selects it, is its rewritten self. |
| `StripeStatus.NormalizeEmail` | frontend/app/api/stripe/status/route.ts:17 | The normalised email has no upper-case ASCII letter and no white space at either end. |
| `StripeStatus.NormalizeEmailTrimsLowered` | frontend/app/api/stripe/status/route.ts:17 | It is a contiguous slice of the lower-cased email, and every character cut off on either side is white space. |
| `StripeStatus.CustomerFor` | frontend/app/api/stripe/status/route.ts:50-53 | The profile's own customer id when set; the fallback customer only for a super user. |
| `StripeStatus.Describe` | frontend/app/api/stripe/status/route.ts:71-90 | Reports the subscription active iff active, trialing, past due, or cancelled with its period ahead; the retention flag iff the coupon appears. |
| `StripeStatus.Answer` | frontend/app/api/stripe/status/route.ts:25-104 | 404 iff no single profile and not a super user; 500 iff the Stripe call fails for a customer; "pro" iff super user, "pro" profile, active subscription, or period end ahead; the stored period end, and the Stripe part describing the customer's latest subscription when the key is set. |
| `StripeStatus.Get` | frontend/app/api/stripe/status/route.ts:8-113 | 401 iff no session; otherwise the answer for the session's email, with the Stripe part of the session's customer and the profile's period end; 500 iff that customer exists, the key is set and the Stripe call fails. |
| `StripeStatus.SuperUserIsPro` | frontend/app/api/stripe/status/route.ts:22-46 | The two owner addresses are always "pro". |
| `StripeStatus.TypoReadsPrimaryProfile` | frontend/app/api/stripe/status/route.ts:17-22 | The misspelt address, in any case and with any surrounding white space, gets exactly the primary address's answer. |
| `StripeStatus.ActiveSubscriptionMakesPro` | frontend/app/api/stripe/status/route.ts:55-80 | A single profile whose customer has an active subscription is "pro", with the Stripe details reported. |
| `StripeStatus.NoReasonMeansFree` | frontend/app/api/stripe/status/route.ts:46-104 | Without one of the four reasons, a user is "free". |
| `StripeStatus.CancelledKeepsAccessUntilPeriodEnd` | frontend/app/api/stripe/status/route.ts:75 | A cancelled subscription stays active until its period end. |

## Left out

- NerveCenter.PostJob: the model takes a priority string and a list of dependency ids, each possibly absent, and no other argument values. The MCP handler forwards the raw JSON arguments (src/local/mcp-server.ts:425-426), and the parameter defaults cover only `undefined`. So `postJob` throws after it has stored the job (src/local/nerve-center.ts:104-115) in two cases. One is a `null` or non-string priority, at `toUpperCase`. The other is a `null` dependency list, or a value with a truthy `length` and no `join`, such as a non-empty string. Then the job stays on the board, no "job posted" note is written, and the tool answers an error. A truthy dependency value that is not an array and whose `length` is not 0 stays stored, whether or not `postJob` threw; a number or a non-empty string are examples. While that job is todo, every later `claimNextJob` then throws at `.every` (:133-134). Modelling these paths needs JSON values in the job record, which the model's typed `Job` does not have.
- Disk persistence (`saveState`, `loadState`), the session archive, RAG indexing and logging are file-system and process I/O. `finalizeSession` is modelled for its state only, with the archive write's outcome as an input.
- The markdown text of notepad entries and of `getLiveContext` is presentation. Notes are structured values.
- `Date.now()`, `Math.random()` job ids and ISO date strings: the clock and fresh ids are parameters, and days are integer day numbers. The lock-event chart therefore models dates as day numbers, not `YYYY-MM-DD` keys.
- Mutex and concurrency: each NerveCenter operation is one atomic step.
- The Supabase branches of the bundled NerveCenter, the `try_acquire_lock`, `clean_stale_locks` and `get_lock_event_stats` RPCs, and the recent-BLOCKED query are oracles or inputs.
- Signature verification, sessions and JWTs are inputs (`hasSession`, `signatureValid`).
- JavaScript objects order integer-like keys ahead of the others; the association lists keep plain insertion order.
- `toLowerCase` is modelled on ASCII letters only. `trim` uses the ECMAScript white-space set.
- `ilike` patterns are modelled without `%` and `_` wildcards.
- `updated_at` that does not parse is `NaN`. It is modelled as a lock that never counts as stale (`LockRow.updatedAt == None`).
- The summary's `key in summary` test also accepts inherited names such as `constructor`. Those rows would corrupt the summary object; the model ignores them.
- Windows path semantics: `path.resolve` is modelled for POSIX.
- LockTable.ProposeFileAccess: requires each path to be keyed once, which every reachable state satisfies (`NerveCenter.Consistent` is kept by every operation).
- RateLimit.RateLimit: the three Redis commands all see the one clock reading `now`. A failed command is modelled as not applied: a lost reply after `INCR` took effect is not modelled.
- StripeStatus.Describe: when there is neither a retention discount nor a `discounts` list, the source's flag is `undefined` rather than `false`. The model reports `false`.
- Remaining Stripe routes, the usage, keys, feedback and support routes, the chat and embedding routes, CLIs, the Python SDK and all UI are forwarding code, network calls or presentation.

## Findings

| source | as written | input that shows it | evidently intended | confidence | as-written member | corrected member |
|---|---|---|---|---|---|---|
| src/local/nerve-center.ts:259 | `this.state.locks[filePath]` also finds members inherited from `Object.prototype` | `proposeFileAccess("agent-a", "constructor", …)` on an empty table returns REQUIRES_ORCHESTRATION | only own keys are locks, so the path is granted | high; not executed | `InheritedKeys.ProposeFileAccessAsWritten` (`InheritedKeys.PrototypeNameBlocksLock`) | `LockTable.ProposeFileAccess` |
| src/local/nerve-center.ts:169 | `this.state.jobs[jobId]` also finds inherited members | `cancelJob("toString", …)` on an empty board reports CANCELLED | "Job not found" | high; not executed | `InheritedKeys.CancelJobAsWritten` (`InheritedKeys.PrototypeNameIsCancelled`) | `JobBoard.CancelJob` |
| src/local/nerve-center.ts:182 | `this.state.locks[filePath]` finds inherited members, which are truthy | `forceUnlock("constructor", …)` on an empty table deletes nothing, appends an admin note and answers UNLOCKED with an undefined previous owner | "File was not locked." | high; not executed | `InheritedKeys.ForceUnlockAsWritten` (`InheritedKeys.PrototypeNameIsUnlocked`) | `NerveCenter.ForceUnlock` |
| src/local/nerve-center.ts:195 | `this.state.jobs[jobId]` finds inherited members, whose `assignedTo` is undefined | `completeJob("agent-a", "constructor", …)` on an empty board answers "You don't own this job." | "Job not found" | high; not executed | `InheritedKeys.CompleteJobAsWritten` (`InheritedKeys.PrototypeNameIsNotOwned`) | `NerveCenter.CompleteJob` |
| packages/axis-server/dist/mcp-server.mjs:71 | the docs check is `startsWith(docsDir)` without a trailing separator | `readFile("docs/../docs-private/key.md")` resolves to `<cwd>/docs-private/key.md` and is read | only files below `docs/` | high; not executed | `Paths.ReadFileTargetAsWritten` (`Paths.DocsSiblingEscapes`) | `Paths.ReadFileTarget` |
| frontend/lib/rate-limit.ts:22-24 | the window expiry is set only by the call whose `INCR` returned 1 | `PEXPIRE` fails once on that call; the counter never expires, and with limit 1 every later call is refused | every window ends after `windowMs` | medium (needs one store error); not executed | `RateLimit.RateLimit` (`RateLimit.StuckCounter`) | `RateLimit.RateLimitRearming` (`RateLimit.RearmingUnsticks`) |

=== FILE: billing.dfy ===
/** The bundled server's billing tools, `getSubscriptionStatus` and
    `getUsageStats` (packages/axis-server/dist/mcp-server.mjs), over the
    `profiles` table; `now` is the clock reading in milliseconds. */
module Billing {
  import opened Js
  import opened Profiles

  datatype SubscriptionReply =
    | NotConfigured
    | ProfileNotFound
    | Subscription(email: string, plan: string, status: string, validUntil: Option<int>)

  datatype UsageReply = UsageNotConfigured | Usage(email: string, usageCount: int, limit: int)

  const UsageLimit: int := 1000

  /** `profile.current_period_end && new Date(...) > new Date()`. */
  predicate PaidAhead(p: Profile, now: int) {
    p.currentPeriodEnd.Some? && p.currentPeriodEnd.value > now
  }

  /** `getSubscriptionStatus`: plan "Pro" for a "pro" status or a period end
      still ahead; the status column falls back to "free" when null or empty. */
  function GetSubscriptionStatus(configured: bool, t: Table, email: string, now: int): (r: SubscriptionReply)
    ensures !configured <==> r.NotConfigured?
    ensures r.ProfileNotFound? <==> configured && |WithEmail(t, email)| != 1
    ensures r.Subscription? ==>
      var p := WithEmail(t, email)[0];
      && p.email == email
      && (r.plan == "Pro" <==> p.subscriptionStatus == Some("pro") || PaidAhead(p, now))
      && (r.plan == "Free" <==> !(p.subscriptionStatus == Some("pro") || PaidAhead(p, now)))
      && r.email == email
      && (p.subscriptionStatus.Some? && p.subscriptionStatus.value != "" ==> r.status == p.subscriptionStatus.value)
      && (p.subscriptionStatus.None? || p.subscriptionStatus == Some("") ==> r.status == "free")
      && r.validUntil == p.currentPeriodEnd
  {
    if !configured then NotConfigured
    else
      match Single(WithEmail(t, email))
      case None => ProfileNotFound
      case Some(p) =>
        assert p in WithEmail(t, email);
        var isActive := p.subscriptionStatus == Some("pro") || PaidAhead(p, now);
        var status := if p.subscriptionStatus.Some? && p.subscriptionStatus.value != "" then p.subscriptionStatus.value else "free";
        Subscription(email, if isActive then "Pro" else "Free", status, p.currentPeriodEnd)
  }

  /** `getUsageStats`: the stored count, 0 when there is no single profile or
      the count is null or zero, and the fixed limit of 1000. */
  function GetUsageStats(configured: bool, t: Table, email: string): (r: UsageReply)
    ensures !configured <==> r.UsageNotConfigured?
    ensures r.Usage? ==> r.email == email && r.limit == UsageLimit
    ensures r.Usage? && r.usageCount != 0 ==>
      |WithEmail(t, email)| == 1 && WithEmail(t, email)[0].usageCount == Some(r.usageCount)
    ensures r.Usage? && |WithEmail(t, email)| == 1 && WithEmail(t, email)[0].usageCount.Some? ==>
      r.usageCount == WithEmail(t, email)[0].usageCount.value
  {
    if !configured then UsageNotConfigured
    else
      var count := match Single(WithEmail(t, email))
        case Some(p) => if p.usageCount.Some? then p.usageCount.value else 0
        case None => 0;
      Usage(email, count, UsageLimit)
  }
}

=== FILE: inherited_keys.dfy ===
/** The NerveCenter's tables are plain object literals, so `locks[path]` and
    `jobs[id]` also see the members every object inherits from
    `Object.prototype`. For those names the lookup is truthy even on an empty
    table. This module models the lookup as the code performs it, next to the
    own-key lookup (`Records.Get`) that the rest of the model uses. */
module InheritedKeys {
  import opened Js
  import opened Records
  import opened JobBoard
  import opened LockTable
  import NerveCenter

  /** Property names a plain object inherits from `Object.prototype`; each
      reads as a function (or, for `__proto__`, as the prototype object). */
  predicate IsInherited(k: string) {
    k in {"constructor", "__proto__", "hasOwnProperty", "isPrototypeOf", "propertyIsEnumerable",
          "toLocaleString", "toString", "valueOf",
          "__defineGetter__", "__defineSetter__", "__lookupGetter__", "__lookupSetter__"}
  }

  /** What `obj[k]` yields: an own entry, an inherited member, or `undefined`. */
  datatype Slot<V> = Own(value: V) | InheritedMember | Missing

  function LookupAsWritten<V>(r: Record<V>, k: string): (s: Slot<V>)
    ensures s.Own? <==> k in Keys(r)
    ensures s.Own? ==> Get(r, k) == Some(s.value)
    ensures s.InheritedMember? <==> k !in Keys(r) && IsInherited(k)
  {
    match Get(r, k)
    case Some(v) => Own(v)
    case None => if IsInherited(k) then InheritedMember else Missing
  }

  /** The answer of `proposeFileAccess` as written: besides the modelled
      replies, a conflict whose `currentLock` is a prototype member. */
  datatype AsWrittenReply = Answer(reply: ProposeReply) | ConflictWithPrototypeMember

  /** `proposeFileAccess` with the lookup as written: an unlocked path named
      like a prototype member is refused although nobody holds it. On every
      other path it agrees with `LockTable.ProposeFileAccess`. */
  function ProposeFileAccessAsWritten(
    locks: Locks, agentId: string, filePath: string, intent: string, userPrompt: string,
    now: int, timeout: int): (r: (Locks, AsWrittenReply))
    requires UniqueKeys(locks)
    ensures r.1.ConflictWithPrototypeMember? <==> Live(locks, filePath, now, timeout).None? && IsInherited(filePath)
    ensures r.1.ConflictWithPrototypeMember? ==> forall k :: Get(r.0, k) == Live(locks, k, now, timeout)
    ensures !IsInherited(filePath) ==>
      var p := LockTable.ProposeFileAccess(locks, agentId, filePath, intent, userPrompt, now, timeout);
      r == (p.locks, Answer(p.reply))
  {
    var c := CleanStaleLocks(locks, now, timeout);
    match LookupAsWritten(c.kept, filePath)
    case InheritedMember => (c.kept, ConflictWithPrototypeMember)
    case _ =>
      var d := Decide(c.kept, agentId, filePath, intent, userPrompt, now);
      (d.0, Answer(d.1))
  }

  /** On an empty table, an agent asking for `constructor` is sent to
      orchestration by the code as written, while the own-key rule grants it. */
  lemma PrototypeNameBlocksLock()
    ensures ProposeFileAccessAsWritten([], "agent-a", "constructor", "edit", "refactor", 0, LockTimeoutDefault).1
            == ConflictWithPrototypeMember
    ensures LockTable.ProposeFileAccess([], "agent-a", "constructor", "edit", "refactor", 0, LockTimeoutDefault).reply
            == Granted(FileLock("agent-a", "constructor", "edit", "refactor", 0))
  {
    assert IsInherited("constructor");
  }

  /** `cancelJob` with the lookup as written: an id named like a prototype
      member is reported cancelled although no such job exists (the status is
      written onto the inherited member, not onto the board). On every other
      id it agrees with `JobBoard.CancelJob`. */
  function CancelJobAsWritten(jobs: Jobs, jobId: string, now: int): (r: Step<Outcome>)
    ensures r.reply.Pass? <==> jobId in Keys(jobs) || IsInherited(jobId)
    ensures r.reply.Pass? && jobId !in Keys(jobs) ==> r.jobs == jobs
    ensures !IsInherited(jobId) ==> r == JobBoard.CancelJob(jobs, jobId, now)
  {
    match LookupAsWritten(jobs, jobId)
    case InheritedMember => Step(jobs, Pass)
    case _ => JobBoard.CancelJob(jobs, jobId, now)
  }

  /** On an empty board, cancelling `toString` succeeds as written; the
      own-key rule reports the job as not found. */
  lemma PrototypeNameIsCancelled()
    ensures CancelJobAsWritten([], "toString", 0).reply == Pass
    ensures JobBoard.CancelJob([], "toString", 0).reply == Fail(JobNotFound)
  {
    assert IsInherited("toString");
  }

  /** The answer of `forceUnlock` as written: besides the modelled replies,
      an unlock whose previous owner is `undefined`. */
  datatype UnlockAsWritten = UnlockAnswer(reply: UnlockReply) | UnlockedWithoutOwner

  /** `forceUnlock` with the lookup as written: a path named like a prototype
      member is truthy, so nothing is deleted, the admin line is still
      written, and the path is reported unlocked. On every other path it
      agrees with `NerveCenter.ForceUnlock`. */
  function ForceUnlockAsWritten(s: NerveCenter.State, filePath: string, adminReason: string): (r: NerveCenter.Out<UnlockAsWritten>)
    requires NerveCenter.Consistent(s)
    ensures r.reply.UnlockedWithoutOwner? <==> filePath !in Keys(s.locks) && IsInherited(filePath)
    ensures r.reply.UnlockedWithoutOwner? ==>
      r.state == s.(notepad := s.notepad + [NerveCenter.ForceUnlocked(filePath, adminReason)])
    ensures !IsInherited(filePath) ==>
      var u := NerveCenter.ForceUnlock(s, filePath, adminReason);
      r == NerveCenter.Out(u.state, UnlockAnswer(u.reply))
  {
    match LookupAsWritten(s.locks, filePath)
    case InheritedMember =>
      NerveCenter.Out(s.(notepad := s.notepad + [NerveCenter.ForceUnlocked(filePath, adminReason)]), UnlockedWithoutOwner)
    case _ =>
      var u := NerveCenter.ForceUnlock(s, filePath, adminReason);
      NerveCenter.Out(u.state, UnlockAnswer(u.reply))
  }

  /** With no locks held, force-unlocking `constructor` reports an unlock and
      writes an admin line as written; the own-key rule reports it not
      locked and changes nothing. */
  lemma PrototypeNameIsUnlocked(s: NerveCenter.State, adminReason: string)
    requires NerveCenter.Consistent(s) && s.locks == []
    ensures ForceUnlockAsWritten(s, "constructor", adminReason).reply == UnlockedWithoutOwner
    ensures |ForceUnlockAsWritten(s, "constructor", adminReason).state.notepad| == |s.notepad| + 1
    ensures NerveCenter.ForceUnlock(s, "constructor", adminReason) == NerveCenter.Out(s, NotLocked)
  {
    assert IsInherited("constructor");
  }

  /** `completeJob` with the lookup as written: an id named like a prototype
      member finds a truthy value whose `assignedTo` is `undefined`, so the
      caller is told it does not own the job. On every other id it agrees
      with `NerveCenter.CompleteJob`. */
  function CompleteJobAsWritten(s: NerveCenter.State, agentId: string, jobId: string, outcome: string, now: int): (r: NerveCenter.Out<Outcome>)
    ensures r.reply == Fail(NotOwner) <==>
      || (Get(s.jobs, jobId).Some? && Get(s.jobs, jobId).value.assignedTo != Some(agentId))
      || (jobId !in Keys(s.jobs) && IsInherited(jobId))
    ensures jobId !in Keys(s.jobs) ==> r.state == s
    ensures !IsInherited(jobId) ==> r == NerveCenter.CompleteJob(s, agentId, jobId, outcome, now)
  {
    match LookupAsWritten(s.jobs, jobId)
    case InheritedMember => NerveCenter.Out(s, Fail(NotOwner))
    case _ => NerveCenter.CompleteJob(s, agentId, jobId, outcome, now)
  }

  /** On an empty board, completing `constructor` is refused as not owned as
      written; the own-key rule reports the job as not found. */
  lemma PrototypeNameIsNotOwned(s: NerveCenter.State, agentId: string, outcome: string, now: int)
    requires s.jobs == []
    ensures CompleteJobAsWritten(s, agentId, "constructor", outcome, now).reply == Fail(NotOwner)
    ensures NerveCenter.CompleteJob(s, agentId, "constructor", outcome, now).reply == Fail(JobNotFound)
  {
    assert IsInherited("constructor");
  }
}

=== FILE: job_board.dfy ===
/** The job board of the NerveCenter (src/local/nerve-center.ts): jobs keyed by
    id in an insertion-ordered record, with the status lifecycle
    todo -> in_progress -> done / cancelled and the claim scheduling rule.
    Each function is one whole operation, run under the NerveCenter mutex;
    the clock reading and the freshly generated job id are parameters. */
module JobBoard {
  import opened Js
  import opened Records

  /** The four named priorities, and any other string a caller passes
      through unchecked (the tool handler forwards `args.priority` as is). */
  datatype Priority = Critical | High | Medium | Low | Other(name: string)

  datatype Status = Todo | InProgress | Done | Cancelled

  datatype Job = Job(
    id: string,
    title: string,
    description: string,
    priority: Priority,
    status: Status,
    assignedTo: Option<string>,
    dependencies: seq<string>,
    createdAt: int,
    updatedAt: int)

  type Jobs = Record<Job>

  /** Result of a board operation: the new board and what the caller is told. */
  datatype Step<R> = Step(jobs: Jobs, reply: R)

  datatype JobError = JobNotFound | NotOwner

  datatype Outcome = Pass | Fail(error: JobError)

  datatype ClaimReply = Claimed(job: Job) | NoJobsAvailable

  /** Board invariant: every job is stored under its own id, once. */
  predicate Valid(jobs: Jobs) {
    && UniqueKeys(jobs)
    && forall i :: 0 <= i < |jobs| ==> jobs[i].key == jobs[i].value.id
  }

  /** `["critical", "high", "medium", "low"].indexOf(p)`: -1 for any other
      string. */
  function Rank(p: Priority): int {
    match p
    case Critical => 0
    case High => 1
    case Medium => 2
    case Low => 3
    case Other(n) =>
      if n == "critical" then 0
      else if n == "high" then 1
      else if n == "medium" then 2
      else if n == "low" then 3
      else -1
  }

  /** A priority string outside the four names ranks -1, so its job sorts
      ahead of every job with a named priority, critical included. */
  lemma UnlistedPriorityGoesFirst(a: Job, b: Job)
    requires a.priority.Other? && a.priority.name !in ["critical", "high", "medium", "low"]
    requires !b.priority.Other?
    ensures Before(a, b) && !Before(b, a)
  {
  }

  /** The claim comparator is negative: `a` sorts strictly before `b`
      (higher priority first, then earlier creation time). */
  predicate Before(a: Job, b: Job) {
    || Rank(a.priority) < Rank(b.priority)
    || (Rank(a.priority) == Rank(b.priority) && a.createdAt < b.createdAt)
  }

  /** `jobs[d]` exists and is done. */
  predicate DependencyDone(jobs: Jobs, d: string) {
    var o := Get(jobs, d);
    o.Some? && o.value.status == Done
  }

  /** A job `claimNextJob` may hand out: still todo, and every dependency
      names an existing job that is done. */
  predicate Eligible(jobs: Jobs, j: Job) {
    && j.status == Todo
    && forall d :: d in j.dependencies ==> DependencyDone(jobs, d)
  }

  /** Position `i` holds the first element of the stable sort of the eligible
      jobs: it is eligible, no eligible job sorts strictly before it, and
      every eligible job stored earlier sorts strictly after it. */
  predicate SortHead(jobs: Jobs, i: nat) {
    && i < |jobs|
    && Eligible(jobs, jobs[i].value)
    && (forall k :: 0 <= k < |jobs| && Eligible(jobs, jobs[k].value) ==> !Before(jobs[k].value, jobs[i].value))
    && (forall k :: 0 <= k < i && Eligible(jobs, jobs[k].value) ==> Before(jobs[i].value, jobs[k].value))
  }

  /** The best eligible job among positions `from..`, earliest position on ties. */
  function PickFrom(jobs: Jobs, from: nat): (o: Option<nat>)
    requires from <= |jobs|
    ensures o.None? <==> forall k :: from <= k < |jobs| ==> !Eligible(jobs, jobs[k].value)
    ensures o.Some? ==> from <= o.value < |jobs| && Eligible(jobs, jobs[o.value].value)
    ensures o.Some? ==> forall k :: from <= k < |jobs| && Eligible(jobs, jobs[k].value) ==> !Before(jobs[k].value, jobs[o.value].value)
    ensures o.Some? ==> forall k :: from <= k < o.value && Eligible(jobs, jobs[k].value) ==> Before(jobs[o.value].value, jobs[k].value)
    decreases |jobs| - from
  {
    if from == |jobs| then None
    else
      var rest := PickFrom(jobs, from + 1);
      if !Eligible(jobs, jobs[from].value) then rest
      else if rest.Some? && Before(jobs[rest.value].value, jobs[from].value) then rest
      else Some(from)
  }

  /** The job `claimNextJob` takes: the head of the sorted eligible list. */
  function PickNext(jobs: Jobs): (o: Option<nat>)
    ensures o.None? <==> forall k :: 0 <= k < |jobs| ==> !Eligible(jobs, jobs[k].value)
    ensures o.Some? ==> SortHead(jobs, o.value)
  {
    PickFrom(jobs, 0)
  }

  /** The sort head is unique, so `PickNext` finds the one job the stable sort
      places first. */
  lemma PickNextIsSortHead(jobs: Jobs, i: nat)
    requires SortHead(jobs, i)
    ensures PickNext(jobs) == Some(i)
  {
    var j := PickNext(jobs).value;
    assert Eligible(jobs, jobs[i].value);
    assert j == i;
  }

  /** `postJob`: stores a new todo job under `id` (priority defaults to
      medium, dependencies to none) and answers with the id. The clock gives
      both timestamps. */
  function PostJob(
    jobs: Jobs, id: string, title: string, description: string,
    priority: Option<Priority>, dependencies: Option<seq<string>>, now: int): (r: Step<string>)
    ensures r.reply == id
    ensures var p := if priority.Some? then priority.value else Medium;
            var deps := if dependencies.Some? then dependencies.value else [];
            Get(r.jobs, id) == Some(Job(id, title, description, p, Todo, None, deps, now, now))
    ensures forall k :: k != id ==> Get(r.jobs, k) == Get(jobs, k)
    ensures id !in Keys(jobs) ==> |r.jobs| == |jobs| + 1 && r.jobs[..|jobs|] == jobs
    ensures Valid(jobs) ==> Valid(r.jobs)
  {
    var p := match priority case Some(q) => q case None => Medium;
    var deps := match dependencies case Some(ds) => ds case None => [];
    var job := Job(id, title, description, p, Todo, None, deps, now, now);
    var jobs' := Put(jobs, id, job);
    assert Valid(jobs) ==> Valid(jobs') by {
      if Valid(jobs) {
        forall i | 0 <= i < |jobs'|
          ensures jobs'[i].key == jobs'[i].value.id
        {
          GetAt(jobs', i);
          if jobs'[i].key != id {
            GetAt(jobs, Find(jobs, jobs'[i].key).value);
          }
        }
      }
    }
    Step(jobs', id)
  }

  /** The job as `claimNextJob` leaves it. */
  function ClaimedBy(j: Job, agentId: string, now: int): Job {
    j.(status := InProgress, assignedTo := Some(agentId), updatedAt := now)
  }

  /** `claimNextJob`: with no eligible job, NO_JOBS_AVAILABLE and no change;
      otherwise the sort head, and only it, becomes in_progress and assigned
      to the caller. */
  function ClaimNextJob(jobs: Jobs, agentId: string, now: int): (r: Step<ClaimReply>)
    ensures r.reply.NoJobsAvailable? <==> forall k :: 0 <= k < |jobs| ==> !Eligible(jobs, jobs[k].value)
    ensures r.reply.NoJobsAvailable? ==> r.jobs == jobs
    ensures r.reply.Claimed? ==>
      exists i: nat :: SortHead(jobs, i)
        && r.reply.job == ClaimedBy(jobs[i].value, agentId, now)
        && r.jobs == jobs[i := Entry(jobs[i].key, r.reply.job)]
    ensures Keys(r.jobs) == Keys(jobs)
    ensures Valid(jobs) ==> Valid(r.jobs)
  {
    match PickNext(jobs)
    case None => Step(jobs, NoJobsAvailable)
    case Some(i) =>
      var job := ClaimedBy(jobs[i].value, agentId, now);
      var jobs' := jobs[i := Entry(jobs[i].key, job)];
      assert Keys(jobs') == Keys(jobs);
      assert forall a :: 0 <= a < |jobs| ==> jobs'[a].key == jobs[a].key;
      Step(jobs', Claimed(job))
  }

  /** `completeJob`: unknown ids and callers that are not the assignee are
      refused with the board unchanged; the assignee's job becomes done,
      whatever its status was. */
  function CompleteJob(jobs: Jobs, agentId: string, jobId: string, now: int): (r: Step<Outcome>)
    ensures r.reply == Fail(JobNotFound) <==> jobId !in Keys(jobs)
    ensures r.reply == Fail(NotOwner) <==> Get(jobs, jobId).Some? && Get(jobs, jobId).value.assignedTo != Some(agentId)
    ensures r.reply.Fail? ==> r.jobs == jobs
    ensures r.reply.Pass? ==>
      && Get(r.jobs, jobId) == Some(Get(jobs, jobId).value.(status := Done, updatedAt := now))
      && Get(jobs, jobId).value.assignedTo == Some(agentId)
    ensures forall k :: k != jobId ==> Get(r.jobs, k) == Get(jobs, k)
    ensures Keys(r.jobs) == Keys(jobs)
  {
    match Get(jobs, jobId)
    case None => Step(jobs, Fail(JobNotFound))
    case Some(j) =>
      if j.assignedTo != Some(agentId) then Step(jobs, Fail(NotOwner))
      else Step(Put(jobs, jobId, j.(status := Done, updatedAt := now)), Pass)
  }

  /** `cancelJob`: an unknown id is refused with the board unchanged; any
      known job becomes cancelled, whatever its status was. */
  function CancelJob(jobs: Jobs, jobId: string, now: int): (r: Step<Outcome>)
    ensures r.reply.Fail? <==> jobId !in Keys(jobs)
    ensures r.reply.Fail? ==> r.reply.error == JobNotFound && r.jobs == jobs
    ensures r.reply.Pass? ==> Get(r.jobs, jobId) == Some(Get(jobs, jobId).value.(status := Cancelled, updatedAt := now))
    ensures forall k :: k != jobId ==> Get(r.jobs, k) == Get(jobs, k)
    ensures Keys(r.jobs) == Keys(jobs)
  {
    match Get(jobs, jobId)
    case None => Step(jobs, Fail(JobNotFound))
    case Some(j) => Step(Put(jobs, jobId, j.(status := Cancelled, updatedAt := now)), Pass)
  }

  /** Jobs `finalizeSession` keeps. */
  predicate Unfinished(j: Job) {
    j.status != Done && j.status != Cancelled
  }

  /** The job part of `finalizeSession`: exactly the jobs that are neither done
      nor cancelled stay, in their order. */
  function FinalizeJobs(jobs: Jobs): (r: Jobs)
    ensures forall i :: 0 <= i < |r| ==> r[i] in jobs && (r[i].value.status == Todo || r[i].value.status == InProgress)
    ensures forall i :: 0 <= i < |jobs| && Unfinished(jobs[i].value) ==> jobs[i] in r
    ensures Valid(jobs) ==> Valid(r)
  {
    var r := Filter(jobs, Unfinished);
    assert Valid(jobs) ==> Valid(r) by {
      if Valid(jobs) {
        forall i | 0 <= i < |r|
          ensures r[i].key == r[i].value.id
        {
          assert r[i] in jobs;
        }
      }
    }
    r
  }

  /** Finalising works job by job: the survivors keep their order. */
  lemma FinalizeJobsAppend(a: Jobs, b: Jobs)
    ensures FinalizeJobs(a + b) == FinalizeJobs(a) + FinalizeJobs(b)
  {
    FilterAppend(a, b, Unfinished);
  }

  /** A claimed job was todo with all dependencies done, so a cancelled job
      is never handed out. */
  lemma CancelledJobIsNeverClaimed(jobs: Jobs, jobId: string, now: int, agentId: string, later: int)
    requires Valid(jobs)
    ensures var c := CancelJob(jobs, jobId, now);
            var r := ClaimNextJob(c.jobs, agentId, later);
            r.reply.Claimed? ==> r.reply.job.id != jobId
  {
    var c := CancelJob(jobs, jobId, now);
    var r := ClaimNextJob(c.jobs, agentId, later);
    if r.reply.Claimed? && c.reply.Pass? {
      var i: nat :| SortHead(c.jobs, i) && r.reply.job == ClaimedBy(c.jobs[i].value, agentId, later)
        && r.jobs == c.jobs[i := Entry(c.jobs[i].key, r.reply.job)];
      assert Valid(c.jobs) by {
        forall j | 0 <= j < |c.jobs|
          ensures c.jobs[j].key == c.jobs[j].value.id
        {
          GetAt(c.jobs, j);
          GetAt(jobs, Find(jobs, c.jobs[j].key).value);
        }
      }
      GetAt(c.jobs, i);
      assert c.jobs[i].value.status == Todo;
    }
  }

  /** Completing a job as its assignee satisfies every dependency on it. */
  lemma CompletionUnblocks(jobs: Jobs, agentId: string, jobId: string, now: int)
    ensures var c := CompleteJob(jobs, agentId, jobId, now);
            c.reply.Pass? ==> DependencyDone(c.jobs, jobId)
  {
  }

  /** A job that depends on an id absent from the board is never eligible:
      the dependency lookup must find a done job. */
  lemma MissingDependencyBlocks(jobs: Jobs, j: Job, d: string)
    requires d in j.dependencies && d !in Keys(jobs)
    ensures !Eligible(jobs, j)
  {
    assert !DependencyDone(jobs, d);
  }

  /** `finalizeSession` deletes done jobs: the id of a done job is gone from
      the board afterwards, so with `MissingDependencyBlocks` a todo job that
      depended on it is left waiting for good. */
  lemma DoneJobLeavesBoard(jobs: Jobs, d: string)
    requires Valid(jobs) && DependencyDone(jobs, d)
    ensures d !in Keys(FinalizeJobs(jobs))
  {
    var r := FinalizeJobs(jobs);
    KeyIsMember(r, d);
    forall e | e in r
      ensures e.key != d
    {
      var m :| 0 <= m < |r| && r[m] == e;
      assert e in jobs;
      var n :| 0 <= n < |jobs| && jobs[n] == e;
      GetAt(jobs, n);
    }
  }
}

=== FILE: js.dfy ===
/** JavaScript value semantics the rest of the model relies on: optional
    values, request-body JSON values with their truthiness, and the string
    operations the TypeScript code calls (`startsWith`, `split`, `trim`,
    `toLowerCase`, and the slash-stripping regular expressions). */
module Js {

  datatype Option<+T> = None | Some(value: T)

  /** A value read from a parsed JSON request body; `Undefined` is a key that
      is missing from the body. Numbers are modelled as integers. */
  datatype Json =
    | Undefined
    | Null
    | Bool(b: bool)
    | Num(n: int)
    | Str(s: string)
    | Arr(items: seq<Json>)
    | Obj(fields: seq<(string, Json)>)

  /** JavaScript truthiness: `undefined`, `null`, `false`, `0` and `""` are
      falsy, every array and object is truthy. */
  predicate Truthy(v: Json) {
    match v
    case Undefined => false
    case Null => false
    case Bool(b) => b
    case Num(n) => n != 0
    case Str(s) => s != ""
    case Arr(_) => true
    case Obj(_) => true
  }

  /** The value of `a || b`. */
  function Or(a: Json, b: Json): Json {
    if Truthy(a) then a else b
  }

  /** `typeof v === "string"`. */
  predicate IsString(v: Json) {
    v.Str?
  }

  /** The largest magnitude, in milliseconds, a JavaScript `Date` can hold:
      beyond it the date is invalid and `toISOString` throws. */
  const MaxDateMs: int := 8_640_000_000_000_000

  predicate DateInRange(ms: int) {
    -MaxDateMs <= ms <= MaxDateMs
  }

  /** `s.length`: UTF-16 code units, two for each character above U+FFFF. */
  function Utf16Length(s: string): (n: nat)
    ensures |s| <= n <= 2 * |s|
    ensures (forall k :: 0 <= k < |s| ==> s[k] as int <= 0xFFFF) ==> n == |s|
  {
    if |s| == 0 then 0
    else Utf16Length(s[1..]) + (if s[0] as int > 0xFFFF then 2 else 1)
  }

  predicate StartsWith(s: string, prefix: string) {
    |prefix| <= |s| && s[..|prefix|] == prefix
  }

  predicate EndsWith(s: string, suffix: string) {
    |suffix| <= |s| && s[|s| - |suffix|..] == suffix
  }

  /** Index of the first occurrence of `c` in `s`. */
  function IndexOf(s: string, c: char): (i: nat)
    requires c in s
    ensures i < |s| && s[i] == c
    ensures forall k :: 0 <= k < i ==> s[k] != c
  {
    if s[0] == c then 0 else IndexOf(s[1..], c) + 1
  }

  /** `s.split(sep)` for a one-character separator: the pieces between
      separators, in order; never empty (`"".split(",")` is `[""]`). */
  function Split(s: string, sep: char): (parts: seq<string>)
    ensures |parts| >= 1
    ensures forall i :: 0 <= i < |parts| ==> sep !in parts[i]
    decreases |s|
  {
    if sep !in s then [s]
    else
      var i := IndexOf(s, sep);
      [s[..i]] + Split(s[i + 1..], sep)
  }

  /** `parts.join(sep)`. */
  function Join(parts: seq<string>, sep: char): string {
    if |parts| == 0 then ""
    else if |parts| == 1 then parts[0]
    else parts[0] + [sep] + Join(parts[1..], sep)
  }

  /** Splitting and re-joining on the same separator gives back the input. */
  lemma {:induction false} JoinSplit(s: string, sep: char)
    ensures Join(Split(s, sep), sep) == s
    decreases |s|
  {
    if sep in s {
      var i := IndexOf(s, sep);
      var rest := s[i + 1..];
      JoinSplit(rest, sep);
      var tail := Split(rest, sep);
      assert Split(s, sep) == [s[..i]] + tail;
      JoinCons(s[..i], tail, sep);
      assert s == s[..i] + [sep] + rest;
    }
  }

  /** Joining one more piece in front adds it and a separator. */
  lemma JoinCons(p: string, parts: seq<string>, sep: char)
    requires |parts| >= 1
    ensures Join([p] + parts, sep) == p + [sep] + Join(parts, sep)
  {
    assert ([p] + parts)[1..] == parts;
  }

  /** Splitting at the first separator: the piece before it, then the
      split of the rest. */
  lemma SplitCons(a: string, b: string, sep: char)
    requires sep !in a
    ensures Split(a + [sep] + b, sep) == [a] + Split(b, sep)
  {
    var s := a + [sep] + b;
    assert s[|a|] == sep;
    var i := IndexOf(s, sep);
    assert i == |a| by {
      assert forall k :: 0 <= k < |a| ==> s[k] == a[k];
    }
    assert s[..i] == a;
    assert s[i + 1..] == b;
  }

  /** Joining separator-free pieces and splitting again gives back the pieces. */
  lemma {:induction false} SplitJoin(parts: seq<string>, sep: char)
    requires |parts| >= 1
    requires forall i :: 0 <= i < |parts| ==> sep !in parts[i]
    ensures Split(Join(parts, sep), sep) == parts
    decreases |parts|
  {
    if |parts| > 1 {
      var rest := Join(parts[1..], sep);
      assert Join(parts, sep) == parts[0] + [sep] + rest;
      SplitCons(parts[0], rest, sep);
      SplitJoin(parts[1..], sep);
      assert [parts[0]] + parts[1..] == parts;
    }
  }

  /** The text before the first `sep`: `s.split(sep)[0]`. */
  function FirstField(s: string, sep: char): string {
    Split(s, sep)[0]
  }

  /** Characters `String.prototype.trim` removes: ECMAScript white space and
      line terminators. */
  predicate IsSpace(c: char) {
    || c == ' ' || c == '\t' || c == '\n' || c == '\r'
    || c == '\U{0B}' || c == '\U{0C}' || c == '\U{A0}' || c == '\U{FEFF}'
    || c == '\U{1680}' || c == '\U{2028}' || c == '\U{2029}' || c == '\U{202F}'
    || c == '\U{205F}' || c == '\U{3000}'
    || ('\U{2000}' <= c <= '\U{200A}')
  }

  function TrimStart(s: string): (t: string)
    ensures |t| <= |s| && t == s[|s| - |t|..]
    ensures forall k :: 0 <= k < |s| - |t| ==> IsSpace(s[k])
    ensures t == [] || !IsSpace(t[0])
  {
    if |s| > 0 && IsSpace(s[0]) then TrimStart(s[1..]) else s
  }

  function TrimEnd(s: string): (t: string)
    ensures |t| <= |s| && t == s[..|t|]
    ensures forall k :: |t| <= k < |s| ==> IsSpace(s[k])
    ensures t == [] || !IsSpace(t[|t| - 1])
  {
    if |s| > 0 && IsSpace(s[|s| - 1]) then TrimEnd(s[..|s| - 1]) else s
  }

  /** `s.trim()`: white space removed from both ends, so the result starts
      and ends with a non-space character. */
  function Trim(s: string): (t: string)
    ensures |t| <= |s|
    ensures t == [] || (!IsSpace(t[0]) && !IsSpace(t[|t| - 1]))
  {
    TrimEnd(TrimStart(s))
  }

  /** What `Trim` keeps is one contiguous slice of its input. */
  lemma TrimIsSlice(s: string) returns (i: nat, j: nat)
    ensures i <= j <= |s| && Trim(s) == s[i..j]
    ensures i == |s| - |TrimStart(s)| && j == i + |Trim(s)|
  {
    var start := TrimStart(s);
    var t := TrimEnd(start);
    i := |s| - |start|;
    j := i + |t|;
    assert Trim(s) == t == start[..|t|];
    assert start[..|t|] == s[i..j];
  }

  /** What `Trim` removes is white space only: the characters before and
      after the kept slice `s[i..j]`. */
  lemma TrimDropsOnlySpace(s: string, i: nat, j: nat)
    requires i == |s| - |TrimStart(s)| && j == i + |Trim(s)|
    ensures forall k :: 0 <= k < i ==> IsSpace(s[k])
    ensures forall k :: j <= k < |s| ==> IsSpace(s[k])
  {
    var start := TrimStart(s);
    assert start == s[i..];
    forall k | j <= k < |s|
      ensures IsSpace(s[k])
    {
      assert s[k] == start[k - i];
    }
  }

  /** ASCII upper-case letters lower-cased; every other character kept. */
  function LowerChar(c: char): char {
    if 'A' <= c <= 'Z' then (c as int + 32) as char else c
  }

  /** `s.toLowerCase()` restricted to ASCII letters. */
  function ToLower(s: string): (t: string)
    ensures |t| == |s|
    ensures forall i :: 0 <= i < |s| ==> t[i] == LowerChar(s[i])
  {
    seq(|s|, i requires 0 <= i < |s| => LowerChar(s[i]))
  }

  /** `s.replace(/c+$/, "")`: every trailing `c` removed. */
  function StripTrailing(s: string, c: char): (t: string)
    ensures |t| <= |s| && t == s[..|t|]
    ensures forall k :: |t| <= k < |s| ==> s[k] == c
    ensures t == [] || t[|t| - 1] != c
  {
    if |s| > 0 && s[|s| - 1] == c then StripTrailing(s[..|s| - 1], c) else s
  }

  /** `s.replace(/^c+/, "")`: every leading `c` removed. */
  function StripLeading(s: string, c: char): (t: string)
    ensures |t| <= |s| && t == s[|s| - |t|..]
    ensures forall k :: 0 <= k < |s| - |t| ==> s[k] == c
    ensures t == [] || t[0] != c
  {
    if |s| > 0 && s[0] == c then StripLeading(s[1..], c) else s
  }
}

=== FILE: lock_admission.dfy ===
/** The hosted lock API (frontend/app/api/v1/locks/route.ts, POST): request
    validation, the lock-scope rule, the hierarchical conflict check against
    the project's existing locks, and the atomic `try_acquire_lock` call.
    The session, the database and the clock are inputs: what the database
    answers is part of `Backend`. */
module LockAdmission {
  import opened Js

  /** `MIN_DIR_LOCK_DEPTH`. */
  const MinDirLockDepth: nat := 2

  /** `LOCK_TIMEOUT_MS`: thirty minutes. */
  const LockTimeoutMs: int := 1800 * 1000

  /** The fields of the JSON body the handler reads. */
  datatype Body = Body(projectName: Json, action: Json, filePath: Json, agentId: Json, intent: Json, userPrompt: Json)

  /** An existing lock row. `updatedAt` is `Date.parse(updated_at)`; `None`
      is a timestamp it cannot read (NaN). */
  datatype LockRow = LockRow(agentId: string, filePath: string, intent: string, updatedAt: Option<int>)

  /** The first row `try_acquire_lock` returns. */
  datatype RpcRow = RpcRow(status: string, ownerId: string, intent: string)

  /** What the RPC yields: an error, an array of rows, `null`, or one row. */
  datatype RpcData = RpcError | RpcRows(rows: seq<RpcRow>) | RpcNull | RpcSingle(row: RpcRow)

  /** Everything the handler learns from outside the request. */
  datatype Backend = Backend(
    configured: bool,
    bodyParses: bool,
    projectLookupFails: bool,
    existing: Option<seq<LockRow>>,
    rpc: RpcData,
    deleteFails: bool)

  datatype BadInput = BadFilePath | BadAgentId | LockNeedsPathAndAgent | UnlockNeedsPath | InvalidAction

  datatype Scope = RootLock | TooBroad(depth: nat) | Acceptable

  datatype DeniedBy = Overlap(row: LockRow) | Held(ownerId: string)

  datatype Response =
    | Unauthorized
    | ServerError
    | BadRequest(why: BadInput)
    | Rejected(scope: Scope)
    | Denied(cause: DeniedBy)
    | Granted(agentId: string, filePath: string, intent: Json)
    | Unlocked

  function HttpStatus(r: Response): int {
    match r
    case Unauthorized => 401
    case ServerError => 500
    case BadRequest(_) => 400
    case Rejected(_) => 400
    case Denied(_) => 409
    case Granted(_, _, _) => 200
    case Unlocked => 200
  }

  /** `filePath` is absent, or a non-empty string of at most 1000 UTF-16
      code units (JavaScript's `length`) without NUL. */
  predicate FilePathOk(v: Json) {
    v.Undefined? || (v.Str? && 0 < Utf16Length(v.s) <= 1000 && '\0' !in v.s)
  }

  /** `agentId` is absent, or a non-empty string of at most 200 UTF-16 code
      units. */
  predicate AgentIdOk(v: Json) {
    v.Undefined? || (v.Str? && 0 < Utf16Length(v.s) <= 200)
  }

  /** `parts.filter(Boolean)` on strings: the non-empty parts, in order. */
  function NonEmpty(parts: seq<string>): (r: seq<string>)
    ensures |r| <= |parts|
    ensures forall i :: 0 <= i < |r| ==> r[i] != "" && r[i] in parts
    ensures forall i :: 0 <= i < |parts| && parts[i] != "" ==> parts[i] in r
  {
    if |parts| == 0 then []
    else
      var rest := NonEmpty(parts[1..]);
      assert forall i :: 1 <= i < |parts| ==> parts[i] == parts[1..][i - 1];
      if parts[0] == "" then rest else [parts[0]] + rest
  }

  /** `filter(Boolean)` works part by part: order and repeats are kept. */
  lemma {:induction false} NonEmptyAppend(a: seq<string>, b: seq<string>)
    ensures NonEmpty(a + b) == NonEmpty(a) + NonEmpty(b)
    decreases |a|
  {
    if |a| > 0 {
      assert (a + b)[1..] == a[1..] + b;
      NonEmptyAppend(a[1..], b);
    } else {
      assert a + b == b;
    }
  }

  /** The path with trailing, then leading, slashes removed. */
  function Normalized(filePath: string): (n: string)
    ensures n == [] || (n[0] != '/' && n[|n| - 1] != '/')
  {
    StripLeading(StripTrailing(filePath, '/'), '/')
  }

  /** The non-empty segments of the normalised path. */
  function Segments(filePath: string): (segs: seq<string>)
    ensures forall i :: 0 <= i < |segs| ==> segs[i] != "" && '/' !in segs[i]
  {
    NonEmpty(Split(Normalized(filePath), '/'))
  }

  /** The last segment contains a dot (`"" ` when there is none). */
  predicate HasExtension(filePath: string) {
    LastHasDot(Segments(filePath))
  }

  predicate LastHasDot(segs: seq<string>) {
    |segs| > 0 && '.' in segs[|segs| - 1]
  }

  /** The lock-scope rule: the project root may not be locked, nor a
      directory (no dot in its last segment) fewer than two segments deep. */
  function LockScope(filePath: string): (s: Scope)
    ensures s.RootLock? <==> Normalized(filePath) in {"", ".", "/"}
    ensures s.TooBroad? ==> s.depth < MinDirLockDepth && !HasExtension(filePath)
    ensures s.Acceptable? <==>
      Normalized(filePath) !in {"", ".", "/"} && (HasExtension(filePath) || |Segments(filePath)| >= MinDirLockDepth)
  {
    ScopeOf(Normalized(filePath), Segments(filePath))
  }

  /** The decision on the normalised path and its segments. */
  function ScopeOf(n: string, segs: seq<string>): (s: Scope)
    ensures s.RootLock? <==> n in {"", ".", "/"}
    ensures s.TooBroad? ==> s.depth < MinDirLockDepth && !LastHasDot(segs)
    ensures s.Acceptable? <==> n !in {"", ".", "/"} && (LastHasDot(segs) || |segs| >= MinDirLockDepth)
  {
    if n == "" || n == "." || n == "/" then RootLock
    else if !LastHasDot(segs) && |segs| < MinDirLockDepth then TooBroad(|segs|)
    else Acceptable
  }

  /** Appending one slash does not change what trailing-slash stripping keeps. */
  lemma StripTrailingSlash(p: string)
    ensures StripTrailing(p + "/", '/') == StripTrailing(p, '/')
  {
    assert (p + "/")[..|p + "/"| - 1] == p;
  }

  /** Leading and trailing slashes do not change the normalised path. */
  lemma NormalizedIgnoresSlashes(p: string)
    ensures Normalized("/" + p + "/") == Normalized(p)
  {
    StripTrailingSlash("/" + p);
    var t := StripTrailing(p, '/');
    if t == [] {
      assert forall k :: 0 <= k < |p| ==> p[k] == '/';
      StripTrailingAllSlashes("/" + p);
    } else {
      StripTrailingCons(p);
      assert ("/" + t)[0] == '/';
      assert ("/" + t)[1..] == t;
    }
  }

  /** Leading and trailing slashes do not change the scope decision. */
  lemma SlashesDoNotMatter(p: string)
    ensures LockScope("/" + p + "/") == LockScope(p)
  {
    var q := "/" + p + "/";
    NormalizedIgnoresSlashes(p);
    ScopeFollowsNormalized(q, p);
  }

  /** The scope decision reads the path only through its normalisation. */
  lemma ScopeFollowsNormalized(a: string, b: string)
    requires Normalized(a) == Normalized(b)
    ensures LockScope(a) == LockScope(b)
  {
    assert Segments(a) == Segments(b);
    assert LockScope(a) == ScopeOf(Normalized(a), Segments(a));
  }

  lemma {:induction false} StripTrailingAllSlashes(p: string)
    requires forall k :: 0 <= k < |p| ==> p[k] == '/'
    ensures StripTrailing(p, '/') == []
    decreases |p|
  {
    if |p| > 0 {
      StripTrailingAllSlashes(p[..|p| - 1]);
    }
  }

  /** Stripping trailing slashes behind a leading slash keeps the leading
      one, unless nothing but slashes remains. */
  lemma {:induction false} StripTrailingCons(p: string)
    requires StripTrailing(p, '/') != []
    ensures StripTrailing("/" + p, '/') == "/" + StripTrailing(p, '/')
    decreases |p|
  {
    var q := "/" + p;
    if |p| > 0 && p[|p| - 1] == '/' {
      assert q[..|q| - 1] == "/" + p[..|p| - 1];
      StripTrailingCons(p[..|p| - 1]);
    } else {
      assert |p| > 0;
      assert q[|q| - 1] == p[|p| - 1];
    }
  }

  /** A name without slashes is its own normalisation and its only segment. */
  lemma SingleSegment(a: string)
    requires a != "" && '/' !in a
    ensures Normalized(a) == a && Segments(a) == [a]
  {
    assert a[|a| - 1] in a && a[0] in a;
    assert NonEmpty([a]) == [a] + NonEmpty([]);
  }

  /** A single directory name is too broad to lock. */
  lemma TopDirectoryIsTooBroad(a: string)
    requires a != "" && '/' !in a && '.' !in a
    ensures LockScope(a) == TooBroad(1)
  {
    SingleSegment(a);
  }

  /** A single file name (its name has a dot) may be locked. */
  lemma TopFileIsAcceptable(f: string)
    requires f != "" && f != "." && '/' !in f && '.' in f
    ensures LockScope(f) == Acceptable
  {
    SingleSegment(f);
  }

  /** A directory two segments deep may be locked. */
  lemma SubdirectoryIsAcceptable(a: string, b: string)
    requires a != "" && b != "" && '/' !in a && '/' !in b
    ensures LockScope(a + "/" + b) == Acceptable
  {
    var n := a + "/" + b;
    PairSegments(a, b);
    assert n[|a|] == '/';
    assert Normalized(n) !in {"", ".", "/"};
  }

  /** Two slash-free names joined by one slash: already normal, and exactly
      those two segments. */
  lemma PairSegments(a: string, b: string)
    requires a != "" && b != "" && '/' !in a && '/' !in b
    ensures Normalized(a + "/" + b) == a + "/" + b
    ensures Segments(a + "/" + b) == [a, b]
  {
    var n := a + "/" + b;
    assert n[|n| - 1] == b[|b| - 1] && b[|b| - 1] in b;
    assert n[0] == a[0] && a[0] in a;
    assert StripTrailing(n, '/') == n;
    assert StripLeading(n, '/') == n;
    assert Join([a, b], '/') == n by {
      assert [a, b][1..] == [b];
    }
    SplitJoin([a, b], '/');
    assert NonEmpty([a, b]) == [a, b] by {
      assert [a, b][1..] == [b];
      assert NonEmpty([b]) == [b] + NonEmpty([]);
    }
  }

  /** `a` and `b` (trailing slashes stripped) name the same path or one lies
      below the other. */
  predicate Overlaps(a: string, b: string) {
    a == b || StartsWith(a, b + "/") || StartsWith(b, a + "/")
  }

  /** The conflict test does not depend on which path is the request. */
  lemma OverlapIsSymmetric(a: string, b: string)
    ensures Overlaps(a, b) <==> Overlaps(b, a)
  {
  }

  /** A lock on a directory overlaps every path below it. */
  lemma DirectoryCoversItsFiles(dir: string, rest: string)
    ensures Overlaps(dir + "/" + rest, dir)
  {
    assert (dir + "/" + rest)[..|dir + "/"|] == dir + "/";
  }

  /** A row does not stop this request: it is the caller's own lock, or it
      was updated more than the timeout ago. A row whose timestamp cannot be
      read is never skipped as expired. */
  predicate Exempt(row: LockRow, agentId: string, now: int) {
    row.agentId == agentId || (row.updatedAt.Some? && now - row.updatedAt.value > LockTimeoutMs)
  }

  predicate Conflicts(row: LockRow, filePath: string, agentId: string, now: int) {
    !Exempt(row, agentId, now) && Overlaps(StripTrailing(filePath, '/'), StripTrailing(row.filePath, '/'))
  }

  /** The row the loop stops at: the first conflicting one. */
  function FirstConflict(rows: seq<LockRow>, filePath: string, agentId: string, now: int): (o: Option<nat>)
    ensures o.None? <==> forall i :: 0 <= i < |rows| ==> !Conflicts(rows[i], filePath, agentId, now)
    ensures o.Some? ==> o.value < |rows| && Conflicts(rows[o.value], filePath, agentId, now)
    ensures o.Some? ==> forall i :: 0 <= i < o.value ==> !Conflicts(rows[i], filePath, agentId, now)
  {
    if |rows| == 0 then None
    else if Conflicts(rows[0], filePath, agentId, now) then Some(0)
    else
      match FirstConflict(rows[1..], filePath, agentId, now)
      case None => None
      case Some(i) => Some(i + 1)
  }

  /** The caller's own locks never deny it. */
  lemma OwnLocksNeverDeny(rows: seq<LockRow>, filePath: string, agentId: string, now: int)
    requires forall i :: 0 <= i < |rows| ==> rows[i].agentId == agentId
    ensures FirstConflict(rows, filePath, agentId, now).None?
  {
  }

  /** `result`: the first array element, or the single value. */
  function RpcResult(d: RpcData): Option<RpcRow> {
    match d
    case RpcRows(rows) => if |rows| > 0 then Some(rows[0]) else None
    case RpcSingle(row) => Some(row)
    case _ => None
  }

  /** The request passes validation, names the action `lock` with both a
      path and an agent, and the path is specific enough. */
  predicate LockRequest(b: Body) {
    && FilePathOk(b.filePath) && AgentIdOk(b.agentId)
    && b.action == Str("lock") && b.filePath.Str? && b.agentId.Str?
    && LockScope(b.filePath.s).Acceptable?
  }

  /** The `lock` action once the request has passed validation: the scope
      rule, the conflict scan over the existing rows, then the RPC. */
  function Acquire(backend: Backend, filePath: string, agentId: string, intent: Json, now: int): (r: Response)
    ensures r.Granted? <==>
      && LockScope(filePath).Acceptable?
      && backend.existing.Some?
      && FirstConflict(backend.existing.value, filePath, agentId, now).None?
      && backend.rpc != RpcError
      && RpcResult(backend.rpc).Some? && RpcResult(backend.rpc).value.status != "DENIED"
    ensures r.Granted? ==> r.agentId == agentId && r.filePath == filePath && r.intent == intent
    ensures r.Rejected? <==> !LockScope(filePath).Acceptable?
    ensures r.Rejected? ==> r.scope == LockScope(filePath)
    ensures r.Denied? && r.cause.Overlap? <==>
      && LockScope(filePath).Acceptable?
      && backend.existing.Some?
      && FirstConflict(backend.existing.value, filePath, agentId, now).Some?
    ensures r.Denied? && r.cause.Overlap? ==>
      r.cause.row == backend.existing.value[FirstConflict(backend.existing.value, filePath, agentId, now).value]
    ensures r.Denied? && r.cause.Held? ==>
      RpcResult(backend.rpc).Some? && RpcResult(backend.rpc).value.status == "DENIED"
      && r.cause.ownerId == RpcResult(backend.rpc).value.ownerId
    ensures r.Rejected? || r.ServerError? || r.Denied? || r.Granted?
  {
    var scope := LockScope(filePath);
    if !scope.Acceptable? then Rejected(scope)
    else if backend.existing.None? then ServerError
    else
      match FirstConflict(backend.existing.value, filePath, agentId, now)
      case Some(i) => Denied(Overlap(backend.existing.value[i]))
      case None =>
        if backend.rpc.RpcError? then ServerError
        else
          match RpcResult(backend.rpc)
          case None => ServerError
          case Some(row) =>
            if row.status == "DENIED" then Denied(Held(row.ownerId))
            else Granted(agentId, filePath, intent)
  }

  /** The validation failures, in the order the handler checks them. */
  function Validate(body: Body): (e: Option<BadInput>)
    ensures e.None? <==>
      && FilePathOk(body.filePath) && AgentIdOk(body.agentId)
      && (body.action == Str("lock") ==> body.filePath.Str? && body.agentId.Str?)
      && (body.action == Str("unlock") ==> body.filePath.Str?)
    ensures e == Some(BadFilePath) <==> !FilePathOk(body.filePath)
    ensures e == Some(BadAgentId) <==> FilePathOk(body.filePath) && !AgentIdOk(body.agentId)
    ensures e == Some(LockNeedsPathAndAgent) ==> body.action == Str("lock")
    ensures e == Some(UnlockNeedsPath) ==> body.action == Str("unlock")
    ensures e != Some(InvalidAction)
  {
    if !FilePathOk(body.filePath) then Some(BadFilePath)
    else if !AgentIdOk(body.agentId) then Some(BadAgentId)
    else if body.action == Str("lock") && (!Truthy(body.filePath) || !Truthy(body.agentId)) then Some(LockNeedsPathAndAgent)
    else if body.action == Str("unlock") && !Truthy(body.filePath) then Some(UnlockNeedsPath)
    else None
  }

  /** `POST /api/v1/locks`. */
  function Post(hasSession: bool, backend: Backend, body: Body, now: int): (r: Response)
    ensures r.Unauthorized? <==> !hasSession
    ensures !backend.configured && hasSession ==> r.ServerError?
    ensures r.Granted? <==>
      && hasSession && backend.configured && backend.bodyParses && !backend.projectLookupFails
      && LockRequest(body)
      && backend.existing.Some?
      && FirstConflict(backend.existing.value, body.filePath.s, body.agentId.s, now).None?
      && backend.rpc != RpcError
      && RpcResult(backend.rpc).Some? && RpcResult(backend.rpc).value.status != "DENIED"
    ensures r.Granted? ==> r.agentId == body.agentId.s && r.filePath == body.filePath.s
    ensures r.Denied? && r.cause.Overlap? ==>
      backend.existing.Some? && body.filePath.Str? && body.agentId.Str? &&
      exists i :: 0 <= i < |backend.existing.value| && backend.existing.value[i] == r.cause.row
        && Conflicts(r.cause.row, body.filePath.s, body.agentId.s, now)
        && forall j :: 0 <= j < i ==> !Conflicts(backend.existing.value[j], body.filePath.s, body.agentId.s, now)
    ensures r.BadRequest? <==>
      hasSession && backend.configured && backend.bodyParses
      && (Validate(body).Some?
          || (!backend.projectLookupFails && body.action != Str("lock") && body.action != Str("unlock")))
    ensures hasSession && backend.configured && backend.bodyParses && !backend.projectLookupFails
            && FilePathOk(body.filePath) && AgentIdOk(body.agentId)
            && body.action != Str("lock") && body.action != Str("unlock") ==>
      r == BadRequest(InvalidAction)
    ensures hasSession && backend.configured && backend.bodyParses && !backend.projectLookupFails
            && FilePathOk(body.filePath) && AgentIdOk(body.agentId)
            && body.action == Str("unlock") && body.filePath.Str? ==>
      (r.Unlocked? <==> !backend.deleteFails)
    ensures r.Unlocked? ==>
      body.action == Str("unlock") && body.filePath.Str? && FilePathOk(body.filePath) && AgentIdOk(body.agentId)
    ensures r.Rejected? ==> body.action == Str("lock") && body.filePath.Str? && r.scope == LockScope(body.filePath.s)
  {
    if !hasSession then Unauthorized
    else if !backend.configured || !backend.bodyParses then ServerError
    else if Validate(body).Some? then BadRequest(Validate(body).value)
    else if backend.projectLookupFails then ServerError
    else if body.action == Str("lock") then Acquire(backend, body.filePath.s, body.agentId.s, body.intent, now)
    else if body.action == Str("unlock") then
      if backend.deleteFails then ServerError else Unlocked
    else BadRequest(InvalidAction)
  }

  /** An RPC that returns no row is an error, never a silent grant. */
  lemma EmptyRpcNeverGrants(hasSession: bool, backend: Backend, body: Body, now: int)
    requires backend.rpc == RpcRows([]) || backend.rpc == RpcNull
    ensures !Post(hasSession, backend, body, now).Granted?
    ensures hasSession && backend.configured && backend.bodyParses && !backend.projectLookupFails
            && LockRequest(body) && backend.existing.Some?
            && FirstConflict(backend.existing.value, body.filePath.s, body.agentId.s, now).None?
            ==> Post(hasSession, backend, body, now) == ServerError
  {
  }

  /** Another agent's live lock on a parent directory denies a request for a
      file below it, before the RPC is consulted. */
  lemma ParentLockDenies(backend: Backend, body: Body, now: int, row: LockRow)
    requires backend.configured && backend.bodyParses && !backend.projectLookupFails
    requires LockRequest(body) && backend.existing == Some([row])
    requires row.agentId != body.agentId.s && row.updatedAt == Some(now)
    requires StartsWith(StripTrailing(body.filePath.s, '/'), StripTrailing(row.filePath, '/') + "/")
    ensures Post(true, backend, body, now) == Denied(Overlap(row))
  {
    assert Conflicts(row, body.filePath.s, body.agentId.s, now);
    assert FirstConflict([row], body.filePath.s, body.agentId.s, now) == Some(0);
    assert Truthy(body.filePath) && Truthy(body.agentId);
    assert LockScope(body.filePath.s).Acceptable?;
  }
}

=== FILE: lock_events.dfy ===
/** The lock-event log (frontend/app/api/v1/lock-events/route.ts): POST
    validates and records one event; GET adds the per-type summary and the
    per-day chart for the last `days` days. Days are UTC day numbers (days
    since 1970-01-01); the session, the database and the clock are inputs. */
module LockEvents {
  import opened Js

  /** The event types POST accepts. */
  const ValidTypes: seq<string> := ["BLOCKED", "GRANTED", "FORCE_UNLOCKED", "RELEASED"]

  /** Backend results the handler depends on. */
  datatype Backend = Backend(configured: bool, bodyParses: bool, projectLookupFails: bool, insertFails: bool)

  datatype EventBody = EventBody(
    projectName: Json, eventType: Json, filePath: Json, requestingAgent: Json,
    blockingAgent: Json, intent: Json, metadata: Json)

  /** The row POST inserts. */
  datatype EventRow = EventRow(
    eventType: string, filePath: Json, requestingAgent: Json,
    blockingAgent: Json, intent: Json, metadata: Json)

  datatype PostResponse = PostUnauthorized | PostServerError | MissingFields | InvalidEventType | Logged(row: EventRow)

  /** `POST /api/v1/lock-events`. */
  function PostEvent(hasSession: bool, backend: Backend, body: EventBody): (r: PostResponse)
    ensures r.PostUnauthorized? <==> !hasSession
    ensures r.MissingFields? <==>
      hasSession && backend.configured && backend.bodyParses
      && !(Truthy(body.eventType) && Truthy(body.filePath) && Truthy(body.requestingAgent))
    ensures r.Logged? <==>
      && hasSession && backend.configured && backend.bodyParses && !backend.projectLookupFails && !backend.insertFails
      && Truthy(body.filePath) && Truthy(body.requestingAgent)
      && body.eventType.Str? && body.eventType.s in ValidTypes
    ensures r.InvalidEventType? <==>
      && hasSession && backend.configured && backend.bodyParses
      && Truthy(body.eventType) && Truthy(body.filePath) && Truthy(body.requestingAgent)
      && !(body.eventType.Str? && body.eventType.s in ValidTypes)
    ensures r.Logged? ==>
      && r.row.eventType == body.eventType.s && r.row.filePath == body.filePath
      && r.row.requestingAgent == body.requestingAgent
      && (Truthy(body.blockingAgent) ==> r.row.blockingAgent == body.blockingAgent)
      && (!Truthy(body.blockingAgent) ==> r.row.blockingAgent == Null)
      && (Truthy(body.intent) ==> r.row.intent == body.intent)
      && (!Truthy(body.intent) ==> r.row.intent == Null)
      && (Truthy(body.metadata) ==> r.row.metadata == body.metadata)
      && (!Truthy(body.metadata) ==> r.row.metadata == Obj([]))
  {
    if !hasSession then PostUnauthorized
    else if !backend.configured || !backend.bodyParses then PostServerError
    else if !Truthy(body.eventType) || !Truthy(body.filePath) || !Truthy(body.requestingAgent) then MissingFields
    else if !(body.eventType.Str? && body.eventType.s in ValidTypes) then InvalidEventType
    else if backend.projectLookupFails || backend.insertFails then PostServerError
    else
      Logged(EventRow(body.eventType.s, body.filePath, body.requestingAgent,
        Or(body.blockingAgent, Null), Or(body.intent, Null), Or(body.metadata, Obj([]))))
  }

  /** The optional fields never decide whether an event is logged: two
      bodies that agree on the type, path and requesting agent get the same
      kind of answer, and logged rows that differ only in those fields. */
  lemma OptionalFieldsDoNotGate(hasSession: bool, backend: Backend, a: EventBody, b: EventBody)
    requires a.eventType == b.eventType && a.filePath == b.filePath && a.requestingAgent == b.requestingAgent
    ensures PostEvent(hasSession, backend, a).Logged? <==> PostEvent(hasSession, backend, b).Logged?
    ensures PostEvent(hasSession, backend, a).Logged? ==>
      PostEvent(hasSession, backend, a).row.(blockingAgent := Null, intent := Null, metadata := Null)
      == PostEvent(hasSession, backend, b).row.(blockingAgent := Null, intent := Null, metadata := Null)
    ensures !PostEvent(hasSession, backend, a).Logged? ==>
      PostEvent(hasSession, backend, a) == PostEvent(hasSession, backend, b)
  {
  }

  // ---------------------------------------------------------------------
  // `parseInt(s, 10)`.
  // ---------------------------------------------------------------------

  predicate IsDigit(c: char) {
    48 <= c as int <= 57
  }

  /** Number of leading decimal digits. */
  function DigitRun(s: string): (n: nat)
    ensures n <= |s|
    ensures forall k :: 0 <= k < n ==> IsDigit(s[k])
    ensures n < |s| ==> !IsDigit(s[n])
  {
    if |s| > 0 && IsDigit(s[0]) then 1 + DigitRun(s[1..]) else 0
  }

  /** The value of a digit string, most significant digit first. */
  function DigitsValue(s: string): nat
    requires forall k :: 0 <= k < |s| ==> IsDigit(s[k])
  {
    if |s| == 0 then 0
    else
      assert IsDigit(s[|s| - 1]);
      DigitsValue(s[..|s| - 1]) * 10 + (s[|s| - 1] as int - 48)
  }

  /** The sign `parseInt` reads, and the text after it. */
  function Signed(t: string): (r: (bool, string))
    ensures |r.1| <= |t|
  {
    if |t| > 0 && t[0] == '-' then (true, t[1..])
    else if |t| > 0 && t[0] == '+' then (false, t[1..])
    else (false, t)
  }

  /** `parseInt(s, 10)`: leading white space, an optional sign, then the
      longest run of digits; `None` (NaN) when there is no digit. */
  function ParseInt(s: string): (r: Option<int>)
    ensures r.None? <==> DigitRun(Signed(TrimStart(s)).1) == 0
  {
    var sign := Signed(TrimStart(s));
    var n := DigitRun(sign.1);
    if n == 0 then None
    else
      var v: int := DigitsValue(sign.1[..n]);
      Some(if sign.0 then -v else v)
  }

  /** The decimal digits of `n`, most significant first, without leading
      zeros. */
  function Decimal(n: nat): (s: string)
    ensures |s| > 0 && forall k :: 0 <= k < |s| ==> IsDigit(s[k])
  {
    var d := [(n % 10 + 48) as char];
    if n < 10 then d else Decimal(n / 10) + d
  }

  lemma {:induction false} DecimalValue(n: nat)
    ensures DigitsValue(Decimal(n)) == n
  {
    var s := Decimal(n);
    if n >= 10 {
      DecimalValue(n / 10);
      assert s[..|s| - 1] == Decimal(n / 10);
    }
  }

  lemma {:induction false} DigitRunAll(s: string)
    requires forall k :: 0 <= k < |s| ==> IsDigit(s[k])
    ensures DigitRun(s) == |s|
  {
    if |s| > 0 {
      DigitRunAll(s[1..]);
    }
  }

  /** Text that starts with neither white space nor further sign, once the
      sign is read, parses as its digits with that sign. */
  lemma ParseSignedDigits(m: string, negative: bool, s: string)
    requires |s| > 0 && forall k :: 0 <= k < |s| ==> IsDigit(s[k])
    requires TrimStart(m) == m && Signed(m) == (negative, s)
    ensures ParseInt(m) == Some(if negative then -(DigitsValue(s) as int) else DigitsValue(s) as int)
  {
    DigitRunAll(s);
    assert s[..|s|] == s;
  }

  /** Text not starting with white space is left alone by `TrimStart`. */
  lemma NoLeadingSpace(m: string)
    requires |m| > 0 && !IsSpace(m[0])
    ensures TrimStart(m) == m
  {
  }

  /** A digit string reads as its value. */
  lemma ParseDigits(s: string)
    requires |s| > 0 && forall k :: 0 <= k < |s| ==> IsDigit(s[k])
    ensures ParseInt(s) == Some(DigitsValue(s) as int)
  {
    assert IsDigit(s[0]);
    NoLeadingSpace(s);
    assert Signed(s) == (false, s);
    ParseSignedDigits(s, false, s);
  }

  /** A minus sign before a digit string negates its value. */
  lemma ParseNegatedDigits(s: string)
    requires |s| > 0 && forall k :: 0 <= k < |s| ==> IsDigit(s[k])
    ensures ParseInt("-" + s) == Some(-(DigitsValue(s) as int))
  {
    var m := "-" + s;
    assert m[0] == '-';
    NoLeadingSpace(m);
    assert m[1..] == s;
    assert Signed(m) == (true, s);
    ParseSignedDigits(m, true, s);
  }

  /** `parseInt` reads back what decimal printing wrote. */
  lemma {:induction false} ParsePositiveDecimal(n: nat)
    ensures ParseInt(Decimal(n)) == Some(n)
  {
    DecimalValue(n);
    ParseDigits(Decimal(n));
  }

  /** ... and, after a minus sign, its negation. */
  lemma {:induction false} ParseNegativeDecimal(n: nat)
    ensures ParseInt("-" + Decimal(n)) == Some(-(n as int))
  {
    var d := Decimal(n);
    DecimalValue(n);
    ParseNegatedDigits(d);
  }

  /** `parseInt(searchParams.get("days") || "7", 10)`, with the parse of the
      default written out (`DaysDefault` shows it is what `parseInt` gives). */
  function DaysParam(raw: Option<string>): Option<int> {
    if raw.Some? && raw.value != "" then ParseInt(raw.value) else Some(7)
  }

  lemma ParseSeven(s: string)
    requires s == "7"
    ensures ParseInt(s) == Some(7)
  {
    assert Decimal(7) == "7";
    ParsePositiveDecimal(7);
  }

  /** A missing or empty `days` parameter means seven days, which is what
      `parseInt` reads from the default text. */
  lemma DaysDefault(raw: Option<string>)
    ensures DaysParam(raw) == ParseInt(if raw.Some? && raw.value != "" then raw.value else "7")
    ensures raw.None? || raw == Some("") ==> DaysParam(raw) == Some(7)
  {
    ParseSeven("7");
  }

  // ---------------------------------------------------------------------
  // Aggregation.
  // ---------------------------------------------------------------------

  /** One row of `get_lock_event_stats`: events of one type on one day. */
  datatype StatRow = StatRow(eventType: string, day: int, count: int)

  datatype Summary = Summary(blocked: int, granted: int, forceUnlocked: int, released: int)

  datatype DayCounts = DayCounts(blocked: int, granted: int)

  /** Total count of the rows whose lower-cased type is `key`. */
  function CountOf(rows: seq<StatRow>, key: string): int {
    if |rows| == 0 then 0
    else CountOf(rows[..|rows| - 1], key) + (if ToLower(rows[|rows| - 1].eventType) == key then rows[|rows| - 1].count else 0)
  }

  /** Total count of the rows of exactly type `t` on day `day`. */
  function DayCount(rows: seq<StatRow>, day: int, t: string): int {
    if |rows| == 0 then 0
    else
      var last := rows[|rows| - 1];
      DayCount(rows[..|rows| - 1], day, t) + (if last.day == day && last.eventType == t then last.count else 0)
  }

  function SummaryOf(rows: seq<StatRow>): Summary {
    Summary(CountOf(rows, "blocked"), CountOf(rows, "granted"), CountOf(rows, "force_unlocked"), CountOf(rows, "released"))
  }

  /** The per-day table: an entry for every day some row mentions. */
  function DailyOf(rows: seq<StatRow>): map<int, DayCounts> {
    map day | day in (set i | 0 <= i < |rows| :: rows[i].day) :: DayCounts(DayCount(rows, day, "BLOCKED"), DayCount(rows, day, "GRANTED"))
  }

  /** The summary after one more row: the field named by the lower-cased
      type grows by the row's count (`if (key in summary)`). */
  function AddToSummary(summary: Summary, row: StatRow): Summary {
    var key := ToLower(row.eventType);
    if key == "blocked" then summary.(blocked := summary.blocked + row.count)
    else if key == "granted" then summary.(granted := summary.granted + row.count)
    else if key == "force_unlocked" then summary.(forceUnlocked := summary.forceUnlocked + row.count)
    else if key == "released" then summary.(released := summary.released + row.count)
    else summary
  }

  /** The per-day table after one more row: the day's entry is created with
      zeros if missing, then grows by the count of a `BLOCKED` or `GRANTED`
      row. */
  function AddToDaily(daily: map<int, DayCounts>, row: StatRow): map<int, DayCounts> {
    var prior := if row.day in daily then daily[row.day] else DayCounts(0, 0);
    daily[row.day := DayCounts(
      prior.blocked + (if row.eventType == "BLOCKED" then row.count else 0),
      prior.granted + (if row.eventType == "GRANTED" then row.count else 0))]
  }

  /** The aggregation loop of GET: `summary` counts by lower-cased type,
      `daily` by day and exact type. */
  method Aggregate(rows: seq<StatRow>) returns (summary: Summary, daily: map<int, DayCounts>)
    ensures summary == SummaryOf(rows)
    ensures daily == DailyOf(rows)
  {
    summary := Summary(0, 0, 0, 0);
    daily := map[];
    var i := 0;
    while i < |rows|
      invariant 0 <= i <= |rows|
      invariant summary == SummaryOf(rows[..i])
      invariant daily == DailyOf(rows[..i])
    {
      SummaryStep(rows[..i + 1]);
      DailyStep(rows[..i + 1]);
      assert rows[..i + 1][..i] == rows[..i];
      summary := AddToSummary(summary, rows[i]);
      daily := AddToDaily(daily, rows[i]);
      i := i + 1;
    }
    assert rows[..|rows|] == rows;
  }

  /** How the summary grows by one row. */
  lemma SummaryStep(rows: seq<StatRow>)
    requires |rows| > 0
    ensures SummaryOf(rows) == AddToSummary(SummaryOf(rows[..|rows| - 1]), rows[|rows| - 1])
  {
  }

  /** How the per-day table grows by one row. */
  lemma DailyStep(rows: seq<StatRow>)
    requires |rows| > 0
    ensures DailyOf(rows) == AddToDaily(DailyOf(rows[..|rows| - 1]), rows[|rows| - 1])
  {
    var init := rows[..|rows| - 1];
    var row := rows[|rows| - 1];
    var days := set i | 0 <= i < |rows| :: rows[i].day;
    var initDays := set i | 0 <= i < |init| :: init[i].day;
    assert days == initDays + {row.day} by {
      forall d | d in days
        ensures d in initDays + {row.day}
      {
        var i :| 0 <= i < |rows| && rows[i].day == d;
        if i < |init| {
          assert init[i] == rows[i];
        }
      }
      forall d | d in initDays
        ensures d in days
      {
        var i :| 0 <= i < |init| && init[i].day == d;
        assert rows[i] == init[i];
      }
    }
    if row.day !in DailyOf(init) {
      DayCountAbsent(init, row.day, "BLOCKED");
      DayCountAbsent(init, row.day, "GRANTED");
    }
  }

  /** A day no row mentions counts nothing. */
  lemma {:induction false} DayCountAbsent(rows: seq<StatRow>, day: int, t: string)
    requires forall i :: 0 <= i < |rows| ==> rows[i].day != day
    ensures DayCount(rows, day, t) == 0
  {
    if |rows| > 0 {
      DayCountAbsent(rows[..|rows| - 1], day, t);
    }
  }

  // ---------------------------------------------------------------------
  // The chart.
  // ---------------------------------------------------------------------

  const DayNames: seq<string> := ["sun", "mon", "tue", "wed", "thu", "fri", "sat"]

  /** `getUTCDay()` of a day number: 1970-01-01 was a Thursday. */
  function WeekDay(day: int): (w: nat)
    ensures w < 7
  {
    (day + 4) % 7
  }

  datatype DayPoint = DayPoint(dayName: string, date: int, blocked: int, granted: int)

  /** The chart point for one day: its counts, or zeros (`|| 0`). */
  function PointFor(daily: map<int, DayCounts>, day: int): DayPoint {
    var c := if day in daily then daily[day] else DayCounts(0, 0);
    DayPoint(DayNames[WeekDay(day)], day, c.blocked, c.granted)
  }

  /** How many points the chart has for a `days` value. */
  function ChartLength(days: Option<int>): nat {
    if days.Some? && days.value > 0 then days.value else 0
  }

  /** The missing-day filling loop: one point per day from `days - 1` days
      ago up to today, oldest first; none at all when `days` is not a
      positive number. */
  method FillDays(daily: map<int, DayCounts>, today: int, days: Option<int>) returns (points: seq<DayPoint>)
    ensures |points| == ChartLength(days)
    ensures forall j :: 0 <= j < |points| ==> points[j] == PointFor(daily, today - (|points| - 1) + j)
  {
    points := [];
    if days.None? {
      return;
    }
    var n := days.value;
    var i := n - 1;
    while i >= 0
      invariant -1 <= i || n <= 0
      invariant n <= 0 ==> points == [] && i == n - 1
      invariant n > 0 ==> i <= n - 1 && |points| == n - 1 - i
      invariant forall j :: 0 <= j < |points| ==> points[j] == PointFor(daily, today - (n - 1) + j)
      decreases i + 1
    {
      points := points + [PointFor(daily, today - i)];
      i := i - 1;
    }
  }

  /** Consecutive chart points are consecutive days, the labels run through
      the week in order, and the last point is today. */
  lemma ChartIsConsecutive(daily: map<int, DayCounts>, today: int, n: int, points: seq<DayPoint>)
    requires n > 0 && |points| == n
    requires forall j :: 0 <= j < |points| ==> points[j] == PointFor(daily, today - (n - 1) + j)
    ensures points[n - 1].date == today
    ensures forall j :: 0 <= j < n - 1 ==>
      points[j + 1].date == points[j].date + 1 && WeekDay(points[j + 1].date) == (WeekDay(points[j].date) + 1) % 7
  {
  }

  // ---------------------------------------------------------------------
  // GET.
  // ---------------------------------------------------------------------

  datatype GetResponse =
    | GetUnauthorized
    | GetServerError
    | Stats(summary: Summary, daily: seq<DayPoint>, recentBlocked: seq<Json>)

  const MsPerDay: int := 86_400_000

  /** The recent-events query starts at `new Date(now - days * 86400000)`,
      whose `toISOString` throws when `days` is NaN or the instant lies
      beyond the range of a `Date`. */
  predicate CutoffOk(days: Option<int>, nowMs: int) {
    days.Some? && DateInRange(nowMs - days.value * MsPerDay)
  }

  /** `GET /api/v1/lock-events`: `stats` and `recent` are what the two
      queries return (`None` on error); `nowMs` is the clock reading in
      milliseconds, and today is its UTC day. */
  method GetStats(
    hasSession: bool, configured: bool, projectLookupFails: bool, daysRaw: Option<string>,
    stats: Option<seq<StatRow>>, recent: Option<seq<Json>>, nowMs: int) returns (r: GetResponse)
    ensures r.GetUnauthorized? <==> !hasSession
    ensures r.GetServerError? <==>
      hasSession && (!configured || projectLookupFails || stats.None? || recent.None? || !CutoffOk(DaysParam(daysRaw), nowMs))
    ensures r.Stats? ==> r.summary == SummaryOf(stats.value) && r.recentBlocked == recent.value
    ensures r.Stats? ==> |r.daily| == ChartLength(DaysParam(daysRaw))
    ensures r.Stats? ==>
      forall j :: 0 <= j < |r.daily| ==>
           r.daily[j] == PointFor(DailyOf(stats.value), nowMs / MsPerDay - (|r.daily| - 1) + j)
  {
    if !hasSession {
      return GetUnauthorized;
    }
    var days := DaysParam(daysRaw);
    if !configured || projectLookupFails || stats.None? || !CutoffOk(days, nowMs) || recent.None? {
      return GetServerError;
    }
    var summary, daily := Aggregate(stats.value);
    var points := FillDays(daily, nowMs / MsPerDay, days);
    return Stats(summary, points, recent.value);
  }

  /** A `days` value starting with a letter is NaN, so the GET answers 500. */
  lemma LetterDaysIsNaN(raw: string, nowMs: int)
    requires raw != "" && 'a' <= raw[0] <= 'z'
    ensures DaysParam(Some(raw)).None? && !CutoffOk(DaysParam(Some(raw)), nowMs)
  {
    assert !IsSpace(raw[0]);
    assert TrimStart(raw) == raw;
    assert Signed(raw) == (false, raw);
    assert !IsDigit(raw[0]);
  }
}

=== FILE: lock_table.dfy ===
/** The file-lock table of the NerveCenter (src/local/nerve-center.ts): one
    lock per path, expired lazily when a request comes in. Time is a
    parameter; the timeout is the configured `lockTimeout`. */
module LockTable {
  import opened Js
  import opened Records

  datatype FileLock = FileLock(agentId: string, filePath: string, intent: string, userPrompt: string, timestamp: int)

  type Locks = Record<FileLock>

  /** Thirty minutes in milliseconds. */
  const LockTimeoutDefault: int := 30 * 60 * 1000

  /** `options.lockTimeout || LOCK_TIMEOUT_DEFAULT`: an unset or zero option
      falls back to the default. */
  function EffectiveTimeout(configured: Option<int>): int {
    if configured.Some? && configured.value != 0 then configured.value else LockTimeoutDefault
  }

  /** A lock older than the timeout, strictly. */
  predicate Stale(l: FileLock, now: int, timeout: int) {
    now - l.timestamp > timeout
  }

  /** The lock a request at `now` still has to respect on `path`. */
  function Live(locks: Locks, path: string, now: int, timeout: int): Option<FileLock> {
    var o := Get(locks, path);
    if o.Some? && !Stale(o.value, now, timeout) then o else None
  }

  datatype Cleaned = Cleaned(kept: Locks, expired: Locks)

  /** `cleanStaleLocks`: splits the table into the locks that survive and the
      ones that expired, both in table order (the expired ones are the
      notepad's "lock expired" lines). */
  function CleanStaleLocks(locks: Locks, now: int, timeout: int): (c: Cleaned)
    ensures forall i :: 0 <= i < |c.kept| ==> c.kept[i] in locks && !Stale(c.kept[i].value, now, timeout)
    ensures forall i :: 0 <= i < |locks| && !Stale(locks[i].value, now, timeout) ==> locks[i] in c.kept
    ensures forall i :: 0 <= i < |c.expired| ==> c.expired[i] in locks && Stale(c.expired[i].value, now, timeout)
    ensures forall i :: 0 <= i < |locks| && Stale(locks[i].value, now, timeout) ==> locks[i] in c.expired
    ensures UniqueKeys(locks) ==> UniqueKeys(c.kept) && forall k :: Get(c.kept, k) == Live(locks, k, now, timeout)
  {
    var isLive := l => !Stale(l, now, timeout);
    var kept := Filter(locks, isLive);
    assert UniqueKeys(locks) ==> forall k :: Get(kept, k) == Live(locks, k, now, timeout) by {
      if UniqueKeys(locks) {
        forall k
          ensures Get(kept, k) == Live(locks, k, now, timeout)
        {
          FilterGet(locks, isLive, k);
        }
      }
    }
    Cleaned(kept, Filter(locks, l => Stale(l, now, timeout)))
  }

  datatype ProposeReply = Granted(lock: FileLock) | RequiresOrchestration(currentLock: FileLock)

  datatype Proposal = Proposal(locks: Locks, expired: Locks, reply: ProposeReply)

  /** The table decision of `proposeFileAccess` once stale locks are gone:
      another agent's lock is a conflict and leaves the table alone; otherwise
      the caller holds the path from `now` on. */
  function Decide(kept: Locks, agentId: string, filePath: string, intent: string, userPrompt: string, now: int): (r: (Locks, ProposeReply))
    ensures r.1.RequiresOrchestration? <==> Get(kept, filePath).Some? && Get(kept, filePath).value.agentId != agentId
    ensures r.1.RequiresOrchestration? ==> r.0 == kept && Get(kept, filePath) == Some(r.1.currentLock)
    ensures r.1.Granted? ==>
      && r.1.lock == FileLock(agentId, filePath, intent, userPrompt, now)
      && Get(r.0, filePath) == Some(r.1.lock)
      && forall k :: k != filePath ==> Get(r.0, k) == Get(kept, k)
    ensures UniqueKeys(kept) ==> UniqueKeys(r.0)
  {
    var current := Get(kept, filePath);
    if current.Some? && current.value.agentId != agentId then
      (kept, RequiresOrchestration(current.value))
    else
      var lock := FileLock(agentId, filePath, intent, userPrompt, now);
      (Put(kept, filePath, lock), Granted(lock))
  }

  /** `proposeFileAccess`: stale locks are dropped first; a live lock held by
      another agent yields REQUIRES_ORCHESTRATION; otherwise the caller gets
      (or refreshes) the lock stamped with `now`. */
  function ProposeFileAccess(
    locks: Locks, agentId: string, filePath: string, intent: string, userPrompt: string,
    now: int, timeout: int): (r: Proposal)
    requires UniqueKeys(locks)
    ensures r.reply.RequiresOrchestration? <==>
      Live(locks, filePath, now, timeout).Some? && Live(locks, filePath, now, timeout).value.agentId != agentId
    ensures r.reply.RequiresOrchestration? ==>
      && r.reply.currentLock == Live(locks, filePath, now, timeout).value
      && forall k :: Get(r.locks, k) == Live(locks, k, now, timeout)
    ensures r.reply.Granted? ==>
      && r.reply.lock == FileLock(agentId, filePath, intent, userPrompt, now)
      && Get(r.locks, filePath) == Some(r.reply.lock)
      && forall k :: k != filePath ==> Get(r.locks, k) == Live(locks, k, now, timeout)
    ensures forall i :: 0 <= i < |r.expired| ==> r.expired[i] in locks && Stale(r.expired[i].value, now, timeout)
    ensures UniqueKeys(r.locks)
  {
    var c := CleanStaleLocks(locks, now, timeout);
    var d := Decide(c.kept, agentId, filePath, intent, userPrompt, now);
    Proposal(d.0, c.expired, d.1)
  }

  datatype UnlockReply = NotLocked | Unlocked(previousOwner: string)

  /** `forceUnlock`: an unlocked path is reported and nothing changes;
      otherwise only that path's lock goes, and its holder is reported. The
      lock is removed even if it has already expired. */
  function ForceUnlock(locks: Locks, filePath: string): (r: (Locks, UnlockReply))
    requires UniqueKeys(locks)
    ensures r.1.NotLocked? <==> filePath !in Keys(locks)
    ensures r.1.NotLocked? ==> r.0 == locks
    ensures r.1.Unlocked? ==> r.1.previousOwner == Get(locks, filePath).value.agentId
    ensures Get(r.0, filePath).None?
    ensures forall k :: k != filePath ==> Get(r.0, k) == Get(locks, k)
    ensures UniqueKeys(r.0)
  {
    match Get(locks, filePath)
    case None => (locks, NotLocked)
    case Some(l) =>
      var locks' := Remove(locks, filePath);
      assert forall k :: Get(locks', k) == if k == filePath then None else Get(locks, k) by {
        forall k
          ensures Get(locks', k) == if k == filePath then None else Get(locks, k)
        {
          RemoveGet(locks, filePath, k);
        }
      }
      (locks', Unlocked(l.agentId))
  }

  /** Once a path is granted, another agent asking within the timeout is sent
      to orchestration, and the holder keeps the lock. */
  lemma GrantExcludesOthers(
    locks: Locks, a: string, b: string, filePath: string, intent: string, prompt: string,
    now: int, later: int, timeout: int)
    requires UniqueKeys(locks) && a != b
    requires now <= later && later - now <= timeout
    requires ProposeFileAccess(locks, a, filePath, intent, prompt, now, timeout).reply.Granted?
    ensures var g := ProposeFileAccess(locks, a, filePath, intent, prompt, now, timeout);
            var r := ProposeFileAccess(g.locks, b, filePath, intent, prompt, later, timeout);
            r.reply == RequiresOrchestration(g.reply.lock) && Get(r.locks, filePath) == Some(g.reply.lock)
  {
  }

  /** The holder asking again refreshes its lock to the new time. */
  lemma SameAgentRefreshes(
    locks: Locks, a: string, filePath: string, intent: string, prompt: string,
    now: int, later: int, timeout: int)
    requires UniqueKeys(locks)
    requires ProposeFileAccess(locks, a, filePath, intent, prompt, now, timeout).reply.Granted?
    ensures var g := ProposeFileAccess(locks, a, filePath, intent, prompt, now, timeout);
            var r := ProposeFileAccess(g.locks, a, filePath, intent, prompt, later, timeout);
            r.reply.Granted? && Get(r.locks, filePath).value.timestamp == later
  {
  }

  /** After a forced unlock any agent can take the path. */
  lemma ForceUnlockFreesPath(
    locks: Locks, filePath: string, b: string, intent: string, prompt: string, now: int, timeout: int)
    requires UniqueKeys(locks)
    ensures var u := ForceUnlock(locks, filePath);
            ProposeFileAccess(u.0, b, filePath, intent, prompt, now, timeout).reply.Granted?
  {
    var u := ForceUnlock(locks, filePath);
    assert Live(u.0, filePath, now, timeout).None?;
  }

  /** A lock exactly `timeout` old still blocks; one millisecond more and it
      has expired. */
  lemma ExpiryIsStrict(l: FileLock, timeout: int)
    ensures !Stale(l, l.timestamp + timeout, timeout)
    ensures Stale(l, l.timestamp + timeout + 1, timeout)
  {
  }
}

=== FILE: middleware.dfy ===
/** The dashboard's request gate (frontend/middleware.ts): which paths pass
    without a session, which are refused with 401 and which are sent to the
    login page. Whether the request carries a valid session is a parameter;
    reading the session cookie is not part of this model. */
module Middleware {
  import opened Js

  datatype Gate = Next | Unauthorized | RedirectToLogin

  const PublicPaths: seq<string> :=
    ["/login", "/api/auth/login", "/api/stripe/webhook", "/api/auth/logout", "/pricing", "/docs"]

  const AssetExtensions: seq<string> := ["png", "jpg", "jpeg", "gif", "ico", "svg"]

  /** Framework internals, the favicon and the landing page. */
  predicate IsFrameworkPath(pathname: string) {
    StartsWith(pathname, "/_next") || StartsWith(pathname, "/favicon") || pathname == "/"
  }

  /** `PUBLIC_PATHS.some(p => pathname.startsWith(p))`, element by element. */
  function SomePrefix(pathname: string, prefixes: seq<string>): (b: bool)
    ensures b <==> exists i :: 0 <= i < |prefixes| && StartsWith(pathname, prefixes[i])
    decreases |prefixes|
  {
    if |prefixes| == 0 then false
    else if StartsWith(pathname, prefixes[0]) then true
    else
      var rest := SomePrefix(pathname, prefixes[1..]);
      assert forall i :: 1 <= i < |prefixes| ==> prefixes[i] == prefixes[1..][i - 1];
      rest
  }

  /** The image regex `\.(png|jpg|jpeg|gif|ico|svg)$`, element by element. */
  function SomeExtension(pathname: string, exts: seq<string>): (b: bool)
    ensures b <==> exists i :: 0 <= i < |exts| && EndsWith(pathname, "." + exts[i])
    decreases |exts|
  {
    if |exts| == 0 then false
    else if EndsWith(pathname, "." + exts[0]) then true
    else
      var rest := SomeExtension(pathname, exts[1..]);
      assert forall i :: 1 <= i < |exts| ==> exts[i] == exts[1..][i - 1];
      rest
  }

  /** Paths the gate lets through whoever asks. */
  predicate IsOpen(pathname: string) {
    IsFrameworkPath(pathname)
    || SomeExtension(pathname, AssetExtensions)
    || SomePrefix(pathname, PublicPaths)
  }

  /** `middleware`: open paths and signed-in requests pass; otherwise API
      paths get 401 and pages are redirected to `/login`. */
  function Gatekeep(pathname: string, hasSession: bool): (g: Gate)
    ensures g == Next <==> hasSession || IsOpen(pathname)
    ensures g == Unauthorized <==> !hasSession && !IsOpen(pathname) && StartsWith(pathname, "/api")
    ensures g == RedirectToLogin <==> !hasSession && !IsOpen(pathname) && !StartsWith(pathname, "/api")
  {
    if IsFrameworkPath(pathname) then Next
    else if SomeExtension(pathname, AssetExtensions) then Next
    else if SomePrefix(pathname, PublicPaths) then Next
    else if !hasSession then
      if StartsWith(pathname, "/api") then Unauthorized else RedirectToLogin
    else Next
  }

  /** Prefixes are matched without a separator, so a path that merely begins
      with a public one (`/docs-internal`, `/pricing-admin`) is open too. */
  lemma PublicPrefixIsOpen(pathname: string, i: nat)
    requires i < |PublicPaths| && StartsWith(pathname, PublicPaths[i])
    ensures Gatekeep(pathname, false) == Next
  {
  }

  /** Any path ending in an image extension is open, API paths included. */
  lemma ImageSuffixIsOpen(pathname: string, i: nat)
    requires i < |AssetExtensions| && EndsWith(pathname, "." + AssetExtensions[i])
    ensures Gatekeep(pathname, false) == Next
  {
  }

  /** The paths the route matcher `/((?!_next/static|_next/image|favicon.ico).*)`
      keeps away from the middleware; its `.` matches any character. */
  predicate MatcherExcludes(pathname: string) {
    StartsWith(pathname, "/_next/static") || StartsWith(pathname, "/_next/image")
    || (|pathname| >= 12 && pathname[..8] == "/favicon" && pathname[9..12] == "ico")
  }

  /** The gate as deployed: excluded paths never reach the middleware. */
  function Routed(pathname: string, hasSession: bool): Gate {
    if MatcherExcludes(pathname) then Next else Gatekeep(pathname, hasSession)
  }

  /** Every path the matcher excludes is one the middleware passes anyway, so
      the matcher changes no answer. */
  lemma MatcherChangesNothing(pathname: string, hasSession: bool)
    ensures Routed(pathname, hasSession) == Gatekeep(pathname, hasSession)
  {
    if StartsWith(pathname, "/_next/static") || StartsWith(pathname, "/_next/image") {
      assert pathname[..6] == "/_next";
    } else if |pathname| >= 12 && pathname[..8] == "/favicon" && pathname[9..12] == "ico" {
      assert StartsWith(pathname, "/favicon");
    }
  }
}

=== FILE: nerve_center.dfy ===
/** The NerveCenter (src/local/nerve-center.ts): the lock table, the job board
    and the append-only live notepad, changed only by the public operations.
    Every operation runs under one mutex, so each is one atomic transition
    here; the clock reading and the generated job id are parameters. */
module NerveCenter {
  import opened Js
  import opened Records
  import opened JobBoard
  import opened LockTable

  /** One notepad entry; the markdown text it is printed as is not modelled. */
  datatype Note =
    | SessionStart(at: int)
    | JobPosted(priority: Priority, title: string, jobId: string, dependencies: seq<string>)
    | JobClaimed(agentId: string, title: string)
    | JobCancelled(title: string, jobId: string, reason: string)
    | JobDone(title: string, agentId: string, outcome: string)
    | ForceUnlocked(filePath: string, reason: string)
    | LockExpired(filePath: string, agentId: string)
    | LockGranted(agentId: string, filePath: string, intent: string, userPrompt: string)
    | AgentNote(agentId: string, text: string)

  datatype State = State(locks: Locks, jobs: Jobs, notepad: seq<Note>, lockTimeout: int)

  /** What an operation leaves behind and what it answers. */
  datatype Out<R> = Out(state: State, reply: R)

  /** Both tables are genuine objects: locks keyed once per path, jobs keyed
      once by their own id. */
  predicate Consistent(s: State) {
    UniqueKeys(s.locks) && JobBoard.Valid(s.jobs)
  }

  /** The state a fresh NerveCenter starts from. */
  function Initial(now: int, lockTimeout: Option<int>): (s: State)
    ensures Consistent(s)
    ensures s.locks == [] && s.jobs == [] && s.notepad == [SessionStart(now)]
    ensures lockTimeout.None? || lockTimeout == Some(0) ==> s.lockTimeout == 30 * 60 * 1000
    ensures lockTimeout.Some? && lockTimeout.value != 0 ==> s.lockTimeout == lockTimeout.value
  {
    State([], [], [SessionStart(now)], EffectiveTimeout(lockTimeout))
  }

  /** `d` extends `s` by exactly the entries `added`. */
  predicate Appended(s: seq<Note>, s': seq<Note>, added: seq<Note>) {
    s' == s + added
  }

  /** The "lock expired" lines for the dropped locks, in table order. */
  function ExpiryNotes(expired: Locks): (ns: seq<Note>)
    ensures |ns| == |expired|
    ensures forall i :: 0 <= i < |expired| ==> ns[i] == LockExpired(expired[i].key, expired[i].value.agentId)
  {
    seq(|expired|, i requires 0 <= i < |expired| => LockExpired(expired[i].key, expired[i].value.agentId))
  }

  /** `postJob`: the job board gains the job, the notepad one "job posted"
      line, and the locks stay as they are. */
  function PostJob(
    s: State, id: string, title: string, description: string,
    priority: Option<Priority>, dependencies: Option<seq<string>>, now: int): (r: Out<string>)
    ensures r.reply == id
    ensures r.state.locks == s.locks && r.state.lockTimeout == s.lockTimeout
    ensures var p := if priority.Some? then priority.value else Medium;
            var deps := if dependencies.Some? then dependencies.value else [];
            && Get(r.state.jobs, id) == Some(Job(id, title, description, p, Todo, None, deps, now, now))
            && Appended(s.notepad, r.state.notepad, [JobPosted(p, title, id, deps)])
    ensures forall k :: k != id ==> Get(r.state.jobs, k) == Get(s.jobs, k)
    ensures Consistent(s) ==> Consistent(r.state)
  {
    var step := JobBoard.PostJob(s.jobs, id, title, description, priority, dependencies, now);
    var job := Get(step.jobs, id).value;
    Out(s.(jobs := step.jobs, notepad := s.notepad + [JobPosted(job.priority, title, id, job.dependencies)]), id)
  }

  /** `claimNextJob`: either nothing is claimable and nothing changes, or the
      scheduled job is handed to the caller and the notepad says so. */
  function ClaimNextJob(s: State, agentId: string, now: int): (r: Out<ClaimReply>)
    ensures r.reply.NoJobsAvailable? <==> forall k :: 0 <= k < |s.jobs| ==> !Eligible(s.jobs, s.jobs[k].value)
    ensures r.reply.NoJobsAvailable? ==> r.state == s
    ensures r.reply.Claimed? ==>
      && r.reply.job.status == InProgress && r.reply.job.assignedTo == Some(agentId)
      && Appended(s.notepad, r.state.notepad, [JobClaimed(agentId, r.reply.job.title)])
      && exists i: nat :: SortHead(s.jobs, i) && r.reply.job == ClaimedBy(s.jobs[i].value, agentId, now)
    ensures r.state.locks == s.locks && Keys(r.state.jobs) == Keys(s.jobs)
    ensures Consistent(s) ==> Consistent(r.state)
  {
    var step := JobBoard.ClaimNextJob(s.jobs, agentId, now);
    match step.reply
    case NoJobsAvailable => Out(s, NoJobsAvailable)
    case Claimed(job) =>
      Out(s.(jobs := step.jobs, notepad := s.notepad + [JobClaimed(agentId, job.title)]), Claimed(job))
  }

  /** `cancelJob`: an unknown id changes nothing; a known job is cancelled and
      the notepad records the reason. */
  function CancelJob(s: State, jobId: string, reason: string, now: int): (r: Out<Outcome>)
    ensures r.reply.Fail? <==> jobId !in Keys(s.jobs)
    ensures r.reply.Fail? ==> r.state == s
    ensures r.reply.Pass? ==>
      && Get(r.state.jobs, jobId) == Some(Get(s.jobs, jobId).value.(status := Cancelled, updatedAt := now))
      && Appended(s.notepad, r.state.notepad, [JobCancelled(Get(s.jobs, jobId).value.title, jobId, reason)])
    ensures forall k :: k != jobId ==> Get(r.state.jobs, k) == Get(s.jobs, k)
    ensures r.state.locks == s.locks
  {
    var step := JobBoard.CancelJob(s.jobs, jobId, now);
    match step.reply
    case Fail(e) => Out(s, Fail(e))
    case Pass =>
      var title := Get(s.jobs, jobId).value.title;
      Out(s.(jobs := step.jobs, notepad := s.notepad + [JobCancelled(title, jobId, reason)]), Pass)
  }

  /** `completeJob`: refusals change nothing; the assignee's job becomes done
      and the notepad records the outcome. */
  function CompleteJob(s: State, agentId: string, jobId: string, outcome: string, now: int): (r: Out<Outcome>)
    ensures r.reply == Fail(JobNotFound) <==> jobId !in Keys(s.jobs)
    ensures r.reply == Fail(NotOwner) <==> Get(s.jobs, jobId).Some? && Get(s.jobs, jobId).value.assignedTo != Some(agentId)
    ensures r.reply.Fail? ==> r.state == s
    ensures r.reply.Pass? ==>
      && Get(r.state.jobs, jobId) == Some(Get(s.jobs, jobId).value.(status := Done, updatedAt := now))
      && Appended(s.notepad, r.state.notepad, [JobDone(Get(s.jobs, jobId).value.title, agentId, outcome)])
    ensures forall k :: k != jobId ==> Get(r.state.jobs, k) == Get(s.jobs, k)
    ensures r.state.locks == s.locks
  {
    var step := JobBoard.CompleteJob(s.jobs, agentId, jobId, now);
    match step.reply
    case Fail(e) => Out(s, Fail(e))
    case Pass =>
      var title := Get(s.jobs, jobId).value.title;
      Out(s.(jobs := step.jobs, notepad := s.notepad + [JobDone(title, agentId, outcome)]), Pass)
  }

  /** `forceUnlock`: an unlocked path changes nothing; otherwise that lock
      alone goes and the notepad records the admin's reason. */
  function ForceUnlock(s: State, filePath: string, adminReason: string): (r: Out<UnlockReply>)
    requires Consistent(s)
    ensures r.reply.NotLocked? <==> filePath !in Keys(s.locks)
    ensures r.reply.NotLocked? ==> r.state == s
    ensures r.reply.Unlocked? ==>
      && r.reply.previousOwner == Get(s.locks, filePath).value.agentId
      && Appended(s.notepad, r.state.notepad, [ForceUnlocked(filePath, adminReason)])
    ensures Get(r.state.locks, filePath).None?
    ensures forall k :: k != filePath ==> Get(r.state.locks, k) == Get(s.locks, k)
    ensures r.state.jobs == s.jobs && Consistent(r.state)
  {
    var u := LockTable.ForceUnlock(s.locks, filePath);
    match u.1
    case NotLocked => Out(s, NotLocked)
    case Unlocked(owner) =>
      Out(s.(locks := u.0, notepad := s.notepad + [ForceUnlocked(filePath, adminReason)]), Unlocked(owner))
  }

  /** `proposeFileAccess`: expired locks are dropped, each with a notepad
      line; then the lock-table decision is applied, and a grant is logged
      with the caller's intent and prompt. */
  function ProposeFileAccess(
    s: State, agentId: string, filePath: string, intent: string, userPrompt: string, now: int): (r: Out<ProposeReply>)
    requires Consistent(s)
    ensures var p := LockTable.ProposeFileAccess(s.locks, agentId, filePath, intent, userPrompt, now, s.lockTimeout);
      && r.reply == p.reply
      && r.state.locks == p.locks
      && Appended(s.notepad, r.state.notepad,
           ExpiryNotes(p.expired) + if p.reply.Granted? then [LockGranted(agentId, filePath, intent, userPrompt)] else [])
    ensures r.reply.RequiresOrchestration? <==>
      Live(s.locks, filePath, now, s.lockTimeout).Some? && Live(s.locks, filePath, now, s.lockTimeout).value.agentId != agentId
    ensures r.state.jobs == s.jobs && Consistent(r.state)
  {
    var p := LockTable.ProposeFileAccess(s.locks, agentId, filePath, intent, userPrompt, now, s.lockTimeout);
    var granted := if p.reply.Granted? then [LockGranted(agentId, filePath, intent, userPrompt)] else [];
    Out(s.(locks := p.locks, notepad := s.notepad + ExpiryNotes(p.expired) + granted), p.reply)
  }

  /** The lazy expiry `getLiveContext` performs before it prints the state:
      stale locks go, each with a notepad line, and the reply says whether
      any went. */
  function CleanStale(s: State, now: int): (r: Out<bool>)
    requires Consistent(s)
    ensures forall k :: Get(r.state.locks, k) == Live(s.locks, k, now, s.lockTimeout)
    ensures r.reply <==> exists i :: 0 <= i < |s.locks| && Stale(s.locks[i].value, now, s.lockTimeout)
    ensures r.state.jobs == s.jobs && Consistent(r.state)
  {
    var c := CleanStaleLocks(s.locks, now, s.lockTimeout);
    assert (exists i :: 0 <= i < |s.locks| && Stale(s.locks[i].value, now, s.lockTimeout)) ==> |c.expired| > 0 by {
      if exists i :: 0 <= i < |s.locks| && Stale(s.locks[i].value, now, s.lockTimeout) {
        var i :| 0 <= i < |s.locks| && Stale(s.locks[i].value, now, s.lockTimeout);
        assert s.locks[i] in c.expired;
      }
    }
    assert |c.expired| > 0 ==> exists i :: 0 <= i < |s.locks| && Stale(s.locks[i].value, now, s.lockTimeout) by {
      if |c.expired| > 0 {
        assert c.expired[0] in s.locks;
      }
    }
    Out(s.(locks := c.kept, notepad := s.notepad + ExpiryNotes(c.expired)), |c.expired| > 0)
  }

  /** The bundled server's in-memory `getLocks`, which its `getLiveContext`
      prints: the table's locks in order, with no purge before it. */
  function LocksInMemory(s: State): (ls: seq<FileLock>)
    ensures |ls| == |s.locks|
    ensures forall i :: 0 <= i < |s.locks| ==> ls[i] == s.locks[i].value
  {
    Values(s.locks)
  }

  /** A stale lock still shows in the bundled in-memory listing, while the
      source's `getLiveContext` expires it (with a reply saying so) before
      it lists anything. */
  lemma InMemoryListsStaleLocks(s: State, now: int, i: nat)
    requires Consistent(s) && i < |s.locks| && Stale(s.locks[i].value, now, s.lockTimeout)
    ensures s.locks[i].value in LocksInMemory(s)
    ensures Get(CleanStale(s, now).state.locks, s.locks[i].key).None?
    ensures CleanStale(s, now).reply
  {
    GetAt(s.locks, i);
    assert LocksInMemory(s)[i] == s.locks[i].value;
  }

  /** `updateSharedContext`: one agent line on the notepad, nothing else. */
  function UpdateSharedContext(s: State, text: string, agentId: string): (r: Out<string>)
    ensures r.state == s.(notepad := s.notepad + [AgentNote(agentId, text)])
    ensures r.reply == "Notepad updated."
  {
    Out(s.(notepad := s.notepad + [AgentNote(agentId, text)]), "Notepad updated.")
  }

  /** `finalizeSession` (state part; the archive file and the RAG indexing are
      I/O). The archive write is not guarded, so when it fails the call
      throws before anything is cleared and the state stays as it was.
      Otherwise no locks remain, only unfinished jobs stay, and the notepad
      restarts; a failed RAG indexing is caught and changes nothing here. */
  function FinalizeSession(s: State, now: int, archiveFails: bool): (r: State)
    ensures archiveFails ==> r == s
    ensures !archiveFails ==> r.locks == [] && r.notepad == [SessionStart(now)] && r.lockTimeout == s.lockTimeout
    ensures !archiveFails ==> forall i :: 0 <= i < |r.jobs| ==> r.jobs[i] in s.jobs && Unfinished(r.jobs[i].value)
    ensures !archiveFails ==> forall i :: 0 <= i < |s.jobs| && Unfinished(s.jobs[i].value) ==> s.jobs[i] in r.jobs
    ensures Consistent(s) ==> Consistent(r)
  {
    if archiveFails then s
    else State([], FinalizeJobs(s.jobs), [SessionStart(now)], s.lockTimeout)
  }

  // ---------------------------------------------------------------------
  // The bundled server (packages/axis-server/dist/mcp-server.mjs) runs the
  // same NerveCenter; without a database its in-memory branches differ from
  // the source only as modelled below.
  // ---------------------------------------------------------------------

  /** The bundled in-memory `proposeFileAccess`: expired locks are deleted
      without a notepad line, then the same conflict/grant rule applies. */
  function ProposeFileAccessInMemory(
    s: State, agentId: string, filePath: string, intent: string, userPrompt: string, now: int): (r: Out<ProposeReply>)
    requires Consistent(s)
    ensures r.state.jobs == s.jobs
    ensures r.reply.Granted? ==> Appended(s.notepad, r.state.notepad, [LockGranted(agentId, filePath, intent, userPrompt)])
    ensures r.reply.RequiresOrchestration? ==> r.state.notepad == s.notepad
  {
    var purged := Filter(s.locks, l => !Stale(l, now, s.lockTimeout));
    var d := Decide(purged, agentId, filePath, intent, userPrompt, now);
    var granted := if d.1.Granted? then [LockGranted(agentId, filePath, intent, userPrompt)] else [];
    Out(s.(locks := d.0, notepad := s.notepad + granted), d.1)
  }

  /** The bundled and the source `proposeFileAccess` agree on the answer and
      on the lock table; the notepads differ by the expiry lines only. */
  lemma InMemoryProposeAgrees(
    s: State, agentId: string, filePath: string, intent: string, userPrompt: string, now: int)
    requires Consistent(s)
    ensures var a := ProposeFileAccessInMemory(s, agentId, filePath, intent, userPrompt, now);
            var b := ProposeFileAccess(s, agentId, filePath, intent, userPrompt, now);
            var expired := LockTable.ProposeFileAccess(s.locks, agentId, filePath, intent, userPrompt, now, s.lockTimeout).expired;
            && a.reply == b.reply
            && a.state.locks == b.state.locks
            && a.state.jobs == b.state.jobs
            && b.state.notepad == s.notepad + ExpiryNotes(expired) + a.state.notepad[|s.notepad|..]
  {
  }

  /** `new Map(allJobs.map(j => [j.id, j]))`: later jobs with the same id win. */
  function JobsById(jobs: seq<Job>): map<string, Job> {
    if |jobs| == 0 then map[] else JobsById(jobs[..|jobs| - 1])[jobs[|jobs| - 1].id := jobs[|jobs| - 1]]
  }

  /** The id map holds exactly the ids of the listed jobs. */
  lemma {:induction false} JobsByIdDomain(jobs: seq<Job>, d: string)
    ensures d in JobsById(jobs) <==> exists i :: 0 <= i < |jobs| && jobs[i].id == d
    decreases |jobs|
  {
    if |jobs| > 0 {
      var init := jobs[..|jobs| - 1];
      JobsByIdDomain(init, d);
      if exists i :: 0 <= i < |init| && init[i].id == d {
        var i :| 0 <= i < |init| && init[i].id == d;
        assert jobs[i].id == d;
      }
      if exists i :: 0 <= i < |jobs| && jobs[i].id == d {
        var i :| 0 <= i < |jobs| && jobs[i].id == d;
        if i < |init| {
          assert init[i].id == d;
        }
      }
    }
  }

  /** A job whose id no later job repeats is the one the id map returns. */
  lemma {:induction false} JobsByIdLastWins(jobs: seq<Job>, i: nat)
    requires i < |jobs|
    requires forall j :: i < j < |jobs| ==> jobs[j].id != jobs[i].id
    ensures jobs[i].id in JobsById(jobs) && JobsById(jobs)[jobs[i].id] == jobs[i]
    decreases |jobs|
  {
    if i < |jobs| - 1 {
      var init := jobs[..|jobs| - 1];
      assert forall j :: i < j < |init| ==> init[j] == jobs[j];
      JobsByIdLastWins(init, i);
    }
  }

  /** The bundled in-memory eligibility test: every dependency id maps, in
      the id map, to a done job. */
  predicate EligibleInMemory(byId: map<string, Job>, j: Job) {
    && j.status == Todo
    && forall d :: d in j.dependencies ==> d in byId && byId[d].status == Done
  }

  /** On a consistent board the bundled id map and the source's keyed lookup
      find the same jobs, so the bundled in-memory `claimNextJob` filters
      exactly the jobs the source does (its sort and its claim are the same
      code). */
  lemma InMemoryEligibilityAgrees(jobs: Jobs, j: Job)
    requires JobBoard.Valid(jobs)
    ensures EligibleInMemory(JobsById(Values(jobs)), j) <==> Eligible(jobs, j)
  {
    var vs := Values(jobs);
    var m := JobsById(vs);
    forall d | d in j.dependencies
      ensures (d in m && m[d].status == Done) <==> DependencyDone(jobs, d)
    {
      JobsByIdDomain(vs, d);
      if d in m {
        var i :| 0 <= i < |vs| && vs[i].id == d;
        GetAt(jobs, i);
        assert forall k :: i < k < |vs| ==> vs[k].id != vs[i].id by {
          forall k | i < k < |vs|
            ensures vs[k].id != vs[i].id
          {
            assert jobs[k].key != jobs[i].key;
          }
        }
        JobsByIdLastWins(vs, i);
      } else {
        forall i | 0 <= i < |jobs|
          ensures jobs[i].key != d
        {
          assert vs[i].id == jobs[i].key;
        }
      }
    }
  }

  // ---------------------------------------------------------------------
  // Runs of operations.
  // ---------------------------------------------------------------------

  datatype Op =
    | Post(id: string, title: string, description: string, priority: Option<Priority>, deps: Option<seq<string>>)
    | Claim(agentId: string)
    | Cancel(jobId: string, reason: string)
    | Complete(agentId: string, jobId: string, outcome: string)
    | Propose(agentId: string, filePath: string, intent: string, userPrompt: string)
    | Unlock(filePath: string, reason: string)
    | Share(text: string, agentId: string)
    | Clean
    | Finalize(archiveFails: bool)

  /** An operation and the clock reading it sees. */
  datatype Event = Event(op: Op, now: int)

  function Apply(s: State, e: Event): (r: State)
    requires Consistent(s)
    ensures Consistent(r)
  {
    match e.op
    case Post(id, t, desc, p, deps) => PostJob(s, id, t, desc, p, deps, e.now).state
    case Claim(a) => ClaimNextJob(s, a, e.now).state
    case Cancel(id, reason) => CancelPreserves(s, id, reason, e.now); CancelJob(s, id, reason, e.now).state
    case Complete(a, id, out) => CompletePreserves(s, a, id, out, e.now); CompleteJob(s, a, id, out, e.now).state
    case Propose(a, f, i, u) => ProposeFileAccess(s, a, f, i, u, e.now).state
    case Unlock(f, reason) => ForceUnlock(s, f, reason).state
    case Share(text, a) => UpdateSharedContext(s, text, a).state
    case Clean => CleanStale(s, e.now).state
    case Finalize(fails) => FinalizeSession(s, e.now, fails)
  }

  lemma CancelPreserves(s: State, jobId: string, reason: string, now: int)
    requires Consistent(s)
    ensures Consistent(CancelJob(s, jobId, reason, now).state)
  {
    var r := CancelJob(s, jobId, reason, now).state;
    forall i | 0 <= i < |r.jobs|
      ensures r.jobs[i].key == r.jobs[i].value.id
    {
      GetAt(r.jobs, i);
      GetAt(s.jobs, Find(s.jobs, r.jobs[i].key).value);
    }
    assert forall a, b :: 0 <= a < b < |r.jobs| ==> r.jobs[a].key == Keys(r.jobs)[a] && r.jobs[b].key == Keys(r.jobs)[b];
  }

  lemma CompletePreserves(s: State, agentId: string, jobId: string, outcome: string, now: int)
    requires Consistent(s)
    ensures Consistent(CompleteJob(s, agentId, jobId, outcome, now).state)
  {
    var r := CompleteJob(s, agentId, jobId, outcome, now).state;
    forall i | 0 <= i < |r.jobs|
      ensures r.jobs[i].key == r.jobs[i].value.id
    {
      GetAt(r.jobs, i);
      GetAt(s.jobs, Find(s.jobs, r.jobs[i].key).value);
    }
    assert forall a, b :: 0 <= a < b < |r.jobs| ==> r.jobs[a].key == Keys(r.jobs)[a] && r.jobs[b].key == Keys(r.jobs)[b];
  }

  function Run(s: State, es: seq<Event>): (r: State)
    requires Consistent(s)
    ensures Consistent(r)
    decreases |es|
  {
    if |es| == 0 then s else Run(Apply(s, es[0]), es[1..])
  }

  /** No operation except posting a job under that very id brings a job id
      back onto the board. */
  lemma {:induction false} AbsentIdStaysAbsent(s: State, es: seq<Event>, d: string)
    requires Consistent(s) && d !in Keys(s.jobs)
    requires forall i :: 0 <= i < |es| && es[i].op.Post? ==> es[i].op.id != d
    ensures d !in Keys(Run(s, es).jobs)
    decreases |es|
  {
    if |es| > 0 {
      var s1 := Apply(s, es[0]);
      assert d !in Keys(s1.jobs) by {
        match es[0].op
        case Post(id, t, desc, p, deps) =>
          assert Get(s1.jobs, d) == Get(s.jobs, d);
        case Cancel(id, reason) =>
          assert Keys(JobBoard.CancelJob(s.jobs, id, es[0].now).jobs) == Keys(s.jobs);
        case Complete(a, id, out) =>
          assert Keys(JobBoard.CompleteJob(s.jobs, a, id, es[0].now).jobs) == Keys(s.jobs);
        case Finalize(fails) =>
          if !fails {
            var f := FinalizeJobs(s.jobs);
            forall i | 0 <= i < |f|
              ensures f[i].key != d
            {
              assert f[i] in s.jobs;
              var n :| 0 <= n < |s.jobs| && s.jobs[n] == f[i];
              assert Keys(s.jobs)[n] == f[i].key;
            }
          }
        case _ =>
      }
      assert forall i :: 0 <= i < |es[1..]| && es[1..][i].op.Post? ==> es[1..][i].op.id != d by {
        forall i | 0 <= i < |es[1..]| && es[1..][i].op.Post?
          ensures es[1..][i].op.id != d
        {
          assert es[1..][i] == es[i + 1];
        }
      }
      AbsentIdStaysAbsent(s1, es[1..], d);
    }
  }

  /** Only a finalisation whose archive write succeeds rewrites the notepad. */
  predicate ResetsNotepad(e: Event) {
    e.op.Finalize? && !e.op.archiveFails
  }

  /** Between two successful finalisations the notepad is append-only: every
      note an agent saw is still there, in place, after any run of other
      operations. */
  lemma {:induction false} NotepadOnlyGrows(s: State, es: seq<Event>)
    requires Consistent(s)
    requires forall i :: 0 <= i < |es| ==> !ResetsNotepad(es[i])
    ensures s.notepad <= Run(s, es).notepad
    decreases |es|
  {
    if |es| > 0 {
      assert s.notepad <= Apply(s, es[0]).notepad;
      assert forall i :: 0 <= i < |es[1..]| ==> es[1..][i] == es[i + 1];
      NotepadOnlyGrows(Apply(s, es[0]), es[1..]);
    }
  }

  /** A todo job whose parent was done when the session was finalized can
      never be claimed again: finalizing deleted the parent, eligibility needs
      the parent to exist and be done, and nothing but a new job posted under
      the parent's id would bring it back. */
  lemma FinalizedParentStrandsChild(s: State, now: int, d: string, es: seq<Event>, agentId: string, later: int)
    requires Consistent(s)
    requires DependencyDone(s.jobs, d)
    requires forall i :: 0 <= i < |es| && es[i].op.Post? ==> es[i].op.id != d
    ensures var t := Run(FinalizeSession(s, now, false), es);
      && (forall k :: 0 <= k < |t.jobs| && d in t.jobs[k].value.dependencies ==> !Eligible(t.jobs, t.jobs[k].value))
      && var c := ClaimNextJob(t, agentId, later);
         c.reply.Claimed? ==> d !in c.reply.job.dependencies
  {
    var f := FinalizeSession(s, now, false);
    DoneJobLeavesBoard(s.jobs, d);
    AbsentIdStaysAbsent(f, es, d);
    var t := Run(f, es);
    forall k | 0 <= k < |t.jobs| && d in t.jobs[k].value.dependencies
      ensures !Eligible(t.jobs, t.jobs[k].value)
    {
      MissingDependencyBlocks(t.jobs, t.jobs[k].value, d);
    }
  }
}

=== FILE: paths.dfy ===
/** File-name confinement of the bundled context manager
    (packages/axis-server/dist/mcp-server.mjs): POSIX `path.resolve` and the
    prefix tests that keep reads and writes inside `agent-instructions/` and
    `docs/`. An absolute path is its list of segments; `/` is the empty list. */
module Paths {
  import opened Js

  type Segments = seq<string>

  /** A segment of a normalised path: non-empty, no separator, not `.`/`..`. */
  predicate Segment(s: string) {
    s != "" && '/' !in s && s != "." && s != ".."
  }

  predicate Normal(p: Segments) {
    forall i :: 0 <= i < |p| ==> Segment(p[i])
  }

  /** One step of `path.normalize`: empty and `.` parts vanish, `..` drops
      the last segment (the root's parent is the root), anything else is
      appended. */
  function Step(acc: Segments, part: string): Segments {
    if part == "" || part == "." then acc
    else if part == ".." then (if |acc| == 0 then acc else acc[..|acc| - 1])
    else acc + [part]
  }

  function Normalize(acc: Segments, parts: seq<string>): (p: Segments)
    requires Normal(acc)
    requires forall i :: 0 <= i < |parts| ==> '/' !in parts[i]
    ensures Normal(p)
    decreases |parts|
  {
    if |parts| == 0 then acc else Normalize(Step(acc, parts[0]), parts[1..])
  }

  /** `path.resolve(base, p)` on POSIX: an absolute `p` starts again from the
      root, a relative one from `base`. */
  function Resolve(base: Segments, p: string): (r: Segments)
    requires Normal(base)
    ensures Normal(r)
  {
    Normalize(if |p| > 0 && p[0] == '/' then [] else base, Split(p, '/'))
  }

  /** The segments written as `/a/b/c`, without the root special case. */
  function Concat(p: Segments): (s: string)
    ensures |s| == 0 <==> |p| == 0
    ensures |s| > 0 ==> s[0] == '/'
  {
    if |p| == 0 then "" else "/" + p[0] + Concat(p[1..])
  }

  /** The absolute path string of a segment list. */
  function Render(p: Segments): (s: string)
    ensures |s| > 0 && s[0] == '/'
  {
    if |p| == 0 then "/" else Concat(p)
  }

  /** `p` lies strictly below `dir`. */
  predicate Inside(dir: Segments, p: Segments) {
    |dir| < |p| && p[..|dir|] == dir
  }

  lemma ConsPrefix(c: char, a: string, b: string)
    ensures StartsWith([c] + a, [c] + b) <==> StartsWith(a, b)
  {
    if |b| <= |a| {
      assert ([c] + a)[..|b| + 1] == [c] + a[..|b|];
      assert ([c] + a[..|b|])[1..] == a[..|b|];
      assert ([c] + b)[1..] == b;
    }
  }

  /** Two segments followed by separators: one text starts with the other
      exactly when the segments are equal and the rests agree. */
  lemma SegmentPrefix(x: string, y: string, a: string, b: string)
    requires x != "" && y != "" && '/' !in x && '/' !in y
    requires |a| > 0 && a[0] == '/'
    requires b == "" || b[0] == '/'
    ensures StartsWith(y + b, x + a) <==> x == y && StartsWith(b, a)
  {
    if StartsWith(y + b, x + a) {
      var n := |x|;
      assert (y + b)[n] == (x + a)[n] == '/';
      assert |y| <= n;
      assert |b| > 0;
      assert (y + b)[|y|] == (x + a)[|y|];
      assert |y| == n;
      assert y == (y + b)[..n] == (x + a)[..n] == x;
      assert b[..|a|] == (y + b)[n..n + |a|] == (x + a)[n..n + |a|] == a;
    }
    if x == y && StartsWith(b, a) {
      assert (y + b)[..|x + a|] == y + b[..|a|];
    }
  }

  /** The textual test `path.startsWith(dir + "/")` decides, on normalised
      paths, whether `path` lies strictly below `dir`. */
  lemma {:induction false} ConcatInside(d: Segments, r: Segments)
    requires Normal(d) && Normal(r)
    ensures StartsWith(Concat(r), Concat(d) + "/") <==> Inside(d, r)
    decreases |d|
  {
    if |d| == 0 {
      assert Concat(d) + "/" == "/";
    } else if |r| > 0 {
      var x, y := d[0], r[0];
      ConcatInside(d[1..], r[1..]);
      assert Concat(r) == [ '/' ] + (y + Concat(r[1..]));
      assert Concat(d) + "/" == [ '/' ] + (x + (Concat(d[1..]) + "/"));
      ConsPrefix('/', y + Concat(r[1..]), x + (Concat(d[1..]) + "/"));
      SegmentPrefix(x, y, Concat(d[1..]) + "/", Concat(r[1..]));
      if |d| <= |r| {
        assert r[..|d|] == [y] + r[1..][..|d| - 1];
      }
      assert d == [x] + d[1..];
    }
  }

  /** The same statement about the rendered strings, for a directory other
      than the root. */
  lemma RenderInside(d: Segments, r: Segments)
    requires Normal(d) && Normal(r) && |d| > 0
    ensures StartsWith(Render(r), Render(d) + "/") <==> Inside(d, r)
  {
    ConcatInside(d, r);
  }

  /** Normalising separator-free segments appends them unchanged. */
  lemma {:induction false} NormalizeNormal(acc: Segments, p: Segments)
    requires Normal(acc) && Normal(p)
    ensures Normalize(acc, p) == acc + p
    decreases |p|
  {
    if |p| > 0 {
      NormalizeNormal(acc + [p[0]], p[1..]);
      assert acc + [p[0]] + p[1..] == acc + p;
    }
  }

  lemma {:induction false} ConcatIsJoin(p: Segments)
    ensures Concat(p) == Join([""] + p, '/')
    decreases |p|
  {
    if |p| > 0 {
      ConcatIsJoin(p[1..]);
      assert ([""] + p)[1..] == p;
      if |p| == 1 {
        assert Join(p, '/') == p[0];
      } else {
        assert Join(p, '/') == p[0] + ['/'] + Join(p[1..], '/');
        assert ([""] + p[1..])[1..] == p[1..];
      }
    }
  }

  /** Resolving the rendering of a normalised path gives the path back, from
      any base directory. */
  lemma RenderResolves(base: Segments, p: Segments)
    requires Normal(base) && Normal(p)
    ensures Resolve(base, Render(p)) == p
  {
    if |p| > 0 {
      ConcatIsJoin(p);
      SplitJoin([""] + p, '/');
      NormalizeNormal([], p);
      assert ([""] + p)[1..] == p;
    } else {
      assert IndexOf("/", '/') == 0;
      assert "/"[1..] == "";
      assert Split("/", '/') == [""] + Split("", '/');
      assert Normalize([], ["", ""]) == [];
    }
  }

  datatype Resolved = Ok(path: Segments) | InvalidFilename | InvalidFilePath | InvalidDocPath

  function InstructionsDir(cwd: Segments): Segments {
    cwd + ["agent-instructions"]
  }

  function DocsDir(cwd: Segments): Segments {
    cwd + ["docs"]
  }

  /** `resolveFilePath`: an empty name or one holding NUL is an invalid
      filename; otherwise the name resolved against the instructions
      directory must lie strictly below it. */
  function ResolveFilePath(cwd: Segments, filename: string): (r: Resolved)
    requires Normal(cwd)
    ensures r.InvalidFilename? <==> filename == "" || '\0' in filename
    ensures r.Ok? <==>
      filename != "" && '\0' !in filename && Inside(InstructionsDir(cwd), Resolve(InstructionsDir(cwd), filename))
    ensures r.Ok? ==> r.path == Resolve(InstructionsDir(cwd), filename)
    ensures !r.InvalidDocPath?
  {
    var dir := InstructionsDir(cwd);
    if filename == "" || '\0' in filename then InvalidFilename
    else
      var resolved := Resolve(dir, filename);
      RenderInside(dir, resolved);
      if StartsWith(Render(resolved), Render(dir) + "/") then Ok(resolved) else InvalidFilePath
  }

  /** A plain file name is accepted and names that file in the directory. */
  lemma PlainNameIsAccepted(cwd: Segments, name: string)
    requires Normal(cwd) && Segment(name) && '\0' !in name
    ensures ResolveFilePath(cwd, name) == Ok(InstructionsDir(cwd) + [name])
  {
    SplitJoin([name], '/');
    assert name[0] != '/' by {
      assert name[0] in name;
    }
    var dir := InstructionsDir(cwd);
    assert Resolve(dir, name) == Normalize(dir, [name]) == dir + [name];
    assert (dir + [name])[..|dir|] == dir;
  }

  lemma SplitClimb(s: string, t: string)
    requires Segment(s) && Segment(t)
    ensures Split(".." + "/" + s + "/" + t, '/') == ["..", s, t]
  {
    var parts := ["..", s, t];
    assert Join([t], '/') == t;
    assert Join([s, t], '/') == s + "/" + t by {
      assert [s, t][1..] == [t];
    }
    assert Join(parts, '/') == ".." + "/" + (s + "/" + t) by {
      assert parts[1..] == [s, t];
    }
    assert ".." + "/" + (s + "/" + t) == ".." + "/" + s + "/" + t;
    SplitJoin(parts, '/');
  }

  /** `../s/t` relative to `dir` is the sibling `s` of `dir`, then `t`. */
  lemma ResolveClimb(dir: Segments, s: string, t: string)
    requires Normal(dir) && |dir| > 0 && Segment(s) && Segment(t)
    ensures Resolve(dir, ".." + "/" + s + "/" + t) == dir[..|dir| - 1] + [s, t]
  {
    var p := ".." + "/" + s + "/" + t;
    SplitClimb(s, t);
    assert p[0] == '.';
    ClimbThenAppend(dir, s, t);
  }

  /** The parts `..`, `s`, `t` taken from `dir`: up one level, then down two. */
  lemma ClimbThenAppend(dir: Segments, s: string, t: string)
    requires Normal(dir) && |dir| > 0 && Segment(s) && Segment(t)
    ensures Normalize(dir, ["..", s, t]) == dir[..|dir| - 1] + [s, t]
  {
    var up := dir[..|dir| - 1];
    assert ["..", s, t][1..] == [s, t];
    assert Step(dir, "..") == up;
    AppendTwo(up, s, t);
  }

  lemma AppendTwo(up: Segments, s: string, t: string)
    requires Normal(up) && Segment(s) && Segment(t)
    ensures Normalize(up, [s, t]) == up + [s, t]
  {
    assert [s, t][1..] == [t];
    assert [t][1..] == [];
    assert Step(up, s) == up + [s];
    assert Normal(up + [s]);
    assert Step(up + [s], t) == up + [s] + [t] == up + [s, t];
    assert Normalize(up + [s], [t]) == Normalize(up + [s, t], []) == up + [s, t];
    assert Normalize(up, [s, t]) == Normalize(up + [s], [t]);
  }

  /** A name that climbs out of the instructions directory into any sibling
      (`../agent-instructions-old/a.md` among them) is refused: the test
      includes the separator. */
  lemma ClimbingOutIsRejected(cwd: Segments, s: string, t: string)
    requires Normal(cwd) && Segment(s) && Segment(t) && s != "agent-instructions"
    requires '\0' !in s && '\0' !in t
    ensures ResolveFilePath(cwd, ".." + "/" + s + "/" + t).InvalidFilePath?
  {
    var dir := InstructionsDir(cwd);
    ResolveClimb(dir, s, t);
    assert dir[..|dir| - 1] == cwd;
    assert (cwd + [s, t])[|cwd|] == s;
    assert dir[|cwd|] == "agent-instructions";
    assert '\0' !in ".." + "/" + s + "/" + t;
  }

  /** The file `readFile` opens. A `docs/` name is looked up below `docs/`
      and must stay strictly inside it; anything else goes through
      `resolveFilePath`. This is the intended check, with the separator. */
  function ReadFileTarget(cwd: Segments, filename: string): (r: Resolved)
    requires Normal(cwd)
    ensures StartsWith(filename, "docs/") ==>
      (r.Ok? <==> Inside(DocsDir(cwd), Resolve(DocsDir(cwd), filename[5..])))
    ensures !StartsWith(filename, "docs/") ==> r == ResolveFilePath(cwd, filename)
    ensures r.Ok? ==> Inside(DocsDir(cwd), r.path) || Inside(InstructionsDir(cwd), r.path)
  {
    if StartsWith(filename, "docs/") then
      var docsDir := DocsDir(cwd);
      var docPath := Resolve(docsDir, filename[5..]);
      RenderInside(docsDir, docPath);
      if StartsWith(Render(docPath), Render(docsDir) + "/") then Ok(docPath) else InvalidDocPath
    else ResolveFilePath(cwd, filename)
  }

  /** The file `updateFile` writes: every name goes through `resolveFilePath`,
      so nothing outside the instructions directory is ever written. */
  function UpdateFileTarget(cwd: Segments, filename: string): (r: Resolved)
    requires Normal(cwd)
    ensures r.Ok? ==> Inside(InstructionsDir(cwd), r.path)
    ensures r.Ok? <==> filename != "" && '\0' !in filename && Inside(InstructionsDir(cwd), Resolve(InstructionsDir(cwd), filename))
  {
    ResolveFilePath(cwd, filename)
  }

  /** `readFile` as written: the `docs/` branch tests `startsWith(docsDir)`
      without a separator, so it also accepts the directory itself and any
      sibling whose name starts with `docs`. It accepts everything the
      intended check accepts. */
  function ReadFileTargetAsWritten(cwd: Segments, filename: string): (r: Resolved)
    requires Normal(cwd)
    ensures StartsWith(filename, "docs/") ==>
      (r.Ok? <==> StartsWith(Render(Resolve(DocsDir(cwd), filename[5..])), Render(DocsDir(cwd))))
    ensures ReadFileTarget(cwd, filename).Ok? ==> r == ReadFileTarget(cwd, filename)
    ensures !StartsWith(filename, "docs/") ==> r == ReadFileTarget(cwd, filename)
  {
    if StartsWith(filename, "docs/") then
      var docsDir := DocsDir(cwd);
      var docPath := Resolve(docsDir, filename[5..]);
      RenderInside(docsDir, docPath);
      var inside := Render(docsDir) + "/";
      assert StartsWith(Render(docPath), inside) ==> StartsWith(Render(docPath), Render(docsDir)) by {
        if StartsWith(Render(docPath), inside) {
          assert Render(docPath)[..|Render(docsDir)|] == inside[..|Render(docsDir)|];
        }
      }
      if StartsWith(Render(docPath), Render(docsDir)) then Ok(docPath) else InvalidDocPath
    else ResolveFilePath(cwd, filename)
  }

  /** Rendering distributes over concatenation of segment lists. */
  lemma {:induction false} ConcatAppend(a: Segments, b: Segments)
    ensures Concat(a + b) == Concat(a) + Concat(b)
    decreases |a|
  {
    if |a| > 0 {
      ConcatAppend(a[1..], b);
      assert (a + b)[1..] == a[1..] + b;
    } else {
      assert a + b == b;
    }
  }

  /** `docs/../s/t`, for any sibling `s` of `docs` whose name starts with
      `docs` (`docs/../docs-private/key.md`, say), escapes the docs directory:
      the code as written opens `s/t`, the intended check refuses it. */
  lemma DocsSiblingEscapes(cwd: Segments, s: string, t: string)
    requires Normal(cwd) && Segment(s) && Segment(t) && s != "docs" && StartsWith(s, "docs")
    ensures ReadFileTargetAsWritten(cwd, "docs/" + (".." + "/" + s + "/" + t)) == Ok(cwd + [s, t])
    ensures ReadFileTarget(cwd, "docs/" + (".." + "/" + s + "/" + t)) == InvalidDocPath
  {
    var docName := ".." + "/" + s + "/" + t;
    var name := "docs/" + docName;
    assert StartsWith(name, "docs/") && name[5..] == docName;
    var docsDir := DocsDir(cwd);
    ResolveClimb(docsDir, s, t);
    assert docsDir[..|docsDir| - 1] == cwd;
    var p := cwd + [s, t];
    assert p[|cwd|] == s && docsDir[|cwd|] == "docs";
    assert !Inside(docsDir, p);
    ConcatAppend(cwd, [s, t]);
    ConcatAppend(cwd, ["docs"]);
    assert Concat([s, t]) == "/" + s + Concat([t]);
    assert Concat(["docs"]) == "/" + "docs";
    var c := Concat(cwd);
    assert Render(p) == c + ("/" + s + Concat([t]));
    assert Render(docsDir) == c + ("/" + "docs");
    assert (c + ("/" + s + Concat([t])))[..|c| + 5] == c + ("/" + s[..4]);
  }
}

=== FILE: profiles.dfy ===
/** The `profiles` table that the Stripe routes and the bundled server's
    billing tools read and write, as a sequence of rows with the two filters
    and the one update they use. A timestamp is held in milliseconds; `None`
    stands for SQL `NULL`. */
module Profiles {
  import opened Js

  datatype Profile = Profile(
    email: string,
    stripeCustomerId: Option<string>,
    subscriptionStatus: Option<string>,
    currentPeriodEnd: Option<int>,
    hasSeenRetention: Option<bool>,
    usageCount: Option<int>)

  type Table = seq<Profile>

  /** `.eq("email", e)`: the rows whose email is exactly `e`, in table order. */
  function WithEmail(t: Table, e: string): (rows: Table)
    ensures forall r :: r in rows <==> r in t && r.email == e
    ensures |rows| <= |t|
    decreases |t|
  {
    if |t| == 0 then []
    else (if t[0].email == e then [t[0]] else []) + WithEmail(t[1..], e)
  }

  /** The filter works row by row: order and duplicate rows are kept. */
  lemma {:induction false} WithEmailAppend(a: Table, b: Table, e: string)
    ensures WithEmail(a + b, e) == WithEmail(a, e) + WithEmail(b, e)
    decreases |a|
  {
    if |a| > 0 {
      assert (a + b)[1..] == a[1..] + b;
      WithEmailAppend(a[1..], b, e);
    } else {
      assert a + b == b;
    }
  }

  /** `.ilike("email", e)` for a pattern without wildcards: the rows whose
      email equals `e` up to ASCII case. */
  function WithEmailIgnoringCase(t: Table, e: string): (rows: Table)
    ensures forall r :: r in rows <==> r in t && ToLower(r.email) == ToLower(e)
    decreases |t|
  {
    if |t| == 0 then []
    else (if ToLower(t[0].email) == ToLower(e) then [t[0]] else []) + WithEmailIgnoringCase(t[1..], e)
  }

  lemma {:induction false} WithEmailIgnoringCaseAppend(a: Table, b: Table, e: string)
    ensures WithEmailIgnoringCase(a + b, e) == WithEmailIgnoringCase(a, e) + WithEmailIgnoringCase(b, e)
    decreases |a|
  {
    if |a| > 0 {
      assert (a + b)[1..] == a[1..] + b;
      WithEmailIgnoringCaseAppend(a[1..], b, e);
    } else {
      assert a + b == b;
    }
  }

  /** `.single()`: the row when exactly one matched, an error otherwise. */
  function Single(rows: Table): (r: Option<Profile>)
    ensures r.Some? <==> |rows| == 1
    ensures r.Some? ==> r.value == rows[0]
  {
    if |rows| == 1 then Some(rows[0]) else None
  }

  /** `.update(f).eq(...)`: every row the filter keeps is rewritten by `f`,
      the others stay as they are and in place. */
  function UpdateWhere(t: Table, keep: Profile -> bool, f: Profile -> Profile): (u: Table)
    ensures |u| == |t|
    ensures forall i :: 0 <= i < |t| ==> u[i] == (if keep(t[i]) then f(t[i]) else t[i])
    decreases |t|
  {
    if |t| == 0 then []
    else [if keep(t[0]) then f(t[0]) else t[0]] + UpdateWhere(t[1..], keep, f)
  }

  /** An update that leaves emails alone commutes with the email filter. */
  lemma {:induction false} WithEmailAfterUpdate(t: Table, keep: Profile -> bool, f: Profile -> Profile, e: string)
    requires forall r :: f(r).email == r.email
    ensures WithEmail(UpdateWhere(t, keep, f), e) == UpdateWhere(WithEmail(t, e), keep, f)
    decreases |t|
  {
    if |t| > 0 {
      var u := UpdateWhere(t, keep, f);
      assert u[1..] == UpdateWhere(t[1..], keep, f);
      WithEmailAfterUpdate(t[1..], keep, f, e);
    }
  }

  /** Rewriting rows without touching their emails or usage counts leaves
      the rows an email filter selects, and their usage counts, as they were. */
  lemma {:induction false} WithEmailKeepsUsage(t: Table, u: Table, e: string)
    requires |u| == |t|
    requires forall i :: 0 <= i < |t| ==> u[i].email == t[i].email && u[i].usageCount == t[i].usageCount
    ensures |WithEmail(u, e)| == |WithEmail(t, e)|
    ensures forall j :: 0 <= j < |WithEmail(t, e)| ==> WithEmail(u, e)[j].usageCount == WithEmail(t, e)[j].usageCount
    decreases |t|
  {
    if |t| > 0 {
      assert forall i :: 0 <= i < |t| - 1 ==> t[1..][i] == t[i + 1] && u[1..][i] == u[i + 1];
      WithEmailKeepsUsage(t[1..], u[1..], e);
      var wt, wu := WithEmail(t[1..], e), WithEmail(u[1..], e);
      if t[0].email == e {
        assert WithEmail(t, e) == [t[0]] + wt;
        assert WithEmail(u, e) == [u[0]] + wu;
        forall j | 0 <= j < |WithEmail(t, e)|
          ensures WithEmail(u, e)[j].usageCount == WithEmail(t, e)[j].usageCount
        {
          if j > 0 {
            assert WithEmail(t, e)[j] == wt[j - 1];
            assert WithEmail(u, e)[j] == wu[j - 1];
          }
        }
      } else {
        assert WithEmail(t, e) == wt;
        assert WithEmail(u, e) == wu;
      }
    }
  }
}

=== FILE: rate_limit.dfy ===
/** The fixed-window rate limiter (frontend/lib/rate-limit.ts) over a Redis
    store, and `getClientIp`. The store is a map from key to counter with an
    optional expiry; the three Redis commands run at the one clock reading
    `now`, and whether each command fails is a parameter. */
module RateLimit {
  import opened Js

  datatype Counter = Counter(count: int, expiresAt: Option<int>)

  type Store = map<string, Counter>

  /** Which Redis commands throw on this call. */
  datatype Faults = Faults(incrFails: bool, pexpireFails: bool, pttlFails: bool)

  const NoFaults: Faults := Faults(false, false, false)

  datatype Decision = Decision(allowed: bool, remaining: int, reset: int)

  /** The counter a command sees: present and not yet expired. */
  function LiveCounter(store: Store, key: string, now: int): Option<Counter> {
    if key in store && (store[key].expiresAt.None? || now < store[key].expiresAt.value) then Some(store[key]) else None
  }

  /** `INCR`: a missing or expired key starts again at 1 without expiry;
      a live one counts up and keeps its expiry. */
  function Incr(store: Store, key: string, now: int): (r: (Store, int))
    ensures key in r.0 && r.0[key].count == r.1
    ensures forall k :: k != key ==> (k in r.0 <==> k in store) && (k in store ==> r.0[k] == store[k])
    ensures LiveCounter(store, key, now).None? ==> r.0[key] == Counter(1, None)
    ensures LiveCounter(store, key, now).Some? ==>
      r.0[key] == LiveCounter(store, key, now).value.(count := LiveCounter(store, key, now).value.count + 1)
  {
    match LiveCounter(store, key, now)
    case None => (store[key := Counter(1, None)], 1)
    case Some(c) => (store[key := c.(count := c.count + 1)], c.count + 1)
  }

  /** `PEXPIRE`: a positive time sets the expiry, any other deletes the key. */
  function PExpire(store: Store, key: string, ms: int, now: int): Store {
    if key !in store then store
    else if ms > 0 then store[key := store[key].(expiresAt := Some(now + ms))]
    else store - {key}
  }

  /** `PTTL`: -2 for a missing key, -1 for a key without expiry, otherwise the
      milliseconds left. */
  function PTtl(store: Store, key: string, now: int): int {
    match LiveCounter(store, key, now)
    case None => -2
    case Some(c) => if c.expiresAt.None? then -1 else c.expiresAt.value - now
  }

  /** The fail-open answer. */
  function FailOpen(now: int, windowMs: int): Decision {
    Decision(true, 1, now + windowMs)
  }

  /** The decision once the count and the time-to-live are known. */
  function Decide(count: int, limit: int, ttl: int, now: int): (d: Decision)
    ensures d.allowed <==> count <= limit
    ensures d.allowed ==> d.remaining == limit - count
    ensures !d.allowed ==> d.remaining == 0
    ensures d.reset >= now && (ttl >= 0 ==> d.reset == now + ttl) && (ttl < 0 ==> d.reset == now)
  {
    var reset := now + if ttl > 0 then ttl else 0;
    if count > limit then Decision(false, 0, reset) else Decision(true, limit - count, reset)
  }

  /** The Redis key of a limiter key. */
  function FullKey(key: string): string {
    "ratelimit:" + key
  }

  /** `rateLimit` as written: the expiry is set only by the call whose
      `INCR` returned 1. */
  function RateLimit(store: Store, key: string, limit: int, windowMs: int, now: int, faults: Faults): (r: (Store, Decision))
    ensures forall k :: k != FullKey(key) ==> (k in r.0 <==> k in store) && (k in store ==> r.0[k] == store[k])
    ensures faults.incrFails ==> r == (store, FailOpen(now, windowMs))
    ensures !faults.incrFails && ((faults.pexpireFails && Incr(store, FullKey(key), now).1 == 1) || faults.pttlFails) ==>
      r.1 == FailOpen(now, windowMs)
    ensures !faults.incrFails && faults.pexpireFails && Incr(store, FullKey(key), now).1 == 1 ==>
      r.0 == Incr(store, FullKey(key), now).0
    ensures !faults.incrFails && (!faults.pexpireFails || Incr(store, FullKey(key), now).1 != 1) && !faults.pttlFails ==>
      var count := Incr(store, FullKey(key), now).1;
      var ttl := PTtl(r.0, FullKey(key), now);
      && (r.1.allowed <==> count <= limit)
      && (r.1.allowed ==> r.1.remaining == limit - count)
      && (!r.1.allowed ==> r.1.remaining == 0)
      && r.1.reset == now + (if ttl > 0 then ttl else 0)
    ensures r.1.reset >= now || r.1 == FailOpen(now, windowMs)
  {
    var k := FullKey(key);
    if faults.incrFails then (store, FailOpen(now, windowMs))
    else
      var (s1, count) := Incr(store, k, now);
      if count == 1 && faults.pexpireFails then (s1, FailOpen(now, windowMs))
      else
        var s2 := if count == 1 then PExpire(s1, k, windowMs, now) else s1;
        if faults.pttlFails then (s2, FailOpen(now, windowMs))
        else (s2, Decide(count, limit, PTtl(s2, k, now), now))
  }

  /** Calls at the given times without faults, each on the store the previous
      one left. */
  function Calls(store: Store, key: string, limit: int, windowMs: int, times: seq<int>): (ds: seq<Decision>)
    ensures |ds| == |times|
    decreases |times|
  {
    if |times| == 0 then []
    else
      var r := RateLimit(store, key, limit, windowMs, times[0], NoFaults);
      [r.1] + Calls(r.0, key, limit, windowMs, times[1..])
  }

  /** The counter after the `n`-th call of a window that opened at `start`. */
  lemma {:induction false} WindowCounts(
    store: Store, key: string, limit: int, windowMs: int, start: int, times: seq<int>, n: nat)
    requires windowMs > 0
    requires FullKey(key) in store && store[FullKey(key)] == Counter(n, Some(start + windowMs)) && n >= 1
    requires forall i :: 0 <= i < |times| ==> times[i] < start + windowMs
    ensures forall i :: 0 <= i < |times| ==>
      (Calls(store, key, limit, windowMs, times)[i].allowed <==> n + i + 1 <= limit)
    decreases |times|
  {
    if |times| > 0 {
      var r := RateLimit(store, key, limit, windowMs, times[0], NoFaults);
      var k := FullKey(key);
      assert LiveCounter(store, k, times[0]) == Some(Counter(n, Some(start + windowMs)));
      assert r.0[k] == Counter(n + 1, Some(start + windowMs));
      WindowCounts(r.0, key, limit, windowMs, start, times[1..], n + 1);
      var ds := Calls(store, key, limit, windowMs, times);
      forall i | 0 <= i < |times|
        ensures ds[i].allowed <==> n + i + 1 <= limit
      {
        if i > 0 {
          assert ds[i] == Calls(r.0, key, limit, windowMs, times[1..])[i - 1];
          assert times[1..][i - 1] == times[i];
        }
      }
    }
  }

  /** In one window opened on an empty key, exactly the first `limit` calls
      are allowed. */
  lemma WindowAdmitsLimit(store: Store, key: string, limit: int, windowMs: int, times: seq<int>)
    requires windowMs > 0 && |times| > 0
    requires LiveCounter(store, FullKey(key), times[0]).None?
    requires forall i :: 0 <= i < |times| ==> times[i] < times[0] + windowMs
    ensures forall i :: 0 <= i < |times| ==>
      (Calls(store, key, limit, windowMs, times)[i].allowed <==> i + 1 <= limit)
  {
    var k := FullKey(key);
    var r := RateLimit(store, key, limit, windowMs, times[0], NoFaults);
    assert r.0[k] == Counter(1, Some(times[0] + windowMs));
    assert forall i :: 0 <= i < |times[1..]| ==> times[1..][i] == times[i + 1];
    WindowCounts(r.0, key, limit, windowMs, times[0], times[1..], 1);
    var ds := Calls(store, key, limit, windowMs, times);
    forall i | 0 <= i < |times|
      ensures ds[i].allowed <==> i + 1 <= limit
    {
      if i > 0 {
        assert ds[i] == Calls(r.0, key, limit, windowMs, times[1..])[i - 1];
      }
    }
  }

  /** Once the window has passed, the next call starts a new one. */
  lemma ExpiredWindowRestarts(store: Store, key: string, limit: int, windowMs: int, start: int, n: int, now: int)
    requires windowMs > 0 && limit >= 1
    requires FullKey(key) in store && store[FullKey(key)] == Counter(n, Some(start))
    requires now >= start
    ensures var r := RateLimit(store, key, limit, windowMs, now, NoFaults);
            r.1 == Decision(true, limit - 1, now + windowMs) && r.0[FullKey(key)] == Counter(1, Some(now + windowMs))
  {
  }

  /** A failed `PEXPIRE` on the call that created the counter leaves it
      without expiry; every later call then counts on, so once the limit is
      passed the key is refused at any later time. */
  lemma StuckCounter(store: Store, key: string, windowMs: int, later: int)
    requires windowMs > 0 && FullKey(key) !in store
    ensures var first := RateLimit(store, key, 1, windowMs, 0, Faults(false, true, false));
            && first.0[FullKey(key)] == Counter(1, None)
            && var second := RateLimit(first.0, key, 1, windowMs, later, NoFaults);
               second.1 == Decision(false, 0, later)
  {
  }

  /** `rateLimit` corrected: a counter that `PTTL` reports without expiry is
      given one, so a failed `PEXPIRE` only delays the window. */
  function RateLimitRearming(store: Store, key: string, limit: int, windowMs: int, now: int, faults: Faults): (r: (Store, Decision))
    requires windowMs > 0
    ensures !faults.incrFails && !faults.pexpireFails && !faults.pttlFails ==>
      FullKey(key) in r.0 && r.0[FullKey(key)].expiresAt.Some?
      && now < r.0[FullKey(key)].expiresAt.value
    ensures !faults.incrFails && !faults.pexpireFails && !faults.pttlFails
            && (LiveCounter(store, FullKey(key), now).None? || store[FullKey(key)].expiresAt.None?) ==>
      r.0[FullKey(key)].expiresAt == Some(now + windowMs)
    ensures (!faults.incrFails && !faults.pexpireFails && !faults.pttlFails) && FullKey(key) in store && store[FullKey(key)].expiresAt.Some?
            ==> r == RateLimit(store, key, limit, windowMs, now, faults)
  {
    var k := FullKey(key);
    if faults.incrFails then (store, FailOpen(now, windowMs))
    else
      var (s1, count) := Incr(store, k, now);
      if count == 1 && faults.pexpireFails then (s1, FailOpen(now, windowMs))
      else
        var s2 := if count == 1 then PExpire(s1, k, windowMs, now) else s1;
        if faults.pttlFails then (s2, FailOpen(now, windowMs))
        else
          var ttl := PTtl(s2, k, now);
          if ttl == -1 then
            if faults.pexpireFails then (s2, FailOpen(now, windowMs))
            else
              var s3 := PExpire(s2, k, windowMs, now);
              (s3, Decide(count, limit, windowMs, now))
          else (s2, Decide(count, limit, ttl, now))
  }

  /** The corrected limiter lets the stuck counter's window end: the next
      faultless call arms the expiry, and a call after it is allowed again. */
  lemma RearmingUnsticks(store: Store, key: string, windowMs: int, later: int)
    requires windowMs > 0 && FullKey(key) !in store
    ensures var first := RateLimitRearming(store, key, 1, windowMs, 0, Faults(false, true, false));
            var second := RateLimitRearming(first.0, key, 1, windowMs, later, NoFaults);
            var third := RateLimitRearming(second.0, key, 1, windowMs, later + windowMs, NoFaults);
            !second.1.allowed && third.1.allowed
  {
  }

  /** `getClientIp`: the first entry of `x-forwarded-for`, trimmed, or
      `"unknown"` when the header is missing or that entry is blank. */
  function GetClientIp(forwardedFor: Option<string>): (ip: string)
    ensures ip != ""
    ensures forwardedFor.None? ==> ip == "unknown"
    ensures forwardedFor.Some? && Trim(FirstField(forwardedFor.value, ',')) != "" ==>
      ip == Trim(FirstField(forwardedFor.value, ','))
    ensures forwardedFor.Some? && Trim(FirstField(forwardedFor.value, ',')) == "" ==> ip == "unknown"
  {
    match forwardedFor
    case None => "unknown"
    case Some(h) =>
      var first := Trim(FirstField(h, ','));
      if first == "" then "unknown" else first
  }

  /** Behind a proxy chain `client, proxy1, proxy2` the client's address is
      the one reported. */
  lemma ClientIsFirstHop(client: string, proxies: seq<string>)
    requires client != "" && ',' !in client && Trim(client) == client
    requires forall i :: 0 <= i < |proxies| ==> ',' !in proxies[i]
    ensures GetClientIp(Some(Join([client] + proxies, ','))) == client
  {
    var parts := [client] + proxies;
    assert forall i :: 0 <= i < |parts| ==> ',' !in parts[i] by {
      forall i | 0 <= i < |parts|
        ensures ',' !in parts[i]
      {
        if i > 0 {
          assert parts[i] == proxies[i - 1];
        }
      }
    }
    SplitJoin(parts, ',');
  }
}

=== FILE: records.dfy ===
/** A plain JavaScript object used as a dictionary (`Record<string, V>`):
    its own keys in insertion order. Assigning to an existing key keeps the
    key's position, assigning to a new key appends it, `delete` removes it,
    and `Object.values` / `Object.entries` iterate in this order. */
module Records {
  import opened Js

  datatype Entry<V> = Entry(key: string, value: V)

  type Record<V> = seq<Entry<V>>

  function Keys<V>(r: Record<V>): (ks: seq<string>)
    ensures |ks| == |r|
    ensures forall i :: 0 <= i < |r| ==> ks[i] == r[i].key
  {
    seq(|r|, i requires 0 <= i < |r| => r[i].key)
  }

  function Values<V>(r: Record<V>): (vs: seq<V>)
    ensures |vs| == |r|
    ensures forall i :: 0 <= i < |r| ==> vs[i] == r[i].value
  {
    seq(|r|, i requires 0 <= i < |r| => r[i].value)
  }

  /** Every key occurs once, as in a real JavaScript object. */
  predicate UniqueKeys<V>(r: Record<V>) {
    forall i, j :: 0 <= i < j < |r| ==> r[i].key != r[j].key
  }

  /** `i` is the position of the first entry whose key is `k`. */
  predicate IsFirst<V>(r: Record<V>, k: string, i: nat) {
    i < |r| && r[i].key == k && forall j :: 0 <= j < i ==> r[j].key != k
  }

  /** Position of key `k`, if present. */
  function Find<V>(r: Record<V>, k: string): (o: Option<nat>)
    ensures o.None? <==> k !in Keys(r)
    ensures o.Some? ==> IsFirst(r, k, o.value)
  {
    if |r| == 0 then None
    else if r[0].key == k then Some(0)
    else
      match Find(r[1..], k)
      case None => (assert Keys(r) == [r[0].key] + Keys(r[1..]); None)
      case Some(i) => Some(i + 1)
  }

  /** The first position of a key is determined by the record. */
  lemma FirstIsUnique<V>(r: Record<V>, k: string, i: nat, j: nat)
    requires IsFirst(r, k, i) && IsFirst(r, k, j)
    ensures i == j
  {
  }

  /** `r[k]`: the value stored under `k`, if any. */
  function Get<V>(r: Record<V>, k: string): (o: Option<V>)
    ensures o.None? <==> k !in Keys(r)
    ensures o.Some? ==> exists i: nat :: IsFirst(r, k, i) && r[i].value == o.value
  {
    match Find(r, k)
    case None => None
    case Some(i) => Some(r[i].value)
  }

  /** In a record with unique keys, the entry at position `i` is what `Get`
      returns for its key. */
  lemma GetAt<V>(r: Record<V>, i: nat)
    requires UniqueKeys(r) && i < |r|
    ensures Get(r, r[i].key) == Some(r[i].value)
  {
    var o := Find(r, r[i].key);
    assert IsFirst(r, r[i].key, i);
    FirstIsUnique(r, r[i].key, i, o.value);
  }

  /** Records that agree on every position except one whose key is not `k`
      (in either record) agree on where `k` is found. */
  lemma FindUnchanged<V>(r: Record<V>, r': Record<V>, i: nat, k: string)
    requires |r'| == |r| && i < |r|
    requires forall j :: 0 <= j < |r| && j != i ==> r'[j] == r[j]
    requires r[i].key != k && r'[i].key != k
    ensures Find(r', k) == Find(r, k)
  {
    var o := Find(r, k);
    var o' := Find(r', k);
    assert Keys(r') == Keys(r)[i := r'[i].key];
    if o.Some? {
      assert IsFirst(r', k, o.value);
      FirstIsUnique(r', k, o.value, o'.value);
    }
  }

  /** `r[k] = v`: an existing key is overwritten in place, a new key is
      appended. */
  function Put<V>(r: Record<V>, k: string, v: V): (r': Record<V>)
    ensures Get(r', k) == Some(v)
    ensures forall k' :: k' != k ==> Get(r', k') == Get(r, k')
    ensures k in Keys(r) ==> |r'| == |r| && Keys(r') == Keys(r)
    ensures k !in Keys(r) ==> r' == r + [Entry(k, v)]
    ensures UniqueKeys(r) ==> UniqueKeys(r')
  {
    match Find(r, k)
    case Some(i) =>
      var r' := r[i := Entry(k, v)];
      assert IsFirst(r', k, i);
      assert Keys(r') == Keys(r);
      assert forall k' :: k' != k ==> Find(r', k') == Find(r, k') by {
        forall k' | k' != k
          ensures Find(r', k') == Find(r, k')
        {
          FindUnchanged(r, r', i, k');
        }
      }
      r'
    case None =>
      var r' := r + [Entry(k, v)];
      assert Keys(r') == Keys(r) + [k];
      assert IsFirst(r', k, |r|);
      assert forall k' :: k' != k ==> Get(r', k') == Get(r, k') by {
        forall k' | k' != k
          ensures Get(r', k') == Get(r, k')
        {
          var o := Find(r, k');
          if o.Some? {
            assert IsFirst(r', k', o.value);
            FirstIsUnique(r', k', o.value, Find(r', k').value);
          }
        }
      }
      r'
  }

  /** The entries whose value satisfies `keep`, in their original order
      (`Object.fromEntries(Object.entries(r).filter(...))`). */
  function Filter<V>(r: Record<V>, keep: V -> bool): (r': Record<V>)
    ensures |r'| <= |r|
    ensures forall i :: 0 <= i < |r'| ==> r'[i] in r && keep(r'[i].value)
    ensures forall i :: 0 <= i < |r| && keep(r[i].value) ==> r[i] in r'
    ensures UniqueKeys(r) ==> UniqueKeys(r')
  {
    if |r| == 0 then []
    else
      var rest := Filter(r[1..], keep);
      assert forall i :: 1 <= i < |r| ==> r[i] == r[1..][i - 1];
      if keep(r[0].value) then
        assert UniqueKeys(r) ==> forall j :: 0 <= j < |rest| ==> rest[j].key != r[0].key by {
          if UniqueKeys(r) {
            forall j | 0 <= j < |rest|
              ensures rest[j].key != r[0].key
            {
              assert rest[j] in r[1..];
              var m :| 0 <= m < |r[1..]| && r[1..][m] == rest[j];
              assert r[m + 1] == rest[j];
            }
          }
        }
        [r[0]] + rest
      else rest
  }

  /** Filtering works entry by entry: it keeps the order and the number of
      copies, since filtering a concatenation concatenates the filtered parts. */
  lemma {:induction false} FilterAppend<V>(a: Record<V>, b: Record<V>, keep: V -> bool)
    ensures Filter(a + b, keep) == Filter(a, keep) + Filter(b, keep)
    decreases |a|
  {
    if |a| > 0 {
      assert (a + b)[1..] == a[1..] + b;
      FilterAppend(a[1..], b, keep);
    } else {
      assert a + b == b;
    }
  }

  /** `delete r[k]`: the entries with any other key stay, in order. */
  function Remove<V>(r: Record<V>, k: string): (r': Record<V>)
    ensures |r'| <= |r|
    ensures forall i :: 0 <= i < |r'| ==> r'[i] in r && r'[i].key != k
    ensures forall i :: 0 <= i < |r| && r[i].key != k ==> r[i] in r'
    ensures UniqueKeys(r) ==> UniqueKeys(r')
  {
    if |r| == 0 then []
    else
      var rest := Remove(r[1..], k);
      assert forall i :: 1 <= i < |r| ==> r[i] == r[1..][i - 1];
      if r[0].key == k then rest
      else
        assert UniqueKeys(r) ==> forall j :: 0 <= j < |rest| ==> rest[j].key != r[0].key by {
          if UniqueKeys(r) {
            forall j | 0 <= j < |rest|
              ensures rest[j].key != r[0].key
            {
              assert rest[j] in r[1..];
              var m :| 0 <= m < |r[1..]| && r[1..][m] == rest[j];
              assert r[m + 1] == rest[j];
            }
          }
        }
        [r[0]] + rest
  }

  /** In a record with unique keys, looking a key up finds exactly the entry
      the record holds for it. */
  lemma GetIsMember<V>(r: Record<V>, k: string, v: V)
    requires UniqueKeys(r)
    ensures Get(r, k) == Some(v) <==> Entry(k, v) in r
  {
    if Entry(k, v) in r {
      var i :| 0 <= i < |r| && r[i] == Entry(k, v);
      GetAt(r, i);
    }
  }

  /** A key is present exactly when some entry carries it. */
  lemma KeyIsMember<V>(r: Record<V>, k: string)
    ensures k in Keys(r) <==> exists e :: e in r && e.key == k
  {
    if k in Keys(r) {
      var i :| 0 <= i < |r| && Keys(r)[i] == k;
      assert r[i] in r;
    }
  }

  /** Looking a key up after `Filter` finds the entry exactly when it was
      there before and passes the filter. */
  lemma FilterGet<V>(r: Record<V>, keep: V -> bool, k: string)
    requires UniqueKeys(r)
    ensures var o := Get(r, k);
      Get(Filter(r, keep), k) == if o.Some? && keep(o.value) then o else None
  {
    var f := Filter(r, keep);
    var o := Get(r, k);
    if o.Some? && keep(o.value) {
      GetIsMember(r, k, o.value);
      GetIsMember(f, k, o.value);
    } else {
      forall i | 0 <= i < |f|
        ensures f[i].key != k
      {
        assert f[i] in r;
        GetIsMember(r, f[i].key, f[i].value);
      }
    }
  }

  /** After `delete r[k]`, `k` is gone and every other key keeps its value. */
  lemma RemoveGet<V>(r: Record<V>, k: string, k': string)
    requires UniqueKeys(r)
    ensures Get(Remove(r, k), k') == if k' == k then None else Get(r, k')
  {
    var d := Remove(r, k);
    var o := Get(r, k');
    if k' != k && o.Some? {
      GetIsMember(r, k', o.value);
      GetIsMember(d, k', o.value);
    } else {
      forall i | 0 <= i < |d|
        ensures d[i].key != k'
      {
        assert d[i] in r;
        GetIsMember(r, d[i].key, d[i].value);
      }
    }
  }
}

=== FILE: stripe_status.dfy ===
/** The subscription status route (frontend/app/api/stripe/status/route.ts):
    who counts as a paying ("pro") user. The session, the `profiles` table and
    the customer's latest Stripe subscription are inputs; `now` is the clock
    reading in milliseconds. */
module StripeStatus {
  import opened Js
  import opened Profiles
  import Billing

  const PrimaryEmail: string := "virsanghavi@gmail.com"
  const TypoEmail: string := "virrsanghavi@gmail.com"
  /** The customer looked up for a super user whose profile has none. */
  const FallbackCustomer: string := "cus_Tw7wDGE1jIXikB"
  const RetentionCoupon: string := "CvcPuGJs"

  /** The fields of a Stripe subscription the route reads; the period end is
      in seconds. `discounts` holds each discount's coupon id, when present. */
  datatype Sub = Sub(
    status: string,
    currentPeriodEnd: int,
    cancelAtPeriodEnd: bool,
    discountCoupon: Option<string>,
    discounts: Option<seq<Option<string>>>)

  datatype Backend = Backend(
    supabaseConfigured: bool,
    stripeKeySet: bool,
    stripeFails: bool,
    /** Each customer's most recent subscription; absent when it has none. */
    latestSubscription: map<string, Sub>)

  datatype StripeData = StripeData(
    status: string, currentPeriodEnd: int, cancelAtPeriodEnd: bool,
    isActive: bool, planName: string, hasRetentionOffer: bool)

  datatype Response =
    | Unauthorized
    | ConfigurationError
    | ProfileNotFound
    | ServerError
    | Status(subscriptionStatus: string, currentPeriodEnd: Option<int>, hasSeenRetention: bool, stripe: Option<StripeData>)

  function HttpStatus(r: Response): int {
    match r
    case Unauthorized => 401
    case ConfigurationError => 500
    case ProfileNotFound => 404
    case ServerError => 500
    case Status(_, _, _, _) => 200
  }

  predicate IsUpper(c: char) {
    'A' <= c <= 'Z'
  }

  /** `email.toLowerCase().trim()`: the lower-cased address with the white
      space around it, and only that, removed. */
  function NormalizeEmail(email: string): (n: string)
    ensures |n| <= |email|
    ensures forall k :: 0 <= k < |n| ==> !IsUpper(n[k])
    ensures n == [] || (!IsSpace(n[0]) && !IsSpace(n[|n| - 1]))
  {
    TrimmedLowerHasNoUpper(email);
    Trim(ToLower(email))
  }

  lemma TrimmedLowerHasNoUpper(email: string)
    ensures var n := Trim(ToLower(email));
            forall k :: 0 <= k < |n| ==> !IsUpper(n[k])
  {
    var lower := ToLower(email);
    var i, j := TrimIsSlice(lower);
    var n := Trim(lower);
    forall k | 0 <= k < |n|
      ensures !IsUpper(n[k])
    {
      assert n[k] == lower[i + k];
      LowerIsNotUpper(email[i + k]);
    }
  }

  /** The normalised address is the lower-cased one with a run of leading
      and a run of trailing white space cut off, and nothing else: every
      character outside the kept slice is white space in `email` itself. */
  lemma NormalizeEmailTrimsLowered(email: string)
    ensures var n := NormalizeEmail(email);
            var i := |email| - |TrimStart(ToLower(email))|;
            && 0 <= i <= |email| - |n| && n == ToLower(email)[i..i + |n|]
            && (forall k :: 0 <= k < i ==> IsSpace(email[k]))
            && (forall k :: i + |n| <= k < |email| ==> IsSpace(email[k]))
  {
    var lower := ToLower(email);
    var i, j := TrimIsSlice(lower);
    TrimDropsOnlySpace(lower, i, j);
    forall k | 0 <= k < i
      ensures IsSpace(email[k])
    {
      LowerKeepsSpace(email, k);
    }
    forall k | j <= k < |email|
      ensures IsSpace(email[k])
    {
      LowerKeepsSpace(email, k);
    }
  }

  /** A character that is white space after lower-casing was white space
      before it. */
  lemma LowerKeepsSpace(s: string, k: nat)
    requires k < |s| && IsSpace(ToLower(s)[k])
    ensures IsSpace(s[k])
  {
    assert ToLower(s)[k] == LowerChar(s[k]);
  }

  lemma LowerIsNotUpper(c: char)
    ensures !IsUpper(LowerChar(c))
  {
  }

  predicate IsSuperUser(email: string) {
    NormalizeEmail(email) == PrimaryEmail || NormalizeEmail(email) == TypoEmail
  }

  /** The address whose profile is read: the misspelt address is redirected
      to the primary one, every other session email is used as given. */
  function TargetEmail(email: string): string {
    if NormalizeEmail(email) == TypoEmail then PrimaryEmail else email
  }

  /** A subscription still grants access: active, trialing or past due, or
      cancelled with its paid period not yet over. */
  predicate IsActive(sub: Sub, nowSeconds: int) {
    sub.status in {"active", "trialing", "past_due"}
    || (sub.status == "canceled" && sub.currentPeriodEnd > nowSeconds)
  }

  /** The retention coupon sits on the single discount or in the list. */
  predicate HasRetentionOffer(sub: Sub) {
    sub.discountCoupon == Some(RetentionCoupon)
    || (sub.discounts.Some? && Some(RetentionCoupon) in sub.discounts.value)
  }

  /** The customer whose subscriptions are listed. */
  function CustomerFor(profile: Option<Profile>, superUser: bool): (c: Option<string>)
    ensures c.Some? ==> c.value != ""
    ensures profile.Some? && profile.value.stripeCustomerId.Some? && profile.value.stripeCustomerId.value != "" ==>
      c == profile.value.stripeCustomerId
    ensures c.Some? && c != (if profile.Some? then profile.value.stripeCustomerId else None) ==>
      superUser && c == Some(FallbackCustomer)
    ensures superUser ==> c.Some?
  {
    if profile.Some? && profile.value.stripeCustomerId.Some? && profile.value.stripeCustomerId.value != ""
    then profile.value.stripeCustomerId
    else if superUser then Some(FallbackCustomer)
    else None
  }

  /** What the route reports of a subscription. */
  function Describe(sub: Sub, nowSeconds: int): (d: StripeData)
    ensures d.isActive <==> IsActive(sub, nowSeconds)
    ensures d.hasRetentionOffer <==> HasRetentionOffer(sub)
    ensures d.planName == "pro" && d.status == sub.status && d.currentPeriodEnd == sub.currentPeriodEnd
  {
    StripeData(sub.status, sub.currentPeriodEnd, sub.cancelAtPeriodEnd, IsActive(sub, nowSeconds), "pro", HasRetentionOffer(sub))
  }

  /** What the route reports of the customer's latest subscription: nothing
      without a customer, a Stripe key or any subscription. */
  function StripeView(b: Backend, customer: Option<string>, now: int): Option<StripeData> {
    if customer.Some? && b.stripeKeySet && customer.value in b.latestSubscription
    then Some(Describe(b.latestSubscription[customer.value], now / 1000))
    else None
  }

  /** The route's answer for a signed-in user, given whether they are a
      super user and the address whose profile is read. */
  function Answer(superUser: bool, target: string, b: Backend, t: Table, now: int): (r: Response)
    ensures !r.Unauthorized?
    ensures r.ConfigurationError? <==> !b.supabaseConfigured
    ensures r.ProfileNotFound? <==> b.supabaseConfigured && !superUser && |WithEmailIgnoringCase(t, target)| != 1
    ensures r.ServerError? ==> b.stripeFails && b.stripeKeySet
    ensures r.Status? ==>
      var profile := Single(WithEmailIgnoringCase(t, target));
      && (r.subscriptionStatus == "pro" <==>
            || superUser
            || (profile.Some? && (profile.value.subscriptionStatus == Some("pro") || Billing.PaidAhead(profile.value, now)))
            || (r.stripe.Some? && r.stripe.value.isActive))
      && (r.subscriptionStatus == "pro" || r.subscriptionStatus == "free")
      && (r.hasSeenRetention <==> profile.Some? && profile.value.hasSeenRetention == Some(true))
      && (r.stripe.Some? ==> b.stripeKeySet && r.stripe.value.planName == "pro")
    ensures r.Status? ==>
      var profile := Single(WithEmailIgnoringCase(t, target));
      && r.currentPeriodEnd == (if profile.Some? then profile.value.currentPeriodEnd else None)
      && r.stripe == StripeView(b, CustomerFor(profile, superUser), now)
    ensures r.ServerError? <==>
      && b.supabaseConfigured
      && (superUser || |WithEmailIgnoringCase(t, target)| == 1)
      && CustomerFor(Single(WithEmailIgnoringCase(t, target)), superUser).Some?
      && b.stripeKeySet && b.stripeFails
  {
    if !b.supabaseConfigured then ConfigurationError
    else
      var profile := Single(WithEmailIgnoringCase(t, target));
      if profile.None? && !superUser then ProfileNotFound
      else
        var isPro := superUser || (profile.Some? && profile.value.subscriptionStatus == Some("pro"));
        var customer := CustomerFor(profile, superUser);
        if customer.Some? && b.stripeKeySet && b.stripeFails then ServerError
        else
          var stripe := StripeView(b, customer, now);
          var isPro' := isPro || (stripe.Some? && stripe.value.isActive);
          var isPro'' := isPro' || (profile.Some? && Billing.PaidAhead(profile.value, now));
          Status(
            if isPro'' then "pro" else "free",
            if profile.Some? then profile.value.currentPeriodEnd else None,
            profile.Some? && profile.value.hasSeenRetention == Some(true),
            stripe)
  }

  /** The route's `GET`: 401 without a session, otherwise the answer for the
      session's email. */
  function Get(session: Option<string>, b: Backend, t: Table, now: int): (r: Response)
    ensures r.Unauthorized? <==> session.None?
    ensures r.ConfigurationError? <==> session.Some? && !b.supabaseConfigured
    ensures r.ProfileNotFound? <==>
      session.Some? && b.supabaseConfigured && !IsSuperUser(session.value)
      && |WithEmailIgnoringCase(t, TargetEmail(session.value))| != 1
    ensures r.Status? ==>
      var profile := Single(WithEmailIgnoringCase(t, TargetEmail(session.value)));
      && (r.subscriptionStatus == "pro" <==>
            || IsSuperUser(session.value)
            || (profile.Some? && (profile.value.subscriptionStatus == Some("pro") || Billing.PaidAhead(profile.value, now)))
            || (r.stripe.Some? && r.stripe.value.isActive))
      && (r.subscriptionStatus == "pro" || r.subscriptionStatus == "free")
      && (r.hasSeenRetention <==> profile.Some? && profile.value.hasSeenRetention == Some(true))
      && (r.stripe.Some? ==> b.stripeKeySet && r.stripe.value.planName == "pro")
      && r.stripe == StripeView(b, CustomerFor(profile, IsSuperUser(session.value)), now)
      && r.currentPeriodEnd == (if profile.Some? then profile.value.currentPeriodEnd else None)
    ensures r.ServerError? <==>
      && session.Some? && b.supabaseConfigured
      && (IsSuperUser(session.value) || |WithEmailIgnoringCase(t, TargetEmail(session.value))| == 1)
      && CustomerFor(Single(WithEmailIgnoringCase(t, TargetEmail(session.value))), IsSuperUser(session.value)).Some?
      && b.stripeKeySet && b.stripeFails
  {
    match session
    case None => Unauthorized
    case Some(email) => Answer(IsSuperUser(email), TargetEmail(email), b, t, now)
  }

  lemma PrimaryIsNormal(e: string)
    requires e == PrimaryEmail
    ensures NormalizeEmail(e) == e
  {
    var lower := ToLower(e);
    assert lower == e by {
      forall k | 0 <= k < |e|
        ensures lower[k] == e[k]
      {
        assert !IsUpper(e[k]);
      }
    }
    assert !IsSpace(e[0]) && !IsSpace(e[|e| - 1]);
  }

  /** The owner's two addresses are always "pro", whatever their profile. */
  lemma SuperUserIsPro(email: string, b: Backend, t: Table, now: int)
    requires IsSuperUser(email) && b.supabaseConfigured && !b.stripeFails
    ensures Get(Some(email), b, t, now).Status?
    ensures Get(Some(email), b, t, now).subscriptionStatus == "pro"
  {
  }

  /** Signing in with the misspelt address, in any case and with any
      surrounding white space, gives exactly the primary address's answer. */
  lemma TypoReadsPrimaryProfile(email: string, b: Backend, t: Table, now: int)
    requires NormalizeEmail(email) == TypoEmail
    ensures Get(Some(email), b, t, now) == Get(Some(PrimaryEmail), b, t, now)
  {
    var primary := PrimaryEmail;
    PrimaryIsNormal(primary);
    assert NormalizeEmail(primary) != TypoEmail;
    assert TargetEmail(primary) == primary == TargetEmail(email);
    assert IsSuperUser(primary) && IsSuperUser(email);
  }

  /** A non-super user with no Stripe access, a non-"pro" profile and no paid
      period ahead is "free": nothing else can make them "pro". */
  lemma NoReasonMeansFree(email: string, b: Backend, t: Table, now: int)
    requires !IsSuperUser(email) && b.supabaseConfigured && !b.stripeKeySet
    requires |WithEmailIgnoringCase(t, TargetEmail(email))| == 1
    requires var p := WithEmailIgnoringCase(t, TargetEmail(email))[0];
             p.subscriptionStatus != Some("pro") && !Billing.PaidAhead(p, now)
    ensures Get(Some(email), b, t, now) ==
      var p := WithEmailIgnoringCase(t, TargetEmail(email))[0];
      Status("free", p.currentPeriodEnd, p.hasSeenRetention == Some(true), None)
  {
  }

  /** A signed-in user whose customer's latest subscription is active is
      "pro", whatever the profile says. */
  lemma ActiveSubscriptionMakesPro(email: string, b: Backend, t: Table, now: int)
    requires b.supabaseConfigured && b.stripeKeySet && !b.stripeFails
    requires |WithEmailIgnoringCase(t, TargetEmail(email))| == 1
    requires var c := WithEmailIgnoringCase(t, TargetEmail(email))[0].stripeCustomerId;
             c.Some? && c.value != "" && c.value in b.latestSubscription
             && IsActive(b.latestSubscription[c.value], now / 1000)
    ensures Get(Some(email), b, t, now).Status?
    ensures Get(Some(email), b, t, now).subscriptionStatus == "pro"
    ensures Get(Some(email), b, t, now).stripe.Some?
  {
    var p := WithEmailIgnoringCase(t, TargetEmail(email))[0];
    assert Single(WithEmailIgnoringCase(t, TargetEmail(email))) == Some(p);
    assert CustomerFor(Some(p), IsSuperUser(email)) == p.stripeCustomerId;
  }

  /** A subscription cancelled at the end of its period keeps granting access
      until the second the period ends. */
  lemma CancelledKeepsAccessUntilPeriodEnd(sub: Sub, now: int)
    requires sub.status == "canceled"
    ensures IsActive(sub, now / 1000) <==> now < sub.currentPeriodEnd * 1000
  {
  }
}

=== FILE: stripe_webhook.dfy ===
/** The Stripe webhook (frontend/app/api/stripe/webhook/route.ts): a verified
    event becomes an update of the `profiles` table. Signature checking is an
    oracle (`signatureValid`); a failed database update is reported by the
    client library, not thrown, so it leaves the table as it was and the
    event is still acknowledged. */
module StripeWebhook {
  import opened Js
  import opened Profiles
  import Billing

  /** The events the route tells apart, with the fields it reads. Periods are
      Stripe timestamps in seconds. */
  datatype Event =
    | CheckoutCompleted(customer: Option<string>, detailsEmail: Option<string>, metadataEmail: Option<string>)
    | SubscriptionUpdated(customer: Option<string>, status: string, periodEnd: int)
    | SubscriptionDeleted(customer: Option<string>)
    | OtherEvent(eventType: string)

  datatype Response = BadSignature | Received | HandlerFailed

  function HttpStatus(r: Response): int {
    match r
    case BadSignature => 400
    case Received => 200
    case HandlerFailed => 500
  }

  /** `a || b` on optional strings: the first non-empty one. */
  function FirstEmail(a: Option<string>, b: Option<string>): (e: Option<string>)
    ensures e.Some? <==> (a.Some? && a.value != "") || (b.Some? && b.value != "")
    ensures e.Some? ==> e.value != "" && (e == a || e == b)
    ensures a.Some? && a.value != "" ==> e == a
  {
    if a.Some? && a.value != "" then a
    else if b.Some? && b.value != "" then b
    else None
  }

  /** Status written by `customer.subscription.updated`. */
  function PlanFor(stripeStatus: string): (plan: string)
    ensures plan == "pro" <==> stripeStatus in {"active", "trialing"}
    ensures plan == "pro" || plan == "free"
  {
    if stripeStatus == "active" || stripeStatus == "trialing" then "pro" else "free"
  }

  /** `.eq("stripe_customer_id", c)`; a null customer matches no row. */
  function HasCustomer(c: Option<string>): Profile -> bool {
    (p: Profile) => c.Some? && p.stripeCustomerId == c
  }

  function HasEmail(e: string): Profile -> bool {
    (p: Profile) => p.email == e
  }

  /** The route's `POST`: the table after the event, and the answer. */
  function Handle(t: Table, signatureValid: bool, ev: Event, updateFails: bool): (r: (Table, Response))
    ensures |r.0| == |t| && forall i :: 0 <= i < |t| ==> r.0[i].email == t[i].email && r.0[i].usageCount == t[i].usageCount
    ensures r.1 == BadSignature <==> !signatureValid
    ensures r.1 != Received ==> r.0 == t
    ensures updateFails || ev.OtherEvent? ==> r.0 == t
    ensures r.1 == HandlerFailed <==>
      signatureValid && ev.SubscriptionUpdated? && !(-MaxDateMs <= ev.periodEnd * 1000 <= MaxDateMs)
    ensures signatureValid && !updateFails && ev.CheckoutCompleted? ==>
      var email := FirstEmail(ev.detailsEmail, ev.metadataEmail);
      forall i :: 0 <= i < |t| ==>
        r.0[i] == if email.Some? && t[i].email == email.value
                  then t[i].(stripeCustomerId := ev.customer, subscriptionStatus := Some("pro"))
                  else t[i]
    ensures r.1 == Received && !updateFails && ev.SubscriptionUpdated? ==>
      forall i :: 0 <= i < |t| ==>
        r.0[i] == if ev.customer.Some? && t[i].stripeCustomerId == ev.customer
                  then t[i].(subscriptionStatus := Some(PlanFor(ev.status)), currentPeriodEnd := Some(ev.periodEnd * 1000))
                  else t[i]
    ensures signatureValid && !updateFails && ev.SubscriptionDeleted? ==>
      forall i :: 0 <= i < |t| ==>
        r.0[i] == if ev.customer.Some? && t[i].stripeCustomerId == ev.customer
                  then t[i].(subscriptionStatus := Some("free"), currentPeriodEnd := None)
                  else t[i]
  {
    if !signatureValid then (t, BadSignature)
    else
      match ev
      case CheckoutCompleted(customer, detailsEmail, metadataEmail) =>
        var email := FirstEmail(detailsEmail, metadataEmail);
        if email.None? || updateFails then (t, Received)
        else
          var f := (p: Profile) => p.(stripeCustomerId := customer, subscriptionStatus := Some("pro"));
          (UpdateWhere(t, HasEmail(email.value), f), Received)
      case SubscriptionUpdated(customer, status, periodEnd) =>
        var ms := periodEnd * 1000;
        if !(-MaxDateMs <= ms <= MaxDateMs) then (t, HandlerFailed)
        else if updateFails then (t, Received)
        else
          var f := (p: Profile) => p.(subscriptionStatus := Some(PlanFor(status)), currentPeriodEnd := Some(ms));
          (UpdateWhere(t, HasCustomer(customer), f), Received)
      case SubscriptionDeleted(customer) =>
        if updateFails then (t, Received)
        else
          var f := (p: Profile) => p.(subscriptionStatus := Some("free"), currentPeriodEnd := None);
          (UpdateWhere(t, HasCustomer(customer), f), Received)
      case OtherEvent(_) => (t, Received)
  }

  /** A cancelled subscription shows as "Free" in the billing tool, whatever
      the profile held before, once the deletion event is applied. */
  lemma DeletionShowsFree(t: Table, email: string, customer: string, now: int)
    requires |WithEmail(t, email)| == 1 && WithEmail(t, email)[0].stripeCustomerId == Some(customer)
    ensures var t' := Handle(t, true, SubscriptionDeleted(Some(customer)), false).0;
            var r := Billing.GetSubscriptionStatus(true, t', email, now);
            r.Subscription? && r.plan == "Free"
  {
    var f := (p: Profile) => p.(subscriptionStatus := Some("free"), currentPeriodEnd := None);
    var keep := HasCustomer(Some(customer));
    var t' := UpdateWhere(t, keep, f);
    assert Handle(t, true, SubscriptionDeleted(Some(customer)), false).0 == t';
    UpdatedRow(t, keep, f, email);
  }

  /** An activating update shows as "Pro" in the billing tool. */
  lemma ActivationShowsPro(t: Table, email: string, customer: string, status: string, periodEnd: int, now: int)
    requires |WithEmail(t, email)| == 1 && WithEmail(t, email)[0].stripeCustomerId == Some(customer)
    requires status == "active" || status == "trialing"
    requires -MaxDateMs <= periodEnd * 1000 <= MaxDateMs
    ensures var t' := Handle(t, true, SubscriptionUpdated(Some(customer), status, periodEnd), false).0;
            var r := Billing.GetSubscriptionStatus(true, t', email, now);
            r.Subscription? && r.plan == "Pro"
  {
    var ms := periodEnd * 1000;
    var f := (p: Profile) => p.(subscriptionStatus := Some(PlanFor(status)), currentPeriodEnd := Some(ms));
    var keep := HasCustomer(Some(customer));
    var t' := UpdateWhere(t, keep, f);
    assert Handle(t, true, SubscriptionUpdated(Some(customer), status, periodEnd), false).0 == t';
    UpdatedRow(t, keep, f, email);
  }

  /** A completed checkout makes the buyer "Pro" when the session carries
      their email. */
  lemma CheckoutShowsPro(t: Table, email: string, customer: Option<string>, metadataEmail: Option<string>, now: int)
    requires email != "" && |WithEmail(t, email)| == 1
    ensures var t' := Handle(t, true, CheckoutCompleted(customer, Some(email), metadataEmail), false).0;
            var r := Billing.GetSubscriptionStatus(true, t', email, now);
            r.Subscription? && r.plan == "Pro"
  {
    var f := (p: Profile) => p.(stripeCustomerId := customer, subscriptionStatus := Some("pro"));
    var keep := HasEmail(email);
    var t' := UpdateWhere(t, keep, f);
    assert Handle(t, true, CheckoutCompleted(customer, Some(email), metadataEmail), false).0 == t';
    UpdatedRow(t, keep, f, email);
  }

  /** The one profile with a given email, after an update that selects it. */
  lemma UpdatedRow(t: Table, keep: Profile -> bool, f: Profile -> Profile, email: string)
    requires forall p :: f(p).email == p.email
    requires |WithEmail(t, email)| == 1 && keep(WithEmail(t, email)[0])
    ensures WithEmail(UpdateWhere(t, keep, f), email) == [f(WithEmail(t, email)[0])]
  {
    WithEmailAfterUpdate(t, keep, f, email);
  }

  /** No webhook event changes what the usage tool reports for anyone. */
  lemma EventKeepsUsage(t: Table, signatureValid: bool, ev: Event, updateFails: bool, configured: bool, email: string)
    ensures Billing.GetUsageStats(configured, Handle(t, signatureValid, ev, updateFails).0, email)
         == Billing.GetUsageStats(configured, t, email)
  {
    WithEmailKeepsUsage(t, Handle(t, signatureValid, ev, updateFails).0, email);
  }
}
